=== FILE: README.md ===
# Rewardo backend: ledger, authentication and request validation in Dafny

Rewardo is an Express/PostgreSQL backend for prepaid reward vouchers.
A super admin creates admin accounts. Each admin gets a wallet with a
balance of 0, which it tops up through Razorpay payment orders: an order is
created PENDING and then verified (SUCCESS, wallet credited) or marked
failed (FAILED). Against that balance an admin generates QR vouchers; each
one debits the wallet by its amount. A customer scans a QR once: the scan
records a customer transaction for the QR's amount and deactivates the QR.
Requests carry a JWT bearer token. Middleware authenticates the token,
checks the caller's role, validates the request against a Joi schema and
turns every error into a JSON response with an HTTP status.

The model has one Dafny module per source file of that core, plus a few
shared modules:

- `Types`: the entities and error classes, and the `Option` and `Result`
  wrappers.
- `Seqs`: filter, map, count and sum over sequences.
- `Strings`: decimal rendering and JavaScript's `split`.
- `Sql`: the query texts and parameter lists that the base repository
  builds.
- `Ledger`: the database. It is `State` as a value, and class `Store`,
  whose fields are the tables and the wallet map. Its methods are the
  single statements the repositories issue.
- `BaseRepository`: the generic table. Its finders are functions of the
  rows; `create`, `update` and `delete` are methods of class `Table`.
- `QrRepository`, `PaymentRepository`, `AdminRepository`: each operation
  is a specification function `Op(state, …): Step<T>` (the new state and
  the result) plus a method on `Store`. The method issues the same
  statements in source order, and its postcondition ties it to the
  function.
- `QrController`, `PaymentController`, `AuthController`: the handlers,
  as methods where they change the store and as functions where they only
  read it.
- `LedgerInvariants`: what the ledger operations keep true together.
  - Ids are serial.
  - Every wallet balance equals the successful top-ups minus the QR
    amounts generated.
  - Every customer transaction redeems its own QR, which is now inactive.
  - Every wallet, QR and order belongs to an admin id already handed out.
  - QRs only go from active to inactive, and orders only leave PENDING.
  - The invariant holds after any sequence of requests the routes admit.
- `Jwt`, `AuthMiddleware`, `ErrorMiddleware`, `AuthRoutes`: token
  handling, role guards, the error handler and the create-admin
  middleware chain.
- `Js` and `Joi`: a JSON value and an interpreter for the Joi schemas the
  validators declare. Its error reporting follows Joi's abort-early order:
  - fields are checked in declaration order, and each field checks
    presence, then type, then its rules in order;
  - unknown keys are checked next;
  - `.and()` peers are checked last.
- `OperationsValidation`, `PaymentValidation`, `AuthValidation`: each
  schema as data, with a lemma stating exactly which requests it accepts
  and which message comes first for the usual mistakes.

Things the model takes as parameters instead of computing them:

- the payment gateway's reply;
- bcrypt's hash and compare;
- `jwt.sign`, and the verdict of `jwt.verify`;
- Joi's e-mail grammar, ISO-date parser and number coercion;
- whether the wallet INSERT of `createAdmin` fails.

## Model

| member | source | states |
|---|---|---|
| Sql.Assignments | src/repositories/base.repository.ts:81-83 | entry i of the SET/WHERE list is `key_i = $(from+i)`, one per key |
| Sql.FindAllQuery | src/repositories/base.repository.ts:38-48 | without conditions the query has no WHERE and no parameters; with conditions the parameters are the condition values in key order |
| Sql.WhereBindsEachCondition | src/repositories/base.repository.ts:24-29 | in findAll, findOne and count, condition i reads `k_i = $(i+1)` and `$(i+1)` is bound to that condition's own value |
| Sql.UpdateBindsValuesThenId | src/repositories/base.repository.ts:79-92 | update binds SET entry i to value i and `WHERE id = $(n+1)` to the id |
| Sql.InsertAlignsColumnsAndValues | src/repositories/base.repository.ts:59-70 | create lists columns and placeholders in the same key order, `$(i+1)` bound to value i |
| BaseRepository.UnknownColumn | src/repositories/base.repository.ts:57-74 | the key reported by the column error is not a column of the table |
| BaseRepository.FindById | src/repositories/base.repository.ts:12-16 | the result, when present, is a row with that id; null exactly when no row has it |
| BaseRepository.FindOne | src/repositories/base.repository.ts:22-34 | fails (DatabaseError) exactly on an empty condition object or an unknown column; otherwise a matching row (`LIMIT 1` with no order), null exactly when no row matches |
| BaseRepository.FindAll | src/repositories/base.repository.ts:36-55 | fails only on an unknown column; otherwise exactly the matching rows, no more rows than the table |
| BaseRepository.FindAllWithoutConditions | src/repositories/base.repository.ts:38-51 | findAll() with no conditions returns the whole table in order |
| BaseRepository.CountIsFindAllLength | src/repositories/base.repository.ts:114-133 | count(c) fails exactly when findAll(c) fails, and otherwise equals the length of findAll(c) |
| BaseRepository.ColumnsOf | src/repositories/base.repository.ts:59-60 | the written column map has exactly the given keys, each with its own value |
| BaseRepository.Patch | src/repositories/base.repository.ts:85-90 | an updated row keeps its id, takes the listed values and keeps every other column |
| BaseRepository.Table.Create | src/repositories/base.repository.ts:57-75 | succeeds exactly for a non-empty object of known columns; appends one row with a fresh serial id and returns it; on error the table is unchanged |
| BaseRepository.Table.Update | src/repositories/base.repository.ts:77-102 | succeeds exactly when data is non-empty, columns are known and the id exists; patches exactly the rows with that id; a missing id gives the rewrapped not-found DatabaseError |
| BaseRepository.Table.Delete | src/repositories/base.repository.ts:104-112 | returns true exactly when a row had that id; afterwards no row has it and the others remain in order |
| Ledger.SerialAppend | src/repositories/qr-transaction.repository.ts:37-41 | appending the next serial id keeps ids positive, below the counter and distinct |
| Ledger.AppendQr | src/repositories/qr-transaction.repository.ts:37-51 | a QR inserted with the next id is not found before the insert, and the store stays well formed |
| Ledger.AppendCustomerTxn | src/repositories/qr-transaction.repository.ts:95-100 | an inserted customer transaction has an id no earlier one has, and the store stays well formed |
| Ledger.AppendPayment | src/repositories/payment.repository.ts:37-47 | an inserted order has an id no earlier one has, and the store stays well formed |
| Ledger.AppendAdmin | src/repositories/admin.repository.ts:31-38 | an inserted admin has an id no earlier one has, and the store stays well formed |
| Ledger.WalletBalance | src/controllers/payment.controller.ts:108 | reading a balance succeeds exactly when the admin has a wallet, and returns that wallet's balance |
| Ledger.Credit | src/repositories/payment.repository.ts:86-89 | the wallet set is unchanged and the given wallet moves by exactly delta |
| Ledger.FindQr | src/repositories/qr-transaction.repository.ts:89 | the QR found has that id; none is found exactly when no QR has it |
| Ledger.FindAfterSetInactive | src/repositories/qr-transaction.repository.ts:103 | after deactivating `id` every lookup finds the same QR, and the one with that id inactive |
| Ledger.FindQrAppend | src/repositories/qr-transaction.repository.ts:37-51 | after an insert, a lookup finds the same QR as before if there was one, and otherwise finds the new QR exactly when it has the id |
| Ledger.SetInactiveIdempotent | src/controllers/qr.controller.ts:112 | deactivating twice is the same as deactivating once |
| Ledger.SettleRowsAt | src/repositories/payment.repository.ts:70-77 | the conditional UPDATE changes exactly the PENDING rows of that order id, to the new status |
| Ledger.SettleRestUnchanged | src/repositories/payment.repository.ts:70-77 | when no other row carries the order id, the update leaves the rest of the table alone |
| Ledger.FirstPending | src/repositories/payment.repository.ts:83 | the row found is a PENDING row of that order id; none exactly when the order has no PENDING row |
| Ledger.SettledStartsWithFirstPending | src/repositories/payment.repository.ts:70-83 | the rows the UPDATE returns are empty exactly when no row is pending, and otherwise start with the first pending row, updated |
| Ledger.SettleWithoutMatch | src/repositories/payment.repository.ts:79-81 | when the UPDATE selects no row, the table is unchanged |
| Ledger.SettledLeavesNoPending | src/repositories/payment.repository.ts:72-74 | after the update moves the order out of PENDING, the same update selects nothing |
| Ledger.SetInactiveKeepsIds | src/repositories/qr-transaction.repository.ts:103 | deactivation keeps the store's ids well formed |
| Ledger.SettleKeepsIds | src/repositories/payment.repository.ts:70-77 | a status update keeps the store's ids well formed |
| Ledger.FindAdminByEmail | src/repositories/admin.repository.ts:11-13 | the admin found has that email; none exactly when no admin has it |
| Ledger.Store.GetAdminWalletBalance | src/repositories/qr-transaction.repository.ts:22 | succeeds exactly when the admin has a wallet, with its balance; otherwise the DatabaseError "Admin wallet not found"; changes nothing |
| Ledger.Store.UpdateWalletBalance | src/repositories/qr-transaction.repository.ts:54 | the wallets become `Credit(old wallets, id, delta)`; nothing else changes |
| Ledger.Store.InsertWallet | src/repositories/admin.repository.ts:41-44 | adds a wallet with balance 0 for the admin |
| Ledger.Store.FindQrById | src/repositories/qr-transaction.repository.ts:89 | finds a QR exactly when one has the id, and what it finds is a QR of the table with that id; changes nothing |
| Ledger.Store.InsertQr | src/repositories/qr-transaction.repository.ts:37-51 | appends an active QR with the next id and returns it |
| Ledger.Store.UpdateQrInactive | src/repositories/qr-transaction.repository.ts:103 | the QR table becomes `SetInactive(old table, id)` |
| Ledger.Store.InsertCustomerTxn | src/repositories/qr-transaction.repository.ts:95-100 | appends the customer transaction with the next id and returns it |
| Ledger.Store.InsertPayment | src/repositories/payment.repository.ts:37-47 | appends a PENDING order with the next id and returns it |
| Ledger.Store.UpdatePendingStatus | src/repositories/payment.repository.ts:70-77 | the table becomes the conditionally updated table and the returned rows are the updated rows, in table order |
| Ledger.Store.FindAdminWithEmail | src/repositories/admin.repository.ts:18-20 | finds an admin exactly when one has the email, and what it finds is an admin of the table with that email; changes nothing |
| Ledger.Store.InsertAdmin | src/repositories/admin.repository.ts:31-38 | appends the admin with the next id and returns it |
| QrRepository.Issue | src/repositories/qr-transaction.repository.ts:13-77 | succeeds exactly when the admin has a wallet holding at least the amount; the missing-wallet and insufficient-balance errors; on success one active QR is appended, the wallet is debited by the amount, the QR id counter advances by one and every other table and counter stays; an exact balance leaves 0 |
| QrRepository.Scan | src/repositories/qr-transaction.repository.ts:79-113 | succeeds exactly for an existing, active QR; then one customer transaction for the stored amount is appended and that QR deactivated, and only the customer-transaction id counter advances; otherwise the rewrapped "Invalid or inactive QR code" error and no change; wallets never change |
| QrRepository.ScanTwiceRedeemsOnce | src/repositories/qr-transaction.repository.ts:88-92 | a second scan of a redeemed QR fails and changes nothing, whoever the customer is |
| QrRepository.GenerateQR | src/repositories/qr-transaction.repository.ts:13-77 | the new store and the result are those of `Issue` |
| QrRepository.ProcessQRScan | src/repositories/qr-transaction.repository.ts:79-113 | the new store and the result are those of `Scan` |
| QrRepository.AdminTransactions | src/repositories/qr-transaction.repository.ts:140-142 | exactly the admin's QRs |
| QrRepository.ActiveTransactions | src/repositories/qr-transaction.repository.ts:144-149 | exactly the admin's active QRs |
| QrRepository.ActiveIsAdminAndActive | src/repositories/qr-transaction.repository.ts:144-149 | the active listing is the admin listing filtered to active QRs |
| QrRepository.TotalWithoutQrs | src/repositories/qr-transaction.repository.ts:151-163 | `COALESCE(SUM(amount), 0)`: the total generated by an admin without QRs is 0 |
| QrRepository.TotalAfterAppend | src/repositories/qr-transaction.repository.ts:151-163 | a new QR adds its amount to its owner's total and to no other |
| QrRepository.TotalAfterSetInactive | src/repositories/qr-transaction.repository.ts:151-163 | deactivation changes no total: spent QRs still count as generated |
| QrRepository.AdminListingIsFindAll | src/repositories/qr-transaction.repository.ts:140-142 | the admin listing is `findAll({ admin_id })` on the qr table |
| QrRepository.ActiveListingIsFindAll | src/repositories/qr-transaction.repository.ts:144-149 | the active listing is `findAll({ admin_id, is_active: true })` |
| QrRepository.FindQrIsFindById | src/repositories/qr-transaction.repository.ts:89 | looking a QR up by id gives the row the generic `findById` returns on the qr table, or null for both |
| QrRepository.SetInactiveIsUpdate | src/repositories/qr-transaction.repository.ts:103 | deactivation is the generic `update(id, { is_active: false })` |
| PaymentRepository.CreateOrder | src/repositories/payment.repository.ts:20-62 | the gateway is asked for amount*100 paise in INR; success exactly when it creates an order, then one PENDING row under its id is appended and only the payment id counter advances; a rejection gives the wrapped error and no change; other tables and counters never change |
| PaymentRepository.SettleOrder | src/repositories/payment.repository.ts:70-81 | succeeds exactly when the order has a PENDING row; returns that first row with the new status; otherwise "not found or already processed" and no change |
| PaymentRepository.Verify | src/repositories/payment.repository.ts:64-102 | as SettleOrder to SUCCESS, and the owner's wallet is credited by the order amount |
| PaymentRepository.MarkFailed | src/repositories/payment.repository.ts:104-129 | as SettleOrder to FAILED; no wallet changes |
| PaymentRepository.VerifyTwiceCreditsOnce | src/repositories/payment.repository.ts:70-81 | verifying a verified order fails and changes nothing, so a wallet is credited once per order |
| PaymentRepository.SettledOrdersAreFinal | src/repositories/payment.repository.ts:64-118 | after a successful verify, and after a successful mark-failed, both operations reject the order with "Transaction record not found or already processed" and change nothing, wallets included |
| PaymentRepository.CreatePaymentOrder | src/repositories/payment.repository.ts:20-62 | the new store and the result are those of `CreateOrder` |
| PaymentRepository.VerifyPayment | src/repositories/payment.repository.ts:64-102 | the new store and the result are those of `Verify` |
| PaymentRepository.MarkPaymentFailed | src/repositories/payment.repository.ts:104-129 | the new store and the result are those of `MarkFailed` |
| PaymentRepository.AdminPayments | src/repositories/payment.repository.ts:131-133 | exactly the admin's orders |
| PaymentRepository.PaymentsByStatus | src/repositories/payment.repository.ts:135-139 | exactly the orders in that status, of every admin |
| PaymentRepository.TotalPayments | src/repositories/payment.repository.ts:141-174 | total is the number of the admin's orders and equals successful + failed + pending |
| PaymentRepository.CountByStatus | src/repositories/payment.repository.ts:148-156 | each of the admin's orders is counted in exactly one status |
| PaymentRepository.AdminPaymentsIsFindAll | src/repositories/payment.repository.ts:131-133 | the listing is `findAll({ admin_id })` on admin_transaction |
| PaymentRepository.PaymentsByStatusIsFindAll | src/repositories/payment.repository.ts:135-139 | the listing is `findAll({ transaction_status })` on admin_transaction |
| AdminRepository.CreateAdmin | src/repositories/admin.repository.ts:15-53 | a taken email gives "Email already exists" and no change; otherwise the admin row is inserted with the hashed password and the creator; with a wallet row of balance 0 it returns the admin, and a failing wallet insert leaves the admin without wallet and reports the wrapped error; only the admin id counter advances |
| AdminRepository.CreateAdminAccount | src/repositories/admin.repository.ts:15-53 | the new store and the result are those of `CreateAdmin` |
| AdminRepository.CreateAdminKeepsEmailsDistinct | src/repositories/admin.repository.ts:17-24 | the duplicate check keeps admin emails unique |
| AdminRepository.AdminsByCreator | src/repositories/admin.repository.ts:63-65 | exactly the admins that super admin created |
| AdminRepository.FindByEmailIsFindOne | src/repositories/admin.repository.ts:11-13 | findByEmail is `findOne({ email })` on the admin table |
| AdminRepository.AdminsByCreatorIsFindAll | src/repositories/admin.repository.ts:63-65 | getAdminsByCreator is `findAll({ superadmin_id })` |
| QrController.GenerateQRHandler | src/controllers/qr.controller.ts:15-38 | the QR is issued for the authenticated user; the response carries the new QR's id and amount; errors pass through |
| QrController.Deactivate | src/controllers/qr.controller.ts:97-121 | succeeds exactly for an existing QR owned by the caller, which becomes inactive; "QR code not found" / "Unauthorized access to QR code" leave the store unchanged |
| QrController.DeactivateLeavesInactive | src/controllers/qr.controller.ts:103-112 | after deactivation the QR is found inactive, with owner and amount unchanged |
| QrController.DeactivateIdempotent | src/controllers/qr.controller.ts:97-121 | deactivating again succeeds and changes nothing |
| QrController.DeactivateQR | src/controllers/qr.controller.ts:97-121 | the new store and the result are those of `Deactivate` |
| QrController.AdminListing | src/controllers/qr.controller.ts:60-77 | one entry (id, amount, active flag) per QR of the caller, in order |
| QrController.ActiveListing | src/controllers/qr.controller.ts:79-95 | one entry (id, amount) per active QR of the caller, in order |
| QrController.TransactionStats | src/controllers/qr.controller.ts:123-144 | total amount generated; total, active and inactive counts, where inactive (the difference) is exactly the number of inactive QRs |
| PaymentController.CreatePaymentOrderHandler | src/controllers/payment.controller.ts:16-38 | the order is created for the authenticated user |
| PaymentController.VerifyResponse | src/controllers/payment.controller.ts:40-62 | the store is that of `Verify`; success exactly when the order was pending and its owner has a wallet; the reported balance is the old balance plus the order amount |
| PaymentController.VerifyPaymentHandler | src/controllers/payment.controller.ts:40-62 | the new store and the response are those of `VerifyResponse` |
| PaymentController.FailureResponse | src/controllers/payment.controller.ts:64-81 | the store is that of `MarkFailed`; success exactly for a pending order, reported as FAILED under its order id |
| PaymentController.HandlePaymentFailure | src/controllers/payment.controller.ts:64-81 | the new store and the response are those of `FailureResponse` |
| PaymentController.PaymentHistory | src/controllers/payment.controller.ts:83-101 | one entry per order of the caller, in order |
| PaymentController.PaymentStats | src/controllers/payment.controller.ts:103-133 | fails exactly when the caller has no wallet; the counts are getTotalPayments and add up; the amount added is the sum of the caller's SUCCESS orders |
| LedgerInvariants.EvolvesTransitive | src/repositories/payment.repository.ts:70-77 | the "later store" relation composes over runs of operations |
| LedgerInvariants.SpentAndSettledAreFinal | src/repositories/payment.repository.ts:72-74 | a spent QR and a settled order never change again |
| LedgerInvariants.EmptyStoreIsValid | src/repositories/admin.repository.ts:41-44 | the empty store satisfies the ledger invariant |
| LedgerInvariants.IssueKeepsInvariant | src/repositories/qr-transaction.repository.ts:13-77 | generateQR keeps balances equal to top-ups minus generated amounts, keeps redemptions, and only adds rows |
| LedgerInvariants.ScanKeepsInvariant | src/repositories/qr-transaction.repository.ts:79-113 | a scan keeps the invariant: the new transaction redeems its now inactive QR, and no QR is redeemed twice |
| LedgerInvariants.DeactivateKeepsInvariant | src/controllers/qr.controller.ts:97-121 | deactivation keeps the invariant |
| LedgerInvariants.AmountAddedAfterSuccess | src/repositories/payment.repository.ts:64-92 | with distinct order ids, verifying adds exactly the order amount to its owner's top-up sum and nothing to others |
| LedgerInvariants.AmountAddedAfterFailure | src/repositories/payment.repository.ts:104-120 | marking an order failed changes no top-up sum |
| LedgerInvariants.CreateOrderKeepsInvariant | src/repositories/payment.repository.ts:20-62 | an order placed by an existing admin keeps the invariant when the gateway's order id is new |
| LedgerInvariants.VerifyKeepsInvariant | src/repositories/payment.repository.ts:64-102 | verification keeps the balance equation: the credit matches the new SUCCESS amount |
| LedgerInvariants.MarkFailedKeepsInvariant | src/repositories/payment.repository.ts:104-129 | marking failed keeps the invariant |
| LedgerInvariants.CreateAdminKeepsInvariant | src/repositories/admin.repository.ts:15-53 | creating an admin keeps the invariant: the new admin's zero wallet is balanced because no QR or order yet carries the new id |
| LedgerInvariants.OwnersAfterIssue | src/repositories/qr-transaction.repository.ts:13-71 | a QR is only issued against an existing wallet, so every QR belongs to an admin id already handed out |
| LedgerInvariants.OwnersAfterCreateAdmin | src/repositories/admin.repository.ts:15-53 | the new wallet carries the id just handed out |
| LedgerInvariants.BalancedAfterCreateAdmin | src/repositories/admin.repository.ts:40-44 | a zero wallet for an id that no QR or order carries satisfies the balance equation |
| LedgerInvariants.RedeemedAfterScan | src/repositories/qr-transaction.repository.ts:79-113 | the new customer transaction redeems the QR just spent, for its amount, and no earlier transaction redeemed it |
| LedgerInvariants.ApplyKeepsInvariant | src/routes/payment.routes.ts:15-37 | every admitted request (generate, scan, deactivate, create order, verify, mark failed, create admin) keeps the invariant and only evolves the store |
| LedgerInvariants.RunKeepsInvariant | src/routes/payment.routes.ts:15-37 | after any sequence of admitted requests from a valid store, every wallet still equals successful top-ups minus QR amounts generated, ids stay serial, each redemption holds, and the store has only evolved; a payment order is admitted when its admin exists (authenticate and requireAdmin pass only issued tokens) and the gateway's order id is new |
| LedgerInvariants.StatsAgreeWithLedger | src/controllers/payment.controller.ts:103-133 | in a balanced store the reported wallet balance is the reported amount added minus the QR total generated |
| Jwt.ValidateSecret | src/utils/jwt.ts:22-26 | fails exactly when the secret is empty, with the missing-secret error |
| Jwt.GenerateToken | src/utils/jwt.ts:28-33 | fails exactly when the secret is empty; otherwise the token is the signature of the payload with `parseInt(JWT_EXPIRES_IN) \|\| '24h'` as the `expiresIn` option, as written (see Findings) |
| Jwt.DefaultTokenLivesSeconds | src/utils/jwt.ts:8-33 | with JWT_EXPIRES_IN unset, every token is signed with `expiresIn` 24, a 24-second lifetime |
| Jwt.ConfiguredExpiry | src/utils/jwt.ts:8 | an unset or empty JWT_EXPIRES_IN gives "24h"; any other value is used as it is |
| Jwt.DigitRun | src/utils/jwt.ts:31 | the leading run of digits: all digits, and the character after it is not one |
| Jwt.ParseIntPrefix | src/utils/jwt.ts:31 | `parseInt` gives NaN exactly when no digit follows the leading white space and optional sign |
| Jwt.ParseIntStopsAtUnit | src/utils/jwt.ts:31 | `parseInt("<n><unit>")` is n |
| Jwt.ExpiryAsWrittenDropsUnit | src/utils/jwt.ts:31 | as written, a positive duration `<n><unit>` becomes the number n, so tokens live n seconds whatever the unit |
| Jwt.DefaultExpiryAsWrittenCounterexample | src/utils/jwt.ts:8-31 | as written, the default "24h" signs tokens that live 24 seconds, where the corrected option gives 86400 |
| Jwt.DurationKeepsUnit | src/utils/jwt.ts:8-31 | corrected, a duration `<n><unit>` makes tokens live n units |
| Jwt.PlainSecondsAgree | src/utils/jwt.ts:31 | for a plain positive number of seconds the code as written and the correction agree |
| Jwt.VerifyToken | src/utils/jwt.ts:35-49 | succeeds exactly for a non-empty secret and a verified token, with its payload; expiry and malformed tokens become "Token has expired" / "Invalid token"; other errors pass through |
| Jwt.ExtractTokenFromHeader | src/utils/jwt.ts:51-62 | a missing or empty header gives "No authorization header provided"; any other error is the format error |
| Jwt.ExtractAcceptsExactlyBearer | src/utils/jwt.ts:56-61 | a non-empty header is accepted exactly when it is `Bearer ` followed by a space-free token, and the token is what follows |
| Jwt.ExtractRoundTrip | src/utils/jwt.ts:51-62 | extracting from `Bearer <token>` gives back the token, for every space-free token |
| Jwt.ExtractRejectsNonBearer | src/utils/jwt.ts:57-59 | every non-empty header that is not a bearer header gets the format error |
| Jwt.ExtractRejectsMalformedHeaders | src/utils/jwt.ts:56-59 | for every token, a lower-case `bearer` scheme, a second space anywhere after `Bearer `, a double space and a bare `Bearer` are all refused |
| Jwt.Middleware | src/utils/jwt.ts:64-86 | admits exactly a valid bearer token whose verified role is allowed (every role when no list is given), with the verified payload; refusals are 401 or 403, 403 exactly for a verified role outside the list with "Insufficient permissions"; every refusal has a non-empty message |
| AuthMiddleware.Authenticate | src/middleware/auth.middleware.ts:14-33 | succeeds exactly for a bearer header whose token verifies under a non-empty secret, yielding its payload; every failure is "Authentication failed" |
| AuthMiddleware.AuthenticateAgreesWithMiddleware | src/middleware/auth.middleware.ts:14-33 | authenticate admits exactly what the JWT middleware without a role list admits, with the same user |
| AuthMiddleware.RequireSuperAdmin | src/middleware/auth.middleware.ts:35-48 | passes exactly a super admin; otherwise "Super admin access required" |
| AuthMiddleware.RequireAdmin | src/middleware/auth.middleware.ts:50-63 | passes exactly an admin (not a super admin); otherwise "Admin access required" |
| AuthMiddleware.RequireAnyAdmin | src/middleware/auth.middleware.ts:65-78 | passes exactly an admin or a super admin; otherwise "Admin access required" |
| AuthMiddleware.RoleGuardsPartition | src/middleware/auth.middleware.ts:35-78 | requireAnyAdmin passes exactly when one of requireAdmin and requireSuperAdmin passes, never both |
| AuthMiddleware.RequireOwnershipAsWritten | src/middleware/auth.middleware.ts:80-102 | the ownership check as written: no user gives "Authentication required", a super admin passes, anyone else passes only if the parameter strictly equals the numeric id |
| AuthMiddleware.OwnershipAsWrittenRefusesEveryOwner | src/middleware/auth.middleware.ts:93-95 | as written, every admin is refused whatever the (string or missing) parameter |
| AuthMiddleware.OwnershipAsWrittenCounterexample | src/middleware/auth.middleware.ts:93-95 | admin 5 requesting resource "5" is refused |
| AuthMiddleware.RequireOwnership | src/middleware/auth.middleware.ts:80-102 | corrected check: a super admin passes; any other user passes exactly when the parameter is the decimal rendering of their id |
| AuthMiddleware.OwnershipAdmitsExactlyTheOwner | src/middleware/auth.middleware.ts:93-95 | an admin is admitted to the resource named by their own id |
| AuthMiddleware.OwnershipSeparatesUsers | src/middleware/auth.middleware.ts:93-95 | two admins with different ids are never both admitted to the same resource |
| AuthController.FindSuperAdminByEmail | src/repositories/superadmin.repository.ts:10-12 | the super admin found has that email; none exactly when no super admin has it |
| AuthController.Login | src/controllers/auth.controller.ts:23-72 | super admins are looked up first, then admins; success exactly when the account exists, the password matches and the secret is set; an unknown email or a wrong password is "Invalid email or password"; the token is the signature of the returned user with the as-written `parseInt(JWT_EXPIRES_IN) \|\| '24h'` expiry option, the user's email is the one given and the role is that of the table it came from |
| AuthController.SuperAdminShadowsAdmins | src/controllers/auth.controller.ts:27-44 | when a super admin has the email, the admin table is never consulted |
| AuthController.CreateAdminHandler | src/controllers/auth.controller.ts:74-94 | the store changes as `CreateAdmin` with the caller as creator; success gives 201 with the new id, name, email and company name; errors pass through |
| AuthRoutes.CreateAdminGuards | src/routes/auth.routes.ts:16-22 | the controller runs exactly for an authenticated super admin with a valid body; an authentication failure, then the role check, then validation decide the error |
| AuthRoutes.AdminCannotCreateAdmins | src/__tests__/auth.test.ts:167-191 | an authenticated admin gets 403 "Super admin access required" of type AuthorizationError, whatever the body |
| AuthRoutes.MissingTokenIs401 | src/middleware/auth.middleware.ts:20-23 | a request without an authorization header gets 401 "Authentication failed" |
| ErrorMiddleware.ErrorHandler | src/middleware/error.middleware.ts:18-101 | 400 exactly for validation and Razorpay errors, 401 for authentication and JWT errors, 403 for authorization errors, 500 otherwise; the message, type and details of each branch; server details only in development |
| ErrorMiddleware.ErrorHandlerHidesServerMessages | src/middleware/error.middleware.ts:94-100 | outside development, an unexpected error's message never reaches the response |
| ErrorMiddleware.ErrorHandlerChecksClassesNotNames | src/middleware/error.middleware.ts:35-68 | a plain error named "ValidationError" is a 500, and one named "DatabaseError" gets no details: the classes are checked with instanceof |
| ErrorMiddleware.NotFoundHandler | src/middleware/error.middleware.ts:104-118 | 404 "Resource not found", type NotFoundError, details `<method> <url> not found`; a status the error handler gives no error, whatever the environment, so a 404 always means an unmatched route |
| ErrorMiddleware.ErrorHandlerNeverNotFound | src/middleware/error.middleware.ts:18-101 | the error handler only answers 400, 401, 403 or 500 |
| ErrorMiddleware.ValidateRequest | src/middleware/error.middleware.ts:121-150 | passes exactly when every declared part validates; body errors come before query errors, query errors before params errors; errors are ValidationErrors carrying the first Joi message |
| ErrorMiddleware.ValidationFailuresAre400 | src/middleware/error.middleware.ts:121-150 | a failed validation is answered 400 with its first message |
| Joi.FirstError | src/middleware/error.middleware.ts:126-128 | no error exactly when every item passes; otherwise the error of the first failing item |
| Joi.FirstErrorAt | src/middleware/error.middleware.ts:126-128 | the reported error is that of the first failing item |
| Joi.Declared | src/validations/operations.validation.ts:16-41 | a key is declared exactly when some entry of the schema has it |
| Joi.PeersError | src/validations/operations.validation.ts:132 | `.and()` passes exactly when the peers are all present or all absent |
| Joi.Validate | src/middleware/error.middleware.ts:126-128 | an object passes exactly when every declared field passes, it has no undeclared key and the peers agree |
| Joi.ValidateWithoutPeers | src/middleware/error.middleware.ts:126-128 | without peers, validation is the fields plus the unknown-key rule |
| Joi.NumberFieldAccepts | src/validations/operations.validation.ts:79-114 | a number field accepts an absent optional value or a safe number satisfying every rule |
| Joi.TextFieldAccepts | src/validations/auth.validation.ts:3-15 | a text field accepts an absent optional value or a non-empty string satisfying every rule |
| Joi.ChoiceFieldAccepts | src/validations/operations.validation.ts:101-112 | a `valid(...)` field accepts an absent value or one of its strings |
| Joi.DateFieldAccepts | src/validations/operations.validation.ts:116-133 | a date field accepts an absent value or an ISO date not before its reference date |
| Joi.DeclaredSmall | src/validations/auth.validation.ts:17-68 | the declared keys of one to five entries, spelled out |
| Joi.ValidateSmallSchema | src/validations/auth.validation.ts:17-68 | validation of a one-to-five key schema, spelled out field by field |
| Joi.ValidateReportsFirstField | src/middleware/error.middleware.ts:126-128 | validation reports the message of the first declared field that fails |
| OperationsValidation.PositiveFieldAccepts | src/validations/operations.validation.ts:3-14 | a required positive number accepts exactly safe positive numbers; missing, non-number and non-positive values get their own messages |
| OperationsValidation.RequiredTextAccepts | src/validations/operations.validation.ts:16-41 | a required string accepts exactly a non-empty string; missing or empty get the required message, other types "must be a string" |
| OperationsValidation.AmountBodyAcceptsExactly | src/validations/operations.validation.ts:3-14 | generateQRSchema and createPaymentOrderSchema accept exactly a body with only a positive amount; no amount gives "Amount is required" |
| OperationsValidation.ProcessQRAcceptsExactly | src/validations/operations.validation.ts:16-41 | processQRSchema accepts exactly positive qrId and customerId, non-empty encryptedData and nothing else |
| OperationsValidation.ProcessQRMessages | src/validations/operations.validation.ts:16-41 | the QR id is checked first, then the customer id, then the encrypted data |
| OperationsValidation.VerifyPaymentAcceptsExactly | src/validations/operations.validation.ts:56-77 | verifyPaymentSchema accepts exactly non-empty orderId, paymentId and signature and nothing else |
| OperationsValidation.PageAccepts | src/validations/operations.validation.ts:81-89 | page: absent or an integer of at least 1, with the integer and minimum messages |
| OperationsValidation.LimitAccepts | src/validations/operations.validation.ts:90-100 | limit: absent or an integer from 1 to 100, with the minimum and maximum messages |
| OperationsValidation.PaginationAcceptsExactly | src/validations/operations.validation.ts:79-114 | paginationSchema accepts exactly valid optional page, limit, sortBy and order and no other key |
| OperationsValidation.DateRangeParts | src/validations/operations.validation.ts:116-133 | dateRangeSchema is its two date fields, no other key, and both-or-neither |
| OperationsValidation.DateRangeAcceptsExactly | src/validations/operations.validation.ts:116-133 | accepts exactly no dates, or two ISO dates with the end not before the start, and no other key |
| OperationsValidation.DateRangeMessages | src/validations/operations.validation.ts:116-133 | an end before the start gives "End date must be after start date"; an end without a start gives the reference error |
| OperationsValidation.IdParamAcceptsExactly | src/validations/operations.validation.ts:135-146 | idParamSchema accepts exactly a positive id and no other parameter |
| PaymentValidation.PaymentOrderAcceptsExactly | src/validations/payment.validation.ts:4-15 | createPaymentOrderSchema accepts exactly a body with only a positive amount |
| PaymentValidation.OrderIdSchemasAcceptExactly | src/validations/payment.validation.ts:17-26 | verifyPaymentSchema and failureSchema accept exactly a body with only a non-empty orderId; a missing one gives "Order ID is required" |
| PaymentValidation.StatusChoicesAreTransactionStatuses | src/validations/payment.validation.ts:50-54 | the accepted status strings are exactly the names of the three transaction statuses |
| PaymentValidation.HistoryParts | src/validations/payment.validation.ts:28-70 | paymentHistorySchema is its five fields and no other key |
| PaymentValidation.HistoryAcceptsExactly | src/validations/payment.validation.ts:28-70 | accepts exactly valid optional page, limit, status, startDate and endDate, the end not before the start, and no other key |
| AuthValidation.LoginAcceptsExactly | src/validations/auth.validation.ts:3-15 | loginSchema accepts exactly a well-formed email and a non-empty password and nothing else; a malformed email gives "Invalid email format" |
| AuthValidation.TwoRuleTextAccepts | src/validations/auth.validation.ts:19-28 | a required string with two rules accepts exactly a non-empty string meeting both, and reports the first broken rule |
| AuthValidation.NameAccepts | src/validations/auth.validation.ts:19-28 | name: 3 to 100 characters; a short name gets the minimum message |
| AuthValidation.EmailAccepts | src/validations/auth.validation.ts:29-36 | email: a non-empty string the e-mail grammar accepts |
| AuthValidation.PhoneAccepts | src/validations/auth.validation.ts:37-46 | phone: exactly ten digits; the length message comes before the digits message |
| AuthValidation.CompanyNameAccepts | src/validations/auth.validation.ts:47-56 | company name: 2 to 255 characters |
| AuthValidation.PasswordAccepts | src/validations/auth.validation.ts:57-66 | password: at least 8 characters with a lower-case letter, an upper-case letter, a digit and one of `@$!%*?&`, and nothing else; the length message comes first |
| AuthValidation.CreateAdminAcceptsExactly | src/validations/auth.validation.ts:17-68 | createAdminSchema accepts exactly the five valid fields and nothing else; leaving out any of them is an error |
| AuthValidation.PasswordCharacterClasses | src/validations/auth.validation.ts:57-66 | a password of 8 or more characters is refused with the pattern message when it lacks an upper-case letter, a lower-case letter, a digit or one of `@$!%*?&`, or holds any other character; with all four classes and nothing else it passes |

## Left out

- Each modelled operation runs whole, one request after another: there is no interleaving. Every explicit check (wallet balance, QR found and active, pending order, e-mail taken) fails before any write, so a refused request changes nothing, and that is what the model states. A failure inside the PostgreSQL driver (a lost connection, a constraint violation) is not modelled, except where the source reports it through a parameter (the gateway reply, the wallet insert).
- Partial commits: the BEGIN/COMMIT/ROLLBACK of generateQR, processQRScan and verifyPayment is opened on a pooled `client`, but the queries of src/repositories/base.repository.ts (`findById`, `update`) and the wallet calls go through `database.query`, outside that transaction, and markPaymentFailed has no BEGIN at all. So a failure after a write leaves that write committed: for example, in generateQR a failing `QRCode.toDataURL` after the debit, or in processQRScan a failing `update` after the customer transaction insert. The model does not capture these partial outcomes.
- Concurrency: processQRScan reads the QR with `findById`, checks `is_active`, then inserts and updates without a lock, so two concurrent scans of one QR could both pass the check and both insert a customer transaction. generateQR likewise reads the balance, then debits. The model runs requests one at a time, so `QrRepository.ScanTwiceRedeemsOnce` and the `Redeemed` invariant hold for sequential requests only.
- `getAdminWalletBalance` and `updateWalletBalance` are called on the admin repository but are not defined in src/repositories/admin.repository.ts. The model reads a missing wallet as the DatabaseError "Admin wallet not found", and a credit to a missing wallet as no change.
- TransactionStatus is not defined in src/types/index.ts. Its values are taken to be the strings "PENDING", "SUCCESS" and "FAILED".
- The QR payload is opaque:
  - encryption (src/utils/encryption.ts is not part of this model), the qr_data JSON and the QR image are left out;
  - `verifyQR` (decrypting a payload and looking up its QR) is left out with it;
  - `processQRScan` ignores the payload, as the source does.
- Timestamps (`created_at`, the Razorpay receipt `rcpt_<time>`, the QR timestamp) are clock values and are left out of the records and responses.
- The Razorpay gateway is a function from the order request to its reply. `verifyPayment` does not check the payment signature, and neither does the source.
- The qr controller's `processQRScan` (src/controllers/qr.controller.ts:40-58) passes the body straight to the repository and is modelled by `QrRepository.ProcessQRScan`. `Number(...)` coercion of the ids is left to the validation model.
- bcrypt: hashing is a function parameter (salting is left out), comparison is a predicate parameter. The failure path of `validatePassword` (the DatabaseError "Error validating password") is not modelled.
- `jwt.sign` and `jwt.verify` are parameters. `sign` receives the `expiresIn` option jwt.ts:31 computes from JWT_EXPIRES_IN as written (`Jwt.ExpiresInAsWritten`); the corrected option (`Jwt.ExpiresInOption`) is stated and proved only in the Findings lemmas, not used by login. Whether a token has expired is part of the verify verdict.
- BaseRepository.Table.Update: a `data` object that holds `id` is not modelled (the requires excludes it); `SET id = …` would rename the row, which no caller in these files does (qr.controller.ts passes `{ is_active: false }`). BaseRepository.Table.Create excludes `id` for the same reason: an explicit id would bypass the serial counter.
- Jwt.ParseIntPrefix: white space is space, tab, line feed and carriage return only, and the `0x` hexadecimal prefix `parseInt` also accepts is not modelled.
- Jwt.LifetimeSeconds: the `ms` notation is read only for plain digits (milliseconds) and digits followed by `s`, `m`, `h` or `d`; fractions, negative spans and long unit names give None.
- `JWT.middleware` is modelled, though no route uses it.
- Joi:
  - Its e-mail grammar, its ISO-8601 date parser and its string-to-number coercion are parameters (`Grammar`).
  - Coerced values and defaults (`page` 1, `limit` 10) are not returned, because `validateRequest` discards them.
  - String lengths count characters, not UTF-16 code units.
  - The wording of the `any.ref` error and the `object.and` error (`"value" contains [...] without its required peers [...]`) is approximate.
- Express plumbing (`res.json`, `next`, response `success` flags of successful calls) is reduced to the returned data and status.
- Integers are unbounded: JavaScript's floating-point numbers and PostgreSQL's integer widths are not modelled.
- Ledger.WalletBalance, Ledger.Credit: the wallet table and its SQL are not in the source; the behaviour of a missing wallet is the assumption above.

## Findings

| source | as written | input that shows it | evidently intended | confidence | as-written member | corrected member |
|---|---|---|---|---|---|---|
| src/middleware/auth.middleware.ts:93 | `resourceId !== req.user.id` compares the route parameter, always a string, with the token's id, a number (login signs the numeric `user.id`), so strict inequality always holds and every non-super-admin is refused. The defect is latent: no route mounts `requireOwnership`. The compiler does not catch it because the user's `id` is declared `string` (src/middleware/auth.middleware.ts:7, src/utils/jwt.ts:11) | an admin with id 5 requesting `/…/5` | admit the user whose id is the parameter: compare `String(req.user.id)` with the parameter | not executed | AuthMiddleware.OwnershipAsWrittenCounterexample | AuthMiddleware.OwnershipAdmitsExactlyTheOwner |
| src/utils/jwt.ts:31 | `expiresIn: parseInt(JWT_EXPIRES_IN) \|\| '24h'` turns a duration with a unit into its bare number, which jsonwebtoken reads as seconds | the default "24h": tokens expire after 24 seconds | pass a duration with a unit on as the string, so "24h" means 86400 seconds | not executed | Jwt.DefaultExpiryAsWrittenCounterexample | Jwt.DurationKeepsUnit |

=== FILE: admin_repository.dfy ===
/**
 * Admin accounts, src/repositories/admin.repository.ts: lookup by email,
 * listing by creating super admin, and createAdmin, which rejects a taken
 * email, stores the hashed password, inserts the admin row and then a wallet
 * row with balance 0, as two separate statements.
 *
 * bcrypt's salted hash is a parameter (the hash function for this call);
 * whether the wallet INSERT fails, and how its error prints, is a parameter
 * too.
 */
module AdminRepository {
  import opened Types
  import opened Seqs
  import opened Sql
  import opened BaseRepository
  import opened Ledger

  function NewAdmin(st: State, req: CreateAdminRequest, superadminId: int, hash: string -> string): Admin {
    Admin(st.nextAdminId, superadminId, req.name, req.email, req.phone, hash(req.password), req.companyName)
  }

  /** createAdmin. */
  function CreateAdmin(st: State, req: CreateAdminRequest, superadminId: int, hash: string -> string,
                       walletFailure: Option<string>): (r: Step<Admin>)
    ensures r.result.Ok? <==> FindAdminByEmail(st.admins, req.email).None? && walletFailure.None?
    ensures FindAdminByEmail(st.admins, req.email).Some? ==>
      r == Step(st, Err(DatabaseError("Email already exists")))
    ensures FindAdminByEmail(st.admins, req.email).None? ==>
      var a := NewAdmin(st, req, superadminId, hash);
      a.password == hash(req.password) && a.superadminId == superadminId &&
      r.state.admins == st.admins + [a] && r.state.nextAdminId == st.nextAdminId + 1 &&
      (walletFailure.None? ==> r.result == Ok(a) && r.state.wallets == st.wallets[a.id := 0]) &&
      (walletFailure.Some? ==>
        r.result == Err(DatabaseError("Error creating admin: " + walletFailure.value)) &&
        r.state.wallets == st.wallets)
    ensures r.state.qrs == st.qrs && r.state.customerTxns == st.customerTxns &&
      r.state.payments == st.payments && r.state.superAdmins == st.superAdmins &&
      r.state.nextQrId == st.nextQrId && r.state.nextCustomerTxnId == st.nextCustomerTxnId &&
      r.state.nextPaymentId == st.nextPaymentId
  {
    if FindAdminByEmail(st.admins, req.email).Some? then Step(st, Err(DatabaseError("Email already exists")))
    else
      var a := NewAdmin(st, req, superadminId, hash);
      var inserted := st.(admins := st.admins + [a], nextAdminId := st.nextAdminId + 1);
      match walletFailure
      case Some(rendered) => Step(inserted, Err(DatabaseError("Error creating admin: " + rendered)))
      case None => Step(inserted.(wallets := inserted.wallets[a.id := 0]), Ok(a))
  }

  method CreateAdminAccount(s: Store, req: CreateAdminRequest, superadminId: int, hash: string -> string,
                            walletFailure: Option<string>) returns (r: Result<Admin>)
    requires s.Valid()
    modifies s
    ensures s.Valid()
    ensures Step(s.Snapshot(), r) == CreateAdmin(old(s.Snapshot()), req, superadminId, hash, walletFailure)
  {
    var existing := s.FindAdminWithEmail(req.email);
    if existing.Some? {
      return Err(DatabaseError("Email already exists"));
    }
    var hashed := hash(req.password);
    var a := s.InsertAdmin(superadminId, req.name, req.email, req.phone, hashed, req.companyName);
    if walletFailure.Some? {
      return Err(DatabaseError("Error creating admin: " + walletFailure.value));
    }
    s.InsertWallet(a.id);
    r := Ok(a);
  }

  /** No two admins share an email. */
  ghost predicate DistinctEmails(admins: seq<Admin>) {
    forall i, j :: 0 <= i < j < |admins| ==> admins[i].email != admins[j].email
  }

  /** The duplicate check keeps emails unique, whether or not the wallet insert fails. */
  lemma CreateAdminKeepsEmailsDistinct(st: State, req: CreateAdminRequest, superadminId: int,
                                       hash: string -> string, walletFailure: Option<string>)
    requires DistinctEmails(st.admins)
    ensures DistinctEmails(CreateAdmin(st, req, superadminId, hash, walletFailure).state.admins)
  {
  }

  function CreatedBy(superadminId: int): Admin -> bool {
    (a: Admin) => a.superadminId == superadminId
  }

  /** getAdminsByCreator: the admins a super admin created, in table order. */
  function AdminsByCreator(admins: seq<Admin>, superadminId: int): (r: seq<Admin>)
    ensures forall i :: 0 <= i < |r| ==> r[i] in admins && r[i].superadminId == superadminId
    ensures forall i :: 0 <= i < |admins| && admins[i].superadminId == superadminId ==> admins[i] in r
  {
    Filter(admins, CreatedBy(superadminId))
  }

  /** The admin table's columns. */
  const AdminColumns: set<string> :=
    {"id", "superadmin_id", "name", "email", "phone", "password", "company_name", "password_updated_at", "created_at"}

  function AdminRow(a: Admin): Row {
    Row(a.id, map["superadmin_id" := IntV(a.superadminId), "name" := StrV(a.name), "email" := StrV(a.email),
                  "phone" := StrV(a.phone), "password" := StrV(a.password), "company_name" := StrV(a.companyName)])
  }

  function AdminRowOf(): Admin -> Row {
    (a: Admin) => AdminRow(a)
  }

  function OptionRow(a: Option<Admin>): Option<Row> {
    match a
    case None => None
    case Some(x) => Some(AdminRow(x))
  }

  /** findByEmail is findOne({ email }) on the admin table. */
  lemma FindByEmailIsFindOne(admins: seq<Admin>, email: string)
    ensures FindOne("admin", AdminColumns, Map(admins, AdminRowOf()), [("email", StrV(email))]) ==
      Ok(OptionRow(FindAdminByEmail(admins, email)))
  {
    var conds: Pairs := [("email", StrV(email))];
    assert KnownColumns(AdminColumns, conds);
    forall a: Admin ensures MatchesAll(conds)(AdminRowOf()(a)) == HasEmail(email)(a) {
      assert Field(AdminRow(a), conds[0].0) == Some(StrV(a.email));
      assert Matches(AdminRow(a), conds) <==> Field(AdminRow(a), conds[0].0) == Some(conds[0].1);
    }
    FilterMap(admins, AdminRowOf(), HasEmail(email), MatchesAll(conds));
  }

  /** getAdminsByCreator is findAll({ superadmin_id }) on the admin table. */
  lemma AdminsByCreatorIsFindAll(admins: seq<Admin>, superadminId: int)
    ensures FindAll("admin", AdminColumns, Map(admins, AdminRowOf()), [("superadmin_id", IntV(superadminId))]) ==
      Ok(Map(AdminsByCreator(admins, superadminId), AdminRowOf()))
  {
    var conds: Pairs := [("superadmin_id", IntV(superadminId))];
    assert KnownColumns(AdminColumns, conds);
    forall a: Admin ensures MatchesAll(conds)(AdminRowOf()(a)) == CreatedBy(superadminId)(a) {
      assert Field(AdminRow(a), conds[0].0) == Some(IntV(a.superadminId));
      assert Matches(AdminRow(a), conds) <==> Field(AdminRow(a), conds[0].0) == Some(conds[0].1);
    }
    FilterMap(admins, AdminRowOf(), CreatedBy(superadminId), MatchesAll(conds));
  }
}

=== FILE: auth_controller.dfy ===
/**
 * The authentication endpoints of src/controllers/auth.controller.ts. Login
 * is a decision over the two lookups and the password oracle
 * (`passwordMatches(password, storedHash)` stands for bcrypt.compare);
 * admin creation delegates to the admin repository with the caller as creator.
 */
module AuthController {
  import opened Types
  import opened Seqs
  import opened Ledger
  import opened AdminRepository
  import opened Jwt

  function SuperAdminHasEmail(email: string): SuperAdmin -> bool {
    (a: SuperAdmin) => a.email == email
  }

  /** superAdminRepository.findByEmail: `findOne({ email })` on the superadmin table. */
  function FindSuperAdminByEmail(superAdmins: seq<SuperAdmin>, email: string): (r: Option<SuperAdmin>)
    ensures r.Some? ==> r.value in superAdmins && r.value.email == email
    ensures r.None? <==> forall i :: 0 <= i < |superAdmins| ==> superAdmins[i].email != email
  {
    var found := Filter(superAdmins, SuperAdminHasEmail(email));
    if found == [] then None else Some(found[0])
  }

  /** The `data` of a successful login: the token and the user it was signed for. */
  datatype LoginResponse = LoginResponse(token: string, user: TokenPayload)

  const INVALID_CREDENTIALS: AppError := AuthenticationError("Invalid email or password")

  /** login: the super admin table is consulted first and, when it has the
      email, decides alone; otherwise the admin table. An unknown email and a
      wrong password fail alike; the token is signed over exactly the user
      returned. */
  function Login(superAdmins: seq<SuperAdmin>, admins: seq<Admin>, email: string, password: string,
                 passwordMatches: (string, string) -> bool, secret: string,
                 expirySetting: Option<string>, sign: (TokenPayload, ExpiresIn) -> string): (r: Result<LoginResponse>)
    ensures var sa := FindSuperAdminByEmail(superAdmins, email);
      sa.Some? ==>
        (r.Ok? <==> passwordMatches(password, sa.value.password) && secret != "") &&
        (!passwordMatches(password, sa.value.password) ==> r == Err(INVALID_CREDENTIALS)) &&
        (r.Ok? ==> r.value.user == TokenPayload(sa.value.id, sa.value.name, sa.value.email, ROLE_SUPER_ADMIN))
    ensures var sa := FindSuperAdminByEmail(superAdmins, email);
      var a := FindAdminByEmail(admins, email);
      sa.None? ==>
        (r.Ok? <==> a.Some? && passwordMatches(password, a.value.password) && secret != "") &&
        (a.None? || !passwordMatches(password, a.value.password) ==> r == Err(INVALID_CREDENTIALS)) &&
        (r.Ok? ==> r.value.user == TokenPayload(a.value.id, a.value.name, a.value.email, ROLE_ADMIN))
    ensures r.Ok? ==> r.value.token == sign(r.value.user, ExpiresInAsWritten(ConfiguredExpiry(expirySetting))) &&
                      r.value.user.email == email
    ensures secret == "" ==> r.Err?
  {
    var superAdmin := FindSuperAdminByEmail(superAdmins, email);
    var admin := if superAdmin.Some? then None else FindAdminByEmail(admins, email);
    var isValidPassword :=
      if superAdmin.Some? then passwordMatches(password, superAdmin.value.password)
      else admin.Some? && passwordMatches(password, admin.value.password);
    var role := if superAdmin.Some? then ROLE_SUPER_ADMIN else ROLE_ADMIN;
    if (superAdmin.None? && admin.None?) || !isValidPassword then Err(INVALID_CREDENTIALS)
    else
      var user :=
        if superAdmin.Some? then TokenPayload(superAdmin.value.id, superAdmin.value.name, superAdmin.value.email, role)
        else TokenPayload(admin.value.id, admin.value.name, admin.value.email, role);
      match GenerateToken(secret, expirySetting, user, sign)
      case Err(e) => Err(e)
      case Ok(token) => Ok(LoginResponse(token, user))
  }

  /** Once a super admin has the email, the admin table plays no part: a
      super admin with a wrong password does not fall back to an admin
      account with the same email and password. */
  lemma SuperAdminShadowsAdmins(superAdmins: seq<SuperAdmin>, admins: seq<Admin>, others: seq<Admin>,
                                email: string, password: string, passwordMatches: (string, string) -> bool,
                                secret: string, expirySetting: Option<string>,
                                sign: (TokenPayload, ExpiresIn) -> string)
    requires FindSuperAdminByEmail(superAdmins, email).Some?
    ensures Login(superAdmins, admins, email, password, passwordMatches, secret, expirySetting, sign) ==
            Login(superAdmins, others, email, password, passwordMatches, secret, expirySetting, sign)
  {
  }

  /** The response to createAdmin: status 201 and the new account's summary. */
  datatype AdminCreated = AdminCreated(status: int, id: int, name: string, email: string, companyName: string)

  /** createAdmin: the authenticated super admin becomes the creator. */
  method CreateAdminHandler(s: Store, user: TokenPayload, req: CreateAdminRequest, hash: string -> string,
                            walletFailure: Option<string>) returns (r: Result<AdminCreated>)
    requires s.Valid()
    modifies s
    ensures s.Valid()
    ensures var created := CreateAdmin(old(s.Snapshot()), req, user.id, hash, walletFailure);
      s.Snapshot() == created.state &&
      (r.Ok? <==> created.result.Ok?) &&
      (r.Err? ==> r.error == created.result.error) &&
      (r.Ok? ==> r == Ok(AdminCreated(201, created.result.value.id, req.name, req.email, req.companyName)) &&
                  created.result.value.superadminId == user.id)
  {
    var admin := CreateAdminAccount(s, req, user.id, hash, walletFailure);
    match admin
    case Err(e) => r := Err(e);
    case Ok(a) => r := Ok(AdminCreated(201, a.id, a.name, a.email, a.companyName));
  }
}

=== FILE: auth_middleware.dfy ===
/**
 * The Express guards of src/middleware/auth.middleware.ts. `req.user` is an
 * optional token payload; a guard either calls `next()` (Ok) or passes an
 * error on to the error handler (Err).
 */
module AuthMiddleware {
  import opened Types
  import opened Strings
  import opened Js
  import opened Jwt

  const AUTH_FAILED: AppError := AuthenticationError("Authentication failed")

  /** authenticate: a verified bearer token becomes `req.user`; every failure,
      including a missing header, is reported as the same authentication error. */
  function Authenticate(header: Option<string>, secret: string, check: string -> Verdict): (r: Result<TokenPayload>)
    ensures r.Ok? <==>
      header.Some? && BearerHeader(header.value) && secret != "" && check(header.value[7..]).Verified?
    ensures r.Ok? ==> r.value == check(header.value[7..]).payload
    ensures r.Err? ==> r.error == AUTH_FAILED
  {
    if header.None? || header.value == "" then Err(AUTH_FAILED)
    else
      ExtractAcceptsExactlyBearer(header.value);
      var token := ExtractTokenFromHeader(header);
      if token.Err? then Err(AUTH_FAILED)
      else
        var decoded := VerifyToken(secret, token.value, check);
        if decoded.Err? then Err(AUTH_FAILED) else Ok(decoded.value)
  }

  /** authenticate admits exactly the requests the JWT middleware without a
      role list admits, with the same user. */
  lemma AuthenticateAgreesWithMiddleware(header: Option<string>, secret: string, check: string -> Verdict)
    ensures Authenticate(header, secret, check).Ok? <==> Middleware(header, None, secret, check).Admit?
    ensures Authenticate(header, secret, check).Ok? ==>
      Authenticate(header, secret, check).value == Middleware(header, None, secret, check).user
  {
    if header.Some? && header.value != "" {
      ExtractAcceptsExactlyBearer(header.value);
    }
  }

  /** requireSuperAdmin: only a super admin passes. */
  function RequireSuperAdmin(user: Option<TokenPayload>): (r: Result<()>)
    ensures r.Ok? <==> user.Some? && user.value.role == ROLE_SUPER_ADMIN
    ensures r.Err? ==> r.error == AuthorizationError("Super admin access required")
  {
    if user.None? || user.value.role != ROLE_SUPER_ADMIN then
      Err(AuthorizationError("Super admin access required"))
    else Ok(())
  }

  /** requireAdmin: only an admin passes; a super admin does not. */
  function RequireAdmin(user: Option<TokenPayload>): (r: Result<()>)
    ensures r.Ok? <==> user.Some? && user.value.role == ROLE_ADMIN
    ensures r.Err? ==> r.error == AuthorizationError("Admin access required")
  {
    if user.None? || user.value.role != ROLE_ADMIN then Err(AuthorizationError("Admin access required"))
    else Ok(())
  }

  /** requireAnyAdmin: an admin or a super admin passes. */
  function RequireAnyAdmin(user: Option<TokenPayload>): (r: Result<()>)
    ensures r.Ok? <==> user.Some? && user.value.role in [ROLE_ADMIN, ROLE_SUPER_ADMIN]
    ensures r.Err? ==> r.error == AuthorizationError("Admin access required")
  {
    if user.None? || user.value.role !in [ROLE_ADMIN, ROLE_SUPER_ADMIN] then
      Err(AuthorizationError("Admin access required"))
    else Ok(())
  }

  /** The role guards: requireAnyAdmin is the union of the other two, which
      never both pass. */
  lemma RoleGuardsPartition(user: Option<TokenPayload>)
    ensures RequireAnyAdmin(user).Ok? <==> RequireAdmin(user).Ok? || RequireSuperAdmin(user).Ok?
    ensures !(RequireAdmin(user).Ok? && RequireSuperAdmin(user).Ok?)
  {
    assert ROLE_ADMIN != ROLE_SUPER_ADMIN by { assert ROLE_ADMIN[0] != ROLE_SUPER_ADMIN[0]; }
  }

  const OWNERSHIP_DENIED: AppError := AuthorizationError("Unauthorized access to resource")

  /** requireOwnership as written: the route parameter (a string, or undefined
      when the route has no such parameter) is compared with `!==` against
      `req.user.id`, which is the numeric id the token was signed with. */
  function RequireOwnershipAsWritten(user: Option<TokenPayload>, resourceId: JsValue): (r: Result<()>)
    ensures user.None? ==> r == Err(AuthenticationError("Authentication required"))
    ensures user.Some? && user.value.role == ROLE_SUPER_ADMIN ==> r.Ok?
    ensures r.Ok? <==> user.Some? && (user.value.role == ROLE_SUPER_ADMIN || resourceId == Num(user.value.id as real))
  {
    if user.None? then Err(AuthenticationError("Authentication required"))
    else if user.value.role == ROLE_SUPER_ADMIN then Ok(())
    else if resourceId != Num(user.value.id as real) then Err(OWNERSHIP_DENIED)
    else Ok(())
  }

  /** Route parameters are strings (or undefined), never numbers, so the strict
      comparison refuses every user who is not a super admin, the owner included. */
  lemma OwnershipAsWrittenRefusesEveryOwner(user: TokenPayload, resourceId: JsValue)
    requires resourceId.Str? || resourceId.Undefined?
    requires user.role != ROLE_SUPER_ADMIN
    ensures RequireOwnershipAsWritten(Some(user), resourceId) == Err(OWNERSHIP_DENIED)
  {
  }

  /** Admin 5 asking for `/.../5` is refused. */
  lemma OwnershipAsWrittenCounterexample()
    ensures RequireOwnershipAsWritten(Some(TokenPayload(5, "a", "a@example.com", ROLE_ADMIN)), Str("5")).Err?
  {
    OwnershipAsWrittenRefusesEveryOwner(TokenPayload(5, "a", "a@example.com", ROLE_ADMIN), Str("5"));
  }

  /** requireOwnership as intended: the parameter is compared with the user's
      id as it prints in a URL. */
  function RequireOwnership(user: Option<TokenPayload>, resourceId: Option<string>): (r: Result<()>)
    ensures user.None? ==> r == Err(AuthenticationError("Authentication required"))
    ensures r.Err? && user.Some? ==> r.error == OWNERSHIP_DENIED
  {
    if user.None? then Err(AuthenticationError("Authentication required"))
    else if user.value.role == ROLE_SUPER_ADMIN then Ok(())
    else if resourceId != Some(IntToString(user.value.id)) then Err(OWNERSHIP_DENIED)
    else Ok(())
  }

  /** A super admin passes everywhere; any other user passes on the route of
      their own id, and on no other. */
  lemma OwnershipAdmitsExactlyTheOwner(user: TokenPayload, resourceId: Option<string>)
    ensures user.role == ROLE_SUPER_ADMIN ==> RequireOwnership(Some(user), resourceId).Ok?
    ensures user.role != ROLE_SUPER_ADMIN ==>
      (RequireOwnership(Some(user), resourceId).Ok? <==> resourceId == Some(IntToString(user.id)))
    ensures RequireOwnership(Some(user), Some(IntToString(user.id))).Ok?
  {
  }

  /** Two users who are not super admins never both pass on the same route
      unless they have the same id. */
  lemma OwnershipSeparatesUsers(u: TokenPayload, v: TokenPayload, resourceId: Option<string>)
    requires u.role != ROLE_SUPER_ADMIN && v.role != ROLE_SUPER_ADMIN
    requires RequireOwnership(Some(u), resourceId).Ok? && RequireOwnership(Some(v), resourceId).Ok?
    ensures u.id == v.id
  {
    IntToStringInjective(u.id, v.id);
  }
}

=== FILE: auth_routes.dfy ===
/**
 * The middleware chain of the create-admin route in src/routes/auth.routes.ts:
 * authenticate, then requireSuperAdmin, then validation of the body; the
 * first failure goes to the error handler and the controller never runs.
 */
module AuthRoutes {
  import opened Types
  import opened Js
  import opened Joi
  import opened Jwt
  import opened AuthMiddleware
  import opened ErrorMiddleware
  import opened AuthValidation

  /** The user the controller runs for, or the error that stops the chain. */
  function CreateAdminGuards(header: Option<string>, req: Request, secret: string, check: string -> Verdict,
                             g: Grammar): (r: Result<TokenPayload>)
    ensures r.Ok? <==>
      Authenticate(header, secret, check).Ok? && Authenticate(header, secret, check).value.role == ROLE_SUPER_ADMIN &&
      CreateAdminBody(req.body, g)
    ensures r.Ok? ==> r.value == Authenticate(header, secret, check).value
    ensures Authenticate(header, secret, check).Err? ==> r == Err(AUTH_FAILED)
    ensures Authenticate(header, secret, check).Ok? && Authenticate(header, secret, check).value.role != ROLE_SUPER_ADMIN ==>
      r == Err(AuthorizationError("Super admin access required"))
    ensures (r.Err? && Authenticate(header, secret, check).Ok? &&
             Authenticate(header, secret, check).value.role == ROLE_SUPER_ADMIN) ==> r.error.ValidationError?
  {
    CreateAdminAcceptsExactly(req, g);
    var user := Authenticate(header, secret, check);
    if user.Err? then Err(user.error)
    else
      var allowed := RequireSuperAdmin(Some(user.value));
      if allowed.Err? then Err(allowed.error)
      else
        var invalid := ValidateRequest(CreateAdminSchema, req, g);
        if invalid.Some? then Err(invalid.value) else Ok(user.value)
  }

  /** An authenticated admin is refused with 403 "Super admin access
      required", whatever the body: the role check comes before validation. */
  lemma AdminCannotCreateAdmins(header: Option<string>, req: Request, secret: string, check: string -> Verdict,
                                g: Grammar, nodeEnv: string)
    requires Authenticate(header, secret, check).Ok? && Authenticate(header, secret, check).value.role == ROLE_ADMIN
    ensures CreateAdminGuards(header, req, secret, check, g).Err?
    ensures ErrorHandler(CreateAdminGuards(header, req, secret, check, g).error, nodeEnv) ==
      ErrorResponse(403, false, "Super admin access required", "AuthorizationError", None)
  {
  }

  /** A request without a usable bearer token gets 401 before anything else is looked at. */
  lemma MissingTokenIs401(req: Request, secret: string, check: string -> Verdict, g: Grammar, nodeEnv: string)
    ensures ErrorHandler(CreateAdminGuards(None, req, secret, check, g).error, nodeEnv) ==
      ErrorResponse(401, false, "Authentication failed", "AuthenticationError", None)
  {
  }
}

=== FILE: auth_validation.dfy ===
/**
 * The request schemas of src/validations/auth.validation.ts: login and
 * admin creation.
 */
module AuthValidation {
  import opened Types
  import opened Strings
  import opened Js
  import opened Joi
  import opened ErrorMiddleware
  import opened OperationsValidation

  const EMAIL: Field := TextField(true, "Email is required", "Email is required", [(EmailAddress, "Invalid email format")])

  const LOGIN_BODY: Schema := Schema([("email", EMAIL), ("password", RequiredText("Password is required"))], [])

  const LoginSchema: RequestSchema := RequestSchema(Some(LOGIN_BODY), None, None)

  const NAME: Field := TextField(true, "Name is required", "Name is required",
    [(MinLength(3), "Name must be at least 3 characters long"), (MaxLength(100), "Name cannot exceed 100 characters")])
  const PHONE: Field := TextField(true, "Phone number is required", "Phone number is required",
    [(ExactLength(10), "Phone number must be exactly 10 digits"), (DigitsOnly, "Phone number must contain only digits")])
  const COMPANY_NAME: Field := TextField(true, "Company name is required", "Company name is required",
    [(MinLength(2), "Company name must be at least 2 characters long"),
     (MaxLength(255), "Company name cannot exceed 255 characters")])
  const PASSWORD_RULE: string :=
    "Password must contain at least one uppercase letter, one lowercase letter, one number and one special character"
  const PASSWORD: Field := TextField(true, "Password is required", "Password is required",
    [(MinLength(8), "Password must be at least 8 characters long"), (PasswordPattern, PASSWORD_RULE)])

  const CREATE_ADMIN_BODY: Schema := Schema(
    [("name", NAME), ("email", EMAIL), ("phone", PHONE), ("company_name", COMPANY_NAME), ("password", PASSWORD)], [])

  const CreateAdminSchema: RequestSchema := RequestSchema(Some(CREATE_ADMIN_BODY), None, None)

  predicate EmailText(v: JsValue, g: Grammar) {
    NonEmptyText(v) && g.isEmail(v.s)
  }

  predicate LoginBody(body: JsObject, g: Grammar) {
    EmailText(Get(body, "email"), g) && NonEmptyText(Get(body, "password")) && OnlyKeys(body, {"email", "password"})
  }

  /** loginSchema: a well-formed email and a non-empty password, nothing else. */
  lemma LoginAcceptsExactly(req: Request, g: Grammar)
    ensures ValidateRequest(LoginSchema, req, g).None? <==> LoginBody(req.body, g)
    ensures NonEmptyText(Get(req.body, "email")) && !g.isEmail(Get(req.body, "email").s) ==>
      ValidateRequest(LoginSchema, req, g) == Some(ValidationError("Invalid email format"))
  {
    ValidateSmallSchema(LOGIN_BODY, req.body, g);
    DeclaredSmall(LOGIN_BODY.keys);
    TextFieldAccepts("email", EMAIL, req.body, g);
    RequiredTextAccepts("password", "Password is required", req.body, g);
    if NonEmptyText(Get(req.body, "email")) && !g.isEmail(Get(req.body, "email").s) {
      ValidateReportsFirstField(LOGIN_BODY, req.body, g, 0);
    }
  }

  /** Between `lo` and `hi` characters (and so not empty). */
  predicate TextLengthIn(v: JsValue, lo: nat, hi: nat) {
    v.Str? && v.s != "" && lo <= |v.s| <= hi
  }

  /** Exactly ten ASCII digits. */
  predicate PhoneNumber(v: JsValue) {
    v.Str? && |v.s| == 10 && AllDigits(v.s)
  }

  /** At least eight characters, drawn from letters, digits and `@$!%*?&`,
      with at least one of each kind. */
  predicate PasswordText(v: JsValue) {
    v.Str? && |v.s| >= 8 && StrongPassword(v.s)
  }

  predicate CreateAdminBody(body: JsObject, g: Grammar) {
    TextLengthIn(Get(body, "name"), 3, 100) && EmailText(Get(body, "email"), g) &&
    PhoneNumber(Get(body, "phone")) && TextLengthIn(Get(body, "company_name"), 2, 255) &&
    PasswordText(Get(body, "password")) &&
    OnlyKeys(body, {"name", "email", "phone", "company_name", "password"})
  }

  /** A required text field with two rules accepts exactly a non-empty
      string that satisfies both. */
  lemma TwoRuleTextAccepts(key: string, f: Field, o: JsObject, g: Grammar)
    requires f.TextField? && f.required && |f.textRules| == 2
    ensures FieldError(key, f, o, g).None? <==>
      (Get(o, key).Str? && Get(o, key).s != "" &&
       TextRuleHolds(f.textRules[0].0, Get(o, key).s, g) && TextRuleHolds(f.textRules[1].0, Get(o, key).s, g))
    ensures Get(o, key).Str? && Get(o, key).s != "" && !TextRuleHolds(f.textRules[0].0, Get(o, key).s, g) ==>
      FieldError(key, f, o, g) == Some(f.textRules[0].1)
    ensures Get(o, key).Str? && Get(o, key).s != "" && TextRuleHolds(f.textRules[0].0, Get(o, key).s, g) &&
            !TextRuleHolds(f.textRules[1].0, Get(o, key).s, g) ==>
      FieldError(key, f, o, g) == Some(f.textRules[1].1)
  {
    TextFieldAccepts(key, f, o, g);
    var v := Get(o, key);
    if v.Str? && v.s != "" {
      var rules := f.textRules;
      assert (forall i :: 0 <= i < |rules| ==> TextRuleHolds(rules[i].0, v.s, g)) <==>
        TextRuleHolds(rules[0].0, v.s, g) && TextRuleHolds(rules[1].0, v.s, g);
      assert FieldError(key, f, o, g) == FirstError(rules, TextCheck(v.s, g));
      if !TextRuleHolds(rules[0].0, v.s, g) {
        FirstErrorAt(rules, TextCheck(v.s, g), 0);
      } else if !TextRuleHolds(rules[1].0, v.s, g) {
        FirstErrorAt(rules, TextCheck(v.s, g), 1);
      }
    }
  }

  lemma NameAccepts(o: JsObject, g: Grammar)
    ensures FieldError("name", NAME, o, g).None? <==> TextLengthIn(Get(o, "name"), 3, 100)
    ensures Get(o, "name").Str? && Get(o, "name").s != "" && |Get(o, "name").s| < 3 ==>
      FieldError("name", NAME, o, g) == Some("Name must be at least 3 characters long")
  {
    TwoRuleTextAccepts("name", NAME, o, g);
  }

  lemma EmailAccepts(o: JsObject, g: Grammar)
    ensures FieldError("email", EMAIL, o, g).None? <==> EmailText(Get(o, "email"), g)
  {
    TextFieldAccepts("email", EMAIL, o, g);
  }

  /** The length is checked before the digits. */
  lemma PhoneAccepts(o: JsObject, g: Grammar)
    ensures FieldError("phone", PHONE, o, g).None? <==> PhoneNumber(Get(o, "phone"))
    ensures Get(o, "phone").Str? && Get(o, "phone").s != "" && |Get(o, "phone").s| != 10 ==>
      FieldError("phone", PHONE, o, g) == Some("Phone number must be exactly 10 digits")
    ensures Get(o, "phone").Str? && |Get(o, "phone").s| == 10 && !AllDigits(Get(o, "phone").s) ==>
      FieldError("phone", PHONE, o, g) == Some("Phone number must contain only digits")
  {
    TwoRuleTextAccepts("phone", PHONE, o, g);
  }

  lemma CompanyNameAccepts(o: JsObject, g: Grammar)
    ensures FieldError("company_name", COMPANY_NAME, o, g).None? <==> TextLengthIn(Get(o, "company_name"), 2, 255)
  {
    TwoRuleTextAccepts("company_name", COMPANY_NAME, o, g);
  }

  /** The length is checked before the character classes. */
  lemma PasswordAccepts(o: JsObject, g: Grammar)
    ensures FieldError("password", PASSWORD, o, g).None? <==> PasswordText(Get(o, "password"))
    ensures Get(o, "password").Str? && Get(o, "password").s != "" && |Get(o, "password").s| < 8 ==>
      FieldError("password", PASSWORD, o, g) == Some("Password must be at least 8 characters long")
    ensures Get(o, "password").Str? && |Get(o, "password").s| >= 8 && !StrongPassword(Get(o, "password").s) ==>
      FieldError("password", PASSWORD, o, g) == Some(PASSWORD_RULE)
  {
    TwoRuleTextAccepts("password", PASSWORD, o, g);
  }

  /** createAdminSchema: the five fields, all required, and nothing else. */
  lemma CreateAdminAcceptsExactly(req: Request, g: Grammar)
    ensures ValidateRequest(CreateAdminSchema, req, g).None? <==> CreateAdminBody(req.body, g)
    ensures Get(req.body, "name") == Undefined || Get(req.body, "email") == Undefined ||
            Get(req.body, "phone") == Undefined || Get(req.body, "company_name") == Undefined ||
            Get(req.body, "password") == Undefined ==>
      ValidateRequest(CreateAdminSchema, req, g).Some?
  {
    ValidateSmallSchema(CREATE_ADMIN_BODY, req.body, g);
    DeclaredSmall(CREATE_ADMIN_BODY.keys);
    NameAccepts(req.body, g);
    EmailAccepts(req.body, g);
    PhoneAccepts(req.body, g);
    CompanyNameAccepts(req.body, g);
    PasswordAccepts(req.body, g);
  }

  /** The pattern by character class: a password of 8 characters or more that
      lacks any of the four classes, or holds a character outside them, is
      refused with the pattern message; one with all four and nothing else passes. */
  lemma PasswordCharacterClasses(o: JsObject, g: Grammar)
    ensures var p := Get(o, "password");
      p.Str? && |p.s| >= 8 && (forall i :: 0 <= i < |p.s| ==> !IsUpper(p.s[i])) ==>
        FieldError("password", PASSWORD, o, g) == Some(PASSWORD_RULE)
    ensures var p := Get(o, "password");
      p.Str? && |p.s| >= 8 && (forall i :: 0 <= i < |p.s| ==> !IsLower(p.s[i])) ==>
        FieldError("password", PASSWORD, o, g) == Some(PASSWORD_RULE)
    ensures var p := Get(o, "password");
      p.Str? && |p.s| >= 8 && (forall i :: 0 <= i < |p.s| ==> !IsDigit(p.s[i])) ==>
        FieldError("password", PASSWORD, o, g) == Some(PASSWORD_RULE)
    ensures var p := Get(o, "password");
      p.Str? && |p.s| >= 8 && (forall i :: 0 <= i < |p.s| ==> !IsSpecial(p.s[i])) ==>
        FieldError("password", PASSWORD, o, g) == Some(PASSWORD_RULE)
    ensures var p := Get(o, "password");
      p.Str? && |p.s| >= 8 &&
      (exists i :: 0 <= i < |p.s| && !(IsLower(p.s[i]) || IsUpper(p.s[i]) || IsDigit(p.s[i]) || IsSpecial(p.s[i]))) ==>
        FieldError("password", PASSWORD, o, g) == Some(PASSWORD_RULE)
    ensures var p := Get(o, "password");
      p.Str? && |p.s| >= 8 &&
      (exists i :: 0 <= i < |p.s| && IsLower(p.s[i])) && (exists i :: 0 <= i < |p.s| && IsUpper(p.s[i])) &&
      (exists i :: 0 <= i < |p.s| && IsDigit(p.s[i])) && (exists i :: 0 <= i < |p.s| && IsSpecial(p.s[i])) &&
      (forall i :: 0 <= i < |p.s| ==> IsLower(p.s[i]) || IsUpper(p.s[i]) || IsDigit(p.s[i]) || IsSpecial(p.s[i])) ==>
        FieldError("password", PASSWORD, o, g).None?
  {
    PasswordAccepts(o, g);
  }
}

=== FILE: base_repository.dfy ===
/**
 * The generic table access of src/repositories/base.repository.ts, as the
 * database executes the queries built in module Sql. A row is its `id` plus
 * the other columns it has a value for; a condition `k = $i` holds of a row
 * when column k has exactly the bound value (a missing value is SQL NULL,
 * which equals nothing). Rows come back in table order.
 *
 * The finders are functions of the rows; `create`, `update` and `delete`
 * change the table and are methods of class Table.
 */
module BaseRepository {
  import opened Types
  import opened Seqs
  import opened Strings
  import opened Sql

  datatype Row = Row(id: int, cols: map<string, Value>)

  /** The keys of a JavaScript object are distinct. */
  predicate DistinctKeys(o: Pairs) {
    forall i, j :: 0 <= i < j < |o| ==> o[i].0 != o[j].0
  }

  predicate KnownColumns(columns: set<string>, o: Pairs) {
    forall i :: 0 <= i < |o| ==> o[i].0 in columns
  }

  /** The value of column k in a row, None for NULL. */
  function Field(r: Row, k: string): Option<Value> {
    if k == "id" then Some(IntV(r.id)) else if k in r.cols then Some(r.cols[k]) else None
  }

  /** The row satisfies every `k = v` of the conditions. */
  predicate Matches(r: Row, conds: Pairs) {
    forall i :: 0 <= i < |conds| ==> Field(r, conds[i].0) == Some(conds[i].1)
  }

  function MatchesAll(conds: Pairs): Row -> bool {
    (r: Row) => Matches(r, conds)
  }

  /** The first key that is not a column of the table. */
  function UnknownColumn(columns: set<string>, o: Pairs): (k: string)
    requires !KnownColumns(columns, o)
    ensures k !in columns
  {
    if o[0].0 !in columns then o[0].0 else UnknownColumn(columns, o[1..])
  }

  /** `new DatabaseError(`${prefix} ${table}: ${error}`)` around a driver error. */
  function Wrapped(prefix: string, table: string, driverError: string): AppError {
    DatabaseError(prefix + " " + table + ": error: " + driverError)
  }

  /** findById: the first row with that id, or null. */
  function FindById(rows: seq<Row>, id: int): (r: Option<Row>)
    ensures r.Some? ==> r.value in rows && r.value.id == id
    ensures r.None? <==> forall i :: 0 <= i < |rows| ==> rows[i].id != id
  {
    if rows == [] then None
    else if rows[0].id == id then Some(rows[0])
    else FindById(rows[1..], id)
  }

  /** findOne: the first matching row or null. An empty condition object
      leaves `WHERE  LIMIT 1`, which the database rejects. */
  function FindOne(table: string, columns: set<string>, rows: seq<Row>, conds: Pairs): (r: Result<Option<Row>>)
    ensures r.Ok? <==> |conds| > 0 && KnownColumns(columns, conds)
    ensures r.Err? ==> r.error.DatabaseError?
    ensures r.Ok? && r.value.Some? ==> r.value.value in rows && Matches(r.value.value, conds)
    ensures r.Ok? && r.value.None? ==> forall i :: 0 <= i < |rows| ==> !Matches(rows[i], conds)
  {
    if |conds| == 0 then Err(Wrapped("Error finding", table, "syntax error at or near \"LIMIT\""))
    else if !KnownColumns(columns, conds) then
      Err(Wrapped("Error finding", table, "column \"" + UnknownColumn(columns, conds) + "\" does not exist"))
    else
      var found := Filter(rows, MatchesAll(conds));
      Ok(if found == [] then None else Some(found[0]))
  }

  /** findAll: exactly the rows matching every condition; no conditions, no WHERE. */
  function FindAll(table: string, columns: set<string>, rows: seq<Row>, conds: Pairs): (r: Result<seq<Row>>)
    ensures r.Ok? <==> |conds| == 0 || KnownColumns(columns, conds)
    ensures r.Err? ==> r.error.DatabaseError?
    ensures r.Ok? ==> |r.value| <= |rows|
    ensures r.Ok? ==> forall i :: 0 <= i < |r.value| ==> r.value[i] in rows && Matches(r.value[i], conds)
    ensures r.Ok? ==> forall i :: 0 <= i < |rows| && Matches(rows[i], conds) ==> rows[i] in r.value
  {
    if |conds| > 0 && !KnownColumns(columns, conds) then
      Err(Wrapped("Error finding all", table, "column \"" + UnknownColumn(columns, conds) + "\" does not exist"))
    else Ok(Filter(rows, MatchesAll(conds)))
  }

  /** Without conditions findAll returns every row, in order. */
  lemma FindAllWithoutConditions(table: string, columns: set<string>, rows: seq<Row>)
    ensures FindAll(table, columns, rows, []) == Ok(rows)
  {
    FilterAll(rows, MatchesAll([]));
  }

  /** count: `SELECT COUNT(*)` under the same WHERE rule as findAll. */
  function Count(table: string, columns: set<string>, rows: seq<Row>, conds: Pairs): Result<nat> {
    if |conds| > 0 && !KnownColumns(columns, conds) then
      Err(Wrapped("Error counting", table, "column \"" + UnknownColumn(columns, conds) + "\" does not exist"))
    else Ok(CountOf(rows, MatchesAll(conds)))
  }

  /** count(c) is the length of findAll(c), and fails exactly when findAll fails. */
  lemma CountIsFindAllLength(table: string, columns: set<string>, rows: seq<Row>, conds: Pairs)
    ensures Count(table, columns, rows, conds).Ok? == FindAll(table, columns, rows, conds).Ok?
    ensures Count(table, columns, rows, conds).Ok? ==>
      Count(table, columns, rows, conds).value == |FindAll(table, columns, rows, conds).value|
  {
    CountIsFilterLength(rows, MatchesAll(conds));
  }

  /** The column map an INSERT or UPDATE writes. */
  function ColumnsOf(o: Pairs): (m: map<string, Value>)
    ensures forall k :: k in m <==> k in Keys(o)
    ensures DistinctKeys(o) ==> forall i :: 0 <= i < |o| ==> o[i].0 in m && m[o[i].0] == o[i].1
  {
    if o == [] then map[]
    else
      var rest := ColumnsOf(o[1..]);
      assert Keys(o) == [o[0].0] + Keys(o[1..]);
      assert DistinctKeys(o) ==> forall i :: 1 <= i < |o| ==> o[i] == o[1..][i - 1] && o[i].0 != o[0].0;
      rest[o[0].0 := o[0].1]
  }

  /** A row after `SET k1 = v1, ...`: the listed columns take the new values, nothing else changes. */
  function Patch(r: Row, data: Pairs): (p: Row)
    ensures p.id == r.id
    ensures DistinctKeys(data) && "id" !in Keys(data) ==>
      forall i :: 0 <= i < |data| ==> Field(p, data[i].0) == Some(data[i].1)
    ensures forall k :: k !in Keys(data) ==> Field(p, k) == Field(r, k)
  {
    Row(r.id, r.cols + ColumnsOf(data))
  }

  /** The not-found error of update, as its catch block rewraps it. */
  function UpdateNotFound(table: string, id: int): AppError {
    var notFound := DatabaseError(table + " with id " + IntToString(id) + " not found");
    DatabaseError("Error updating " + table + ": " + notFound.Describe())
  }

  function PatchIfId(id: int, data: Pairs): Row -> Row {
    (r: Row) => if r.id == id then Patch(r, data) else r
  }

  function HasOtherId(id: int): Row -> bool {
    (r: Row) => r.id != id
  }

  /** A table: its name, its columns (always including `id`), its rows and the next serial id. */
  class Table {
    const name: string
    const columns: set<string>
    var rows: seq<Row>
    var nextId: int

    ghost predicate Valid()
      reads this
    {
      "id" in columns && nextId >= 1 &&
      forall i :: 0 <= i < |rows| ==> 1 <= rows[i].id < nextId
    }

    constructor (name: string, columns: set<string>)
      requires "id" in columns
      ensures Valid()
      ensures this.name == name && this.columns == columns && rows == [] && nextId == 1
    {
      this.name := name;
      this.columns := columns;
      rows := [];
      nextId := 1;
    }

    /** create: INSERT of the given columns; the new row gets the next serial id. */
    method Create(data: Pairs) returns (r: Result<Row>)
      requires Valid() && DistinctKeys(data) && "id" !in Keys(data)
      modifies this
      ensures Valid()
      ensures r.Ok? <==> |data| > 0 && KnownColumns(columns, data)
      ensures r.Ok? ==> r.value == Row(old(nextId), ColumnsOf(data))
      ensures r.Ok? ==> forall i :: 0 <= i < |old(rows)| ==> old(rows)[i].id != r.value.id
      ensures r.Ok? ==> rows == old(rows) + [r.value] && nextId == old(nextId) + 1
      ensures r.Err? ==> r.error.DatabaseError? && rows == old(rows) && nextId == old(nextId)
    {
      if |data| == 0 {
        return Err(Wrapped("Error creating", name, "syntax error at or near \")\""));
      }
      if !KnownColumns(columns, data) {
        return Err(Wrapped("Error creating", name,
          "column \"" + UnknownColumn(columns, data) + "\" of relation \"" + name + "\" does not exist"));
      }
      var row := Row(nextId, ColumnsOf(data));
      rows := rows + [row];
      nextId := nextId + 1;
      r := Ok(row);
    }

    /** update: SET the listed columns of the rows with that id; a missing id is
        reported as not found, rewrapped by the catch block. */
    method Update(id: int, data: Pairs) returns (r: Result<Row>)
      requires Valid() && DistinctKeys(data) && "id" !in Keys(data)
      modifies this
      ensures Valid() && nextId == old(nextId)
      ensures r.Ok? <==> |data| > 0 && KnownColumns(columns, data) && FindById(old(rows), id).Some?
      ensures r.Ok? ==> rows == Map(old(rows), PatchIfId(id, data))
      ensures r.Ok? ==> r.value == Patch(FindById(old(rows), id).value, data)
      ensures r.Err? ==> r.error.DatabaseError? && rows == old(rows)
      ensures |data| > 0 && KnownColumns(columns, data) && FindById(old(rows), id).None? ==>
        r == Err(UpdateNotFound(name, id))
    {
      if |data| == 0 {
        return Err(Wrapped("Error updating", name, "syntax error at or near \"WHERE\""));
      }
      if !KnownColumns(columns, data) {
        return Err(Wrapped("Error updating", name,
          "column \"" + UnknownColumn(columns, data) + "\" of relation \"" + name + "\" does not exist"));
      }
      var target := FindById(rows, id);
      if target.None? {
        return Err(UpdateNotFound(name, id));
      }
      ghost var before := rows;
      rows := Map(rows, PatchIfId(id, data));
      assert forall i :: 0 <= i < |rows| ==> rows[i].id == before[i].id;
      r := Ok(Patch(target.value, data));
    }

    /** delete: removes the rows with that id; true iff there was one. */
    method Delete(id: int) returns (deleted: bool)
      requires Valid()
      modifies this
      ensures Valid() && nextId == old(nextId)
      ensures deleted <==> FindById(old(rows), id).Some?
      ensures rows == Filter(old(rows), HasOtherId(id))
      ensures forall i :: 0 <= i < |rows| ==> rows[i].id != id
    {
      deleted := FindById(rows, id).Some?;
      rows := Filter(rows, HasOtherId(id));
    }
  }
}

=== FILE: error_middleware.dfy ===
/**
 * The error plumbing of src/middleware/error.middleware.ts: the mapping from
 * a thrown error to the HTTP response, the 404 fallback, and the request
 * validation middleware that turns the first schema failure into a
 * ValidationError.
 */
module ErrorMiddleware {
  import opened Types
  import opened Js
  import opened Joi

  /** An error response: the status and the JSON body (`success` is always false). */
  datatype ErrorResponse = ErrorResponse(status: int, success: bool, message: string, errorType: string,
                                         details: Option<string>)

  const UNEXPECTED: string := "An unexpected error occurred"

  /** errorHandler: class checks first (ValidationError, AuthenticationError,
      AuthorizationError, DatabaseError), then the library error names, then
      a generic server error whose message is shown only in development. */
  function ErrorHandler(e: AppError, nodeEnv: string): (r: ErrorResponse)
    ensures !r.success
    ensures r.status == 400 <==> e.ValidationError? || (e.PlainError? && e.name == "RazorpayError")
    ensures r.status == 401 <==>
      e.AuthenticationError? || (e.PlainError? && e.name in ["JsonWebTokenError", "TokenExpiredError"])
    ensures r.status == 403 <==> e.AuthorizationError?
    ensures r.status == 500 <==>
      e.DatabaseError? || (e.PlainError? && e.name !in ["RazorpayError", "JsonWebTokenError", "TokenExpiredError"])
    ensures e.ValidationError? || e.AuthenticationError? || e.AuthorizationError? ==>
      r.message == e.message && r.errorType == e.Name() && r.details.None?
    ensures e.DatabaseError? ==>
      r.message == "Database operation failed" && r.errorType == "DatabaseError" && r.details == Some(e.message)
    ensures e.PlainError? && e.name == "RazorpayError" ==>
      r.message == "Payment processing failed" && r.errorType == "PaymentError" && r.details == Some(e.message)
    ensures e.PlainError? && e.name == "JsonWebTokenError" ==>
      r.message == "Invalid token" && r.errorType == "AuthenticationError" && r.details.None?
    ensures e.PlainError? && e.name == "TokenExpiredError" ==>
      r.message == "Token has expired" && r.errorType == "AuthenticationError" && r.details.None?
    ensures r.errorType == "ServerError" ==>
      r.message == UNEXPECTED && (r.details.Some? <==> nodeEnv == "development") &&
      (r.details.Some? ==> r.details.value == e.message)
  {
    match e
    case ValidationError(m) => ErrorResponse(400, false, m, "ValidationError", None)
    case AuthenticationError(m) => ErrorResponse(401, false, m, "AuthenticationError", None)
    case AuthorizationError(m) => ErrorResponse(403, false, m, "AuthorizationError", None)
    case DatabaseError(m) => ErrorResponse(500, false, "Database operation failed", "DatabaseError", Some(m))
    case PlainError(name, m) =>
      if name == "RazorpayError" then ErrorResponse(400, false, "Payment processing failed", "PaymentError", Some(m))
      else if name == "JsonWebTokenError" then ErrorResponse(401, false, "Invalid token", "AuthenticationError", None)
      else if name == "TokenExpiredError" then ErrorResponse(401, false, "Token has expired", "AuthenticationError", None)
      else ErrorResponse(500, false, UNEXPECTED, "ServerError", if nodeEnv == "development" then Some(m) else None)
  }

  /** The message of an error reaches the client's `message` only for the
      three client-error classes; anything else is replaced by a fixed text,
      and outside development only database and payment errors carry details. */
  lemma ErrorHandlerHidesServerMessages(e: AppError, nodeEnv: string)
    ensures var r := ErrorHandler(e, nodeEnv);
      r.status == 500 ==> r.message in ["Database operation failed", UNEXPECTED]
    ensures nodeEnv != "development" && ErrorHandler(e, nodeEnv).details.Some? ==>
      e.DatabaseError? || (e.PlainError? && e.name == "RazorpayError")
  {
  }

  /** An error object with a class name but of another class is not mistaken
      for that class: the instance checks come before the name checks. */
  lemma ErrorHandlerChecksClassesNotNames(m: string)
    ensures ErrorHandler(PlainError("ValidationError", m), "production").status == 500
    ensures ErrorHandler(PlainError("DatabaseError", m), "production").details.None?
  {
  }

  /** notFoundHandler: 404 with the method and original URL in the details. */
  function NotFoundHandler(httpMethod: string, originalUrl: string): (r: ErrorResponse)
    ensures r.status == 404 && !r.success && r.message == "Resource not found" && r.errorType == "NotFoundError"
    ensures r.details == Some(httpMethod + " " + originalUrl + " not found")
    ensures forall e: AppError, nodeEnv: string :: ErrorHandler(e, nodeEnv).status != r.status
  {
    ErrorResponse(404, false, "Resource not found", "NotFoundError", Some(httpMethod + " " + originalUrl + " not found"))
  }

  /** A 404 never comes from the error handler: only unmatched routes produce it. */
  lemma ErrorHandlerNeverNotFound(e: AppError, nodeEnv: string)
    ensures ErrorHandler(e, nodeEnv).status != 404
    ensures ErrorHandler(e, nodeEnv).status in {400, 401, 403, 500}
  {
  }

  /** The first message of one part's schema, when the part has one. */
  function PartError(schema: Option<Schema>, part: JsObject, g: Grammar): Option<string> {
    if schema.None? then None else Validate(schema.value, part, g)
  }

  /** validateRequest: body, then query, then params; the first failing part's
      first message becomes a ValidationError, otherwise `next()` (None). */
  function ValidateRequest(schema: RequestSchema, req: Request, g: Grammar): (r: Option<AppError>)
    ensures r.None? <==>
      (schema.body.None? || Validate(schema.body.value, req.body, g).None?) &&
      (schema.query.None? || Validate(schema.query.value, req.query, g).None?) &&
      (schema.params.None? || Validate(schema.params.value, req.params, g).None?)
    ensures r.Some? ==> r.value.ValidationError?
    ensures schema.body.Some? && Validate(schema.body.value, req.body, g).Some? ==>
      r == Some(ValidationError(Validate(schema.body.value, req.body, g).value))
    ensures schema.body.None? && schema.params.None? ==>
      r == (if PartError(schema.query, req.query, g).Some? then Some(ValidationError(PartError(schema.query, req.query, g).value)) else None)
    ensures schema.body.None? && schema.query.None? ==>
      r == (if PartError(schema.params, req.params, g).Some? then Some(ValidationError(PartError(schema.params, req.params, g).value)) else None)
  {
    var body := PartError(schema.body, req.body, g);
    if body.Some? then Some(ValidationError(body.value))
    else
      var query := PartError(schema.query, req.query, g);
      if query.Some? then Some(ValidationError(query.value))
      else
        var params := PartError(schema.params, req.params, g);
        if params.Some? then Some(ValidationError(params.value)) else None
  }

  /** A failed validation always answers 400 with the schema's message. */
  lemma ValidationFailuresAre400(schema: RequestSchema, req: Request, g: Grammar, nodeEnv: string)
    requires ValidateRequest(schema, req, g).Some?
    ensures var r := ErrorHandler(ValidateRequest(schema, req, g).value, nodeEnv);
      r.status == 400 && r.errorType == "ValidationError" &&
      r.message == ValidateRequest(schema, req, g).value.message
  {
  }
}

=== FILE: joi.dfy ===
/**
 * The part of Joi the request schemas use, as an interpreter over schema
 * descriptions. A schema lists its keys in declaration order; validation
 * with Joi's default abort-early setting reports the first failure only:
 * the declared keys in order, each key's presence, type and rules in order,
 * then the first key the schema does not declare, then the `and` peer
 * dependency. Custom messages are part of the description; the few
 * defaults the schemas rely on are built from the key's label.
 *
 * Three grammars are parameters: what Joi accepts as an email address, as
 * an ISO 8601 date (with the instant it denotes), and as a numeral in a
 * string (with its value, for the string-to-number conversion Joi applies).
 */
module Joi {
  import opened Types
  import opened Seqs
  import opened Strings
  import opened Js

  datatype Grammar = Grammar(
    isEmail: string -> bool,
    isoInstant: string -> Option<int>,
    numeral: string -> Option<real>)

  /** Number.MAX_SAFE_INTEGER. */
  const MAX_SAFE_INTEGER: int := 9007199254740991

  /** How Joi quotes a key in its default messages. */
  function Label(key: string): string {
    "\"" + key + "\""
  }

  /** The first error of a series of checks, in order: Joi stops at the first. */
  function FirstError<T>(items: seq<T>, check: T -> Option<string>): (r: Option<string>)
    ensures r.None? <==> forall i :: 0 <= i < |items| ==> check(items[i]).None?
    ensures r.Some? ==> exists i :: 0 <= i < |items| && check(items[i]) == r &&
                                    forall j :: 0 <= j < i ==> check(items[j]).None?
  {
    if items == [] then None
    else if check(items[0]).Some? then check(items[0])
    else
      var rest := FirstError(items[1..], check);
      assert forall i :: 1 <= i < |items| ==> items[i] == items[1..][i - 1];
      rest
  }

  /** The error reported is the one of the first failing check. */
  lemma {:induction false} FirstErrorAt<T>(items: seq<T>, check: T -> Option<string>, i: nat)
    requires i < |items| && check(items[i]).Some?
    requires forall j :: 0 <= j < i ==> check(items[j]).None?
    ensures FirstError(items, check) == check(items[i])
  {
    if i > 0 {
      assert forall j :: 0 <= j < i - 1 ==> items[1..][j] == items[j + 1];
      FirstErrorAt(items[1..], check, i - 1);
    }
  }

  // ---- numbers

  datatype NumberRule = Positive | Integer | AtLeast(bound: int) | AtMost(bound: int)

  predicate IsInteger(x: real) {
    x.Floor as real == x
  }

  predicate IsSafe(x: real) {
    -MAX_SAFE_INTEGER as real <= x <= MAX_SAFE_INTEGER as real
  }

  predicate NumberRuleHolds(rule: NumberRule, x: real) {
    match rule
    case Positive => x > 0.0
    case Integer => IsInteger(x)
    case AtLeast(b) => x >= b as real
    case AtMost(b) => x <= b as real
  }

  function NumberCheck(x: real): ((NumberRule, string)) -> Option<string> {
    (rule: (NumberRule, string)) => if NumberRuleHolds(rule.0, x) then None else Some(rule.1)
  }

  /** A number, or a string Joi converts to one. */
  function AsNumber(v: JsValue, g: Grammar): Option<real> {
    match v
    case Num(x) => Some(x)
    case Str(s) => g.numeral(s)
    case _ => None
  }

  // ---- strings

  datatype TextRule = MinLength(n: nat) | MaxLength(n: nat) | ExactLength(n: nat) | EmailAddress | DigitsOnly | PasswordPattern

  predicate IsLower(c: char) { 'a' <= c <= 'z' }
  predicate IsUpper(c: char) { 'A' <= c <= 'Z' }
  predicate IsSpecial(c: char) { c in "@$!%*?&" }

  /** `/^(?=.*[a-z])(?=.*[A-Z])(?=.*\d)(?=.*[@$!%*?&])[A-Za-z\d@$!%*?&]+$/`. */
  predicate StrongPassword(s: string) {
    (exists i :: 0 <= i < |s| && IsLower(s[i])) &&
    (exists i :: 0 <= i < |s| && IsUpper(s[i])) &&
    (exists i :: 0 <= i < |s| && IsDigit(s[i])) &&
    (exists i :: 0 <= i < |s| && IsSpecial(s[i])) &&
    (forall i :: 0 <= i < |s| ==> IsLower(s[i]) || IsUpper(s[i]) || IsDigit(s[i]) || IsSpecial(s[i]))
  }

  predicate TextRuleHolds(rule: TextRule, s: string, g: Grammar) {
    match rule
    case MinLength(n) => |s| >= n
    case MaxLength(n) => |s| <= n
    case ExactLength(n) => |s| == n
    case EmailAddress => g.isEmail(s)
    case DigitsOnly => |s| > 0 && AllDigits(s)     // /^[0-9]+$/
    case PasswordPattern => StrongPassword(s)
  }

  function TextCheck(s: string, g: Grammar): ((TextRule, string)) -> Option<string> {
    (rule: (TextRule, string)) => if TextRuleHolds(rule.0, s, g) then None else Some(rule.1)
  }

  // ---- fields and schemas

  /** One declared key: its type, flags, rules and custom messages. */
  datatype Field =
    | NumberField(required: bool, requiredMessage: string, baseMessage: string, numberRules: seq<(NumberRule, string)>)
    | TextField(required: bool, requiredMessage: string, emptyMessage: string, textRules: seq<(TextRule, string)>)
    | ChoiceField(choices: seq<string>, onlyMessage: string)
    | DateField(baseMessage: string, formatMessage: string, notBefore: Option<(string, string)>)

  /** `Joi.object({...})`, optionally with `.and(...)`. */
  datatype Schema = Schema(keys: seq<(string, Field)>, peers: seq<string>)

  /** Joi's `any.ref` message for a date bound whose reference is not a date. */
  function RefError(key: string, ref: string): string {
    Label(key) + " date references \"ref:" + ref + "\" which must have a valid date format"
  }

  /** The error of one declared key in an object, if any. */
  function FieldError(key: string, f: Field, o: JsObject, g: Grammar): Option<string> {
    var v := Get(o, key);
    match f
    case NumberField(required, requiredMessage, baseMessage, rules) =>
      if v.Undefined? then (if required then Some(requiredMessage) else None)
      else if AsNumber(v, g).None? then Some(baseMessage)
      else if !IsSafe(AsNumber(v, g).value) then Some(Label(key) + " must be a safe number")
      else FirstError(rules, NumberCheck(AsNumber(v, g).value))
    case TextField(required, requiredMessage, emptyMessage, rules) =>
      if v.Undefined? then (if required then Some(requiredMessage) else None)
      else if !v.Str? then Some(Label(key) + " must be a string")
      else if v.s == "" then Some(emptyMessage)
      else FirstError(rules, TextCheck(v.s, g))
    case ChoiceField(choices, onlyMessage) =>
      if v.Undefined? || (v.Str? && v.s in choices) then None else Some(onlyMessage)
    case DateField(baseMessage, formatMessage, notBefore) =>
      if v.Undefined? then None
      else if !v.Str? then Some(baseMessage)
      else if g.isoInstant(v.s).None? then Some(formatMessage)
      else if notBefore.None? then None
      else
        var bound := Get(o, notBefore.value.0);
        if !bound.Str? || g.isoInstant(bound.s).None? then Some(RefError(key, notBefore.value.0))
        else if g.isoInstant(v.s).value >= g.isoInstant(bound.s).value then None
        else Some(notBefore.value.1)
  }

  function FieldCheck(o: JsObject, g: Grammar): ((string, Field)) -> Option<string> {
    (kf: (string, Field)) => FieldError(kf.0, kf.1, o, g)
  }

  /** The declared keys of a schema. */
  function Declared(keys: seq<(string, Field)>): (r: set<string>)
    ensures forall k :: k in r <==> exists i :: 0 <= i < |keys| && keys[i].0 == k
  {
    if keys == [] then {}
    else
      var rest := Declared(keys[1..]);
      assert forall i :: 1 <= i < |keys| ==> keys[i] == keys[1..][i - 1];
      {keys[0].0} + rest
  }

  function UnknownCheck(declared: set<string>): ((string, JsValue)) -> Option<string> {
    (entry: (string, JsValue)) => if entry.0 in declared then None else Some(Label(entry.0) + " is not allowed")
  }

  function IsPresentIn(o: JsObject): string -> bool {
    (k: string) => Get(o, k) != Undefined
  }

  function IsMissingIn(o: JsObject): string -> bool {
    (k: string) => Get(o, k) == Undefined
  }

  /** `.and(peers)`: if any peer is present, all must be. */
  function PeersError(o: JsObject, peers: seq<string>): (r: Option<string>)
    ensures r.None? <==>
      (forall i :: 0 <= i < |peers| ==> Get(o, peers[i]) == Undefined) ||
      (forall i :: 0 <= i < |peers| ==> Get(o, peers[i]) != Undefined)
  {
    var present := Filter(peers, IsPresentIn(o));
    var missing := Filter(peers, IsMissingIn(o));
    if present == [] || missing == [] then None
    else Some("\"value\" contains [" + Join(present, ", ") + "] without its required peers [" +
              Join(missing, ", ") + "]")
  }

  /** `schema.validate(o).error?.details[0].message`. */
  function Validate(schema: Schema, o: JsObject, g: Grammar): (r: Option<string>)
    ensures r.None? <==>
      (forall i :: 0 <= i < |schema.keys| ==> FieldError(schema.keys[i].0, schema.keys[i].1, o, g).None?) &&
      (forall i :: 0 <= i < |o| ==> o[i].0 in Declared(schema.keys)) &&
      PeersError(o, schema.peers).None?
  {
    var keysError := FirstError(schema.keys, FieldCheck(o, g));
    if keysError.Some? then keysError
    else
      var unknown := FirstError(o, UnknownCheck(Declared(schema.keys)));
      if unknown.Some? then unknown else PeersError(o, schema.peers)
  }

  /** A schema without peer dependencies accepts an object exactly when every
      declared key is acceptable and no other key is present. */
  lemma ValidateWithoutPeers(schema: Schema, o: JsObject, g: Grammar)
    requires schema.peers == []
    ensures Validate(schema, o, g).None? <==>
      (forall i :: 0 <= i < |schema.keys| ==> FieldError(schema.keys[i].0, schema.keys[i].1, o, g).None?) &&
      OnlyKeys(o, Declared(schema.keys))
  {
    assert PeersError(o, []).None?;
  }

  /** A number field accepts an absent value when optional, and otherwise a
      safe number (or numeral) satisfying every rule. */
  lemma NumberFieldAccepts(key: string, f: Field, o: JsObject, g: Grammar)
    requires f.NumberField?
    ensures FieldError(key, f, o, g).None? <==>
      (Get(o, key) == Undefined && !f.required) ||
      (AsNumber(Get(o, key), g).Some? && IsSafe(AsNumber(Get(o, key), g).value) &&
       forall i :: 0 <= i < |f.numberRules| ==> NumberRuleHolds(f.numberRules[i].0, AsNumber(Get(o, key), g).value))
  {
  }

  /** A text field accepts an absent value when optional, and otherwise a
      non-empty string satisfying every rule. */
  lemma TextFieldAccepts(key: string, f: Field, o: JsObject, g: Grammar)
    requires f.TextField?
    ensures FieldError(key, f, o, g).None? <==>
      (Get(o, key) == Undefined && !f.required) ||
      (Get(o, key).Str? && Get(o, key).s != "" &&
       forall i :: 0 <= i < |f.textRules| ==> TextRuleHolds(f.textRules[i].0, Get(o, key).s, g))
  {
  }

  /** A choice field accepts an absent value or one of its strings. */
  lemma ChoiceFieldAccepts(key: string, f: Field, o: JsObject, g: Grammar)
    requires f.ChoiceField?
    ensures FieldError(key, f, o, g).None? <==> OptionalChoice(Get(o, key), f.choices)
  {
  }

  /** A date field accepts an absent value, or an ISO date not before the
      date under its reference key, when it has one. */
  lemma DateFieldAccepts(key: string, f: Field, o: JsObject, g: Grammar)
    requires f.DateField?
    ensures FieldError(key, f, o, g).None? <==>
      Get(o, key) == Undefined ||
      (Instant(Get(o, key), g).Some? &&
       (f.notBefore.Some? ==>
          Instant(Get(o, f.notBefore.value.0), g).Some? &&
          Instant(Get(o, key), g).value >= Instant(Get(o, f.notBefore.value.0), g).value))
  {
  }

  /** The declared keys of a short key list, spelled out. */
  lemma DeclaredSmall(keys: seq<(string, Field)>)
    ensures |keys| == 1 ==> Declared(keys) == {keys[0].0}
    ensures |keys| == 2 ==> Declared(keys) == {keys[0].0, keys[1].0}
    ensures |keys| == 3 ==> Declared(keys) == {keys[0].0, keys[1].0, keys[2].0}
    ensures |keys| == 4 ==> Declared(keys) == {keys[0].0, keys[1].0, keys[2].0, keys[3].0}
    ensures |keys| == 5 ==> Declared(keys) == {keys[0].0, keys[1].0, keys[2].0, keys[3].0, keys[4].0}
  {
  }

  /** The same, spelled out for a schema of one to five keys. */
  lemma ValidateSmallSchema(schema: Schema, o: JsObject, g: Grammar)
    requires schema.peers == [] && 1 <= |schema.keys| <= 5
    ensures var k := schema.keys;
      Validate(schema, o, g).None? <==>
        FieldError(k[0].0, k[0].1, o, g).None? &&
        (|k| > 1 ==> FieldError(k[1].0, k[1].1, o, g).None?) &&
        (|k| > 2 ==> FieldError(k[2].0, k[2].1, o, g).None?) &&
        (|k| > 3 ==> FieldError(k[3].0, k[3].1, o, g).None?) &&
        (|k| > 4 ==> FieldError(k[4].0, k[4].1, o, g).None?) &&
        OnlyKeys(o, Declared(k))
  {
    ValidateWithoutPeers(schema, o, g);
  }

  /** Validation reports the error of the first declared key that fails. */
  lemma ValidateReportsFirstField(schema: Schema, o: JsObject, g: Grammar, i: nat)
    requires i < |schema.keys| && FieldError(schema.keys[i].0, schema.keys[i].1, o, g).Some?
    requires forall j :: 0 <= j < i ==> FieldError(schema.keys[j].0, schema.keys[j].1, o, g).None?
    ensures Validate(schema, o, g) == FieldError(schema.keys[i].0, schema.keys[i].1, o, g)
  {
    FirstErrorAt(schema.keys, FieldCheck(o, g), i);
  }

  // ---- what the schemas accept, stated directly

  /** A number, or a numeral, that is safe and greater than zero. */
  predicate PositiveNumber(v: JsValue, g: Grammar) {
    AsNumber(v, g).Some? && IsSafe(AsNumber(v, g).value) && AsNumber(v, g).value > 0.0
  }

  /** Absent, or a safe integer at least `lo` and, when given, at most `hi`. */
  predicate OptionalIntegerIn(v: JsValue, g: Grammar, lo: int, hi: Option<int>) {
    v == Undefined ||
    (AsNumber(v, g).Some? && IsSafe(AsNumber(v, g).value) && IsInteger(AsNumber(v, g).value) &&
     AsNumber(v, g).value >= lo as real && (hi.Some? ==> AsNumber(v, g).value <= hi.value as real))
  }

  predicate NonEmptyText(v: JsValue) {
    v.Str? && v.s != ""
  }

  /** Absent, or one of the given strings. */
  predicate OptionalChoice(v: JsValue, choices: seq<string>) {
    v == Undefined || (v.Str? && v.s in choices)
  }

  /** The instant an ISO 8601 date string denotes. */
  function Instant(v: JsValue, g: Grammar): Option<int> {
    if v.Str? then g.isoInstant(v.s) else None
  }

  /** No key outside the given ones. */
  predicate OnlyKeys(o: JsObject, keys: set<string>) {
    forall i :: 0 <= i < |o| ==> o[i].0 in keys
  }

  /** A request schema: the parts of the request it constrains. */
  datatype RequestSchema = RequestSchema(body: Option<Schema>, query: Option<Schema>, params: Option<Schema>)

  /** A request as the validators see it. */
  datatype Request = Request(body: JsObject, query: JsObject, params: JsObject)
}

=== FILE: js.dfy ===
/**
 * JavaScript values as they reach the middleware and validators: request
 * bodies, query strings and route parameters.
 */
module Js {
  /** A JavaScript value; `Other` stands for arrays, nested objects and the rest. */
  datatype JsValue = Undefined | Null | Num(r: real) | Str(s: string) | Bool(b: bool) | Other

  /** A plain object: its own keys with their values, in key order. */
  type JsObject = seq<(string, JsValue)>

  /** `o[key]`: the value under that key, `undefined` when absent. */
  function Get(o: JsObject, key: string): (v: JsValue)
    ensures v != Undefined ==> exists i :: 0 <= i < |o| && o[i] == (key, v)
    ensures (forall i :: 0 <= i < |o| ==> o[i].0 != key) ==> v == Undefined
  {
    if o == [] then Undefined
    else if o[0].0 == key then o[0].1
    else Get(o[1..], key)
  }
}

=== FILE: jwt.dfy ===
/**
 * The JWT helper of src/utils/jwt.ts: the secret check, signing, verification
 * with its error translation, bearer-header parsing and the role-checking
 * middleware. The cryptography is a parameter: `sign` stands for
 * `jwt.sign` under the configured secret with the given `expiresIn`
 * option, `check` for `jwt.verify` under the secret, reporting what the
 * library would. The `expiresIn` option is computed from JWT_EXPIRES_IN.
 */
module Jwt {
  import opened Types
  import opened Strings

  /** `new Error(message)`. */
  function JsError(message: string): AppError {
    PlainError("Error", message)
  }

  const MISSING_SECRET: string := "JWT_SECRET is not defined in environment variables"

  /** What `jwt.verify` does with a token: returns its payload or throws. */
  datatype Verdict =
    | Verified(payload: TokenPayload)
    | Expired                   // TokenExpiredError
    | Malformed                 // any other JsonWebTokenError
    | Failed(error: AppError)   // anything else the library throws

  /** validateSecret: an empty (or unset) secret is refused. */
  function ValidateSecret(secret: string): (r: Result<()>)
    ensures r.Ok? <==> secret != ""
    ensures r.Err? ==> r.error == JsError(MISSING_SECRET)
  {
    if secret == "" then Err(JsError(MISSING_SECRET)) else Ok(())
  }

  /** `process.env.JWT_EXPIRES_IN || '24h'`: an unset or empty variable gives "24h". */
  function ConfiguredExpiry(env: Option<string>): (r: string)
    ensures r != ""
    ensures env.Some? && env.value != "" ==> r == env.value
    ensures env.None? ==> r == "24h"
  {
    if env.None? || env.value == "" then "24h" else env.value
  }

  /** The `expiresIn` option of jsonwebtoken: a number counts seconds, a
      string is a duration in the notation of the `ms` package. */
  datatype ExpiresIn = Seconds(n: int) | Span(text: string)

  predicate IsJsSpace(c: char) {
    c == ' ' || c == '\t' || c == '\n' || c == '\r'
  }

  function TrimStart(s: string): string {
    if s != [] && IsJsSpace(s[0]) then TrimStart(s[1..]) else s
  }

  /** The length of the run of decimal digits that starts the string. */
  function DigitRun(s: string): (n: nat)
    ensures n <= |s| && AllDigits(s[..n])
    ensures n < |s| ==> !IsDigit(s[n])
  {
    if s == [] || !IsDigit(s[0]) then 0
    else
      var n := 1 + DigitRun(s[1..]);
      assert s[..n] == [s[0]] + s[1..][..n - 1];
      n
  }

  /** `parseInt(s)` without a radix: leading white space, an optional sign,
      then the longest run of decimal digits; NaN (None) when no digit follows. */
  function ParseIntPrefix(s: string): (r: Option<int>)
    ensures r.None? <==> (var t := TrimStart(s);
      var u := if t != [] && (t[0] == '-' || t[0] == '+') then t[1..] else t;
      u == [] || !IsDigit(u[0]))
  {
    var t := TrimStart(s);
    var u := if t != [] && (t[0] == '-' || t[0] == '+') then t[1..] else t;
    var n := DigitRun(u);
    if n == 0 then None
    else if t[0] == '-' then Some(0 - ParseDecimal(u[..n]) as int)
    else Some(ParseDecimal(u[..n]))
  }

  /** The option generateToken passes as written: `parseInt(setting) || '24h'`.
      A NaN or a zero is falsy and gives the string "24h"; any other number is
      passed as a number, hence read as seconds. */
  function ExpiresInAsWritten(setting: string): ExpiresIn {
    var n := ParseIntPrefix(setting);
    if n.None? || n.value == 0 then Span("24h") else Seconds(n.value)
  }

  /** The option the setting evidently means: a plain number of seconds stays
      a number, a duration with a unit is passed on as the string it is. */
  function ExpiresInOption(setting: string): ExpiresIn {
    if setting != "" && AllDigits(setting) then Seconds(ParseDecimal(setting)) else Span(setting)
  }

  /** Milliseconds per unit for the single-letter units of `ms`. */
  function UnitMillis(c: char): Option<int> {
    if c == 's' then Some(1000)
    else if c == 'm' then Some(60 * 1000)
    else if c == 'h' then Some(60 * 60 * 1000)
    else if c == 'd' then Some(24 * 60 * 60 * 1000)
    else None
  }

  /** The `ms` notation for the forms the model reads: digits alone count
      milliseconds, digits then s, m, h or d count that unit; None for any
      other form. */
  function SpanMillis(text: string): Option<int> {
    if text != "" && AllDigits(text) then Some(ParseDecimal(text))
    else if |text| >= 2 && AllDigits(text[..|text| - 1]) && UnitMillis(text[|text| - 1]).Some? then
      Some(ParseDecimal(text[..|text| - 1]) * UnitMillis(text[|text| - 1]).value)
    else None
  }

  /** How long a token signed with the option lives, in whole seconds. */
  function LifetimeSeconds(e: ExpiresIn): Option<int> {
    match e
    case Seconds(n) => Some(n)
    case Span(text) => if SpanMillis(text).Some? then Some(SpanMillis(text).value / 1000) else None
  }

  /** A number followed by a one-letter unit. */
  predicate DurationWithUnit(setting: string, n: nat, unit: char) {
    setting == Decimal(n) + [unit] && UnitMillis(unit).Some?
  }

  /** `parseInt` stops at the unit: it reads the number alone. */
  lemma ParseIntStopsAtUnit(n: nat, unit: char)
    requires UnitMillis(unit).Some?
    ensures ParseIntPrefix(Decimal(n) + [unit]) == Some(n)
  {
    var s := Decimal(n) + [unit];
    assert s[0] == Decimal(n)[0];
    assert TrimStart(s) == s;
    DigitRunStopsAt(Decimal(n), [unit]);
    assert s[..|Decimal(n)|] == Decimal(n);
    DecimalRoundTrip(n);
  }

  lemma {:induction false} DigitRunStopsAt(d: string, rest: string)
    requires AllDigits(d) && rest != [] && !IsDigit(rest[0])
    ensures DigitRun(d + rest) == |d|
  {
    if d != [] {
      assert (d + rest)[1..] == d[1..] + rest;
      DigitRunStopsAt(d[1..], rest);
    }
  }

  /** As written, a duration with a unit loses its unit: "24h", the default,
      and any other positive "<n><unit>" make tokens live n seconds. */
  lemma ExpiryAsWrittenDropsUnit(setting: string, n: nat, unit: char)
    requires DurationWithUnit(setting, n, unit) && n > 0
    ensures ExpiresInAsWritten(setting) == Seconds(n)
    ensures LifetimeSeconds(ExpiresInAsWritten(setting)) == Some(n)
  {
    ParseIntStopsAtUnit(n, unit);
  }

  /** The default setting, as written: tokens live 24 seconds, not 24 hours. */
  lemma DefaultExpiryAsWrittenCounterexample()
    ensures ExpiresInAsWritten(ConfiguredExpiry(None)) == Seconds(24)
    ensures LifetimeSeconds(ExpiresInAsWritten(ConfiguredExpiry(None))) == Some(24)
    ensures LifetimeSeconds(ExpiresInOption(ConfiguredExpiry(None))) == Some(24 * 60 * 60)
  {
    assert Decimal(24) + ['h'] == "24h";
    ExpiryAsWrittenDropsUnit("24h", 24, 'h');
    DurationKeepsUnit("24h", 24, 'h');
  }

  /** Corrected, a duration with a unit lives n units, and a plain number
      of seconds lives that many seconds, as the as-written code also gives. */
  lemma DurationKeepsUnit(setting: string, n: nat, unit: char)
    requires DurationWithUnit(setting, n, unit)
    ensures LifetimeSeconds(ExpiresInOption(setting)) == Some(n * UnitMillis(unit).value / 1000)
  {
    assert !IsDigit(setting[|setting| - 1]);
    assert setting[..|setting| - 1] == Decimal(n);
    DecimalRoundTrip(n);
  }

  lemma PlainSecondsAgree(n: nat)
    requires n > 0
    ensures ExpiresInOption(Decimal(n)) == Seconds(n)
    ensures ExpiresInAsWritten(Decimal(n)) == Seconds(n)
  {
    var s := Decimal(n);
    assert TrimStart(s) == s;
    assert s == s + [];
    DecimalRoundTrip(n);
    assert DigitRun(s) == |s| by {
      DigitRunAll(s);
    }
    assert s[..|s|] == s;
  }

  lemma {:induction false} DigitRunAll(d: string)
    requires AllDigits(d)
    ensures DigitRun(d) == |d|
  {
    if d != [] {
      DigitRunAll(d[1..]);
    }
  }

  /** generateToken: the payload signed with `parseInt(JWT_EXPIRES_IN) || '24h'`
      as the expiry option, once the secret is known to be set. */
  function GenerateToken(secret: string, expirySetting: Option<string>, payload: TokenPayload,
                         sign: (TokenPayload, ExpiresIn) -> string): (r: Result<string>)
    ensures r.Ok? <==> secret != ""
    ensures r.Ok? ==> r.value == sign(payload, ExpiresInAsWritten(ConfiguredExpiry(expirySetting)))
    ensures r.Err? ==> r.error == JsError(MISSING_SECRET)
  {
    if ValidateSecret(secret).Err? then Err(ValidateSecret(secret).error)
    else Ok(sign(payload, ExpiresInAsWritten(ConfiguredExpiry(expirySetting))))
  }

  /** With JWT_EXPIRES_IN unset, every token generateToken signs is given an
      `expiresIn` of 24, i.e. 24 seconds. */
  lemma DefaultTokenLivesSeconds(secret: string, payload: TokenPayload,
                                 sign: (TokenPayload, ExpiresIn) -> string)
    requires secret != ""
    ensures GenerateToken(secret, None, payload, sign) == Ok(sign(payload, Seconds(24)))
    ensures LifetimeSeconds(Seconds(24)) == Some(24)
  {
    DefaultExpiryAsWrittenCounterexample();
  }

  /** verifyToken: the secret check, then the library's verdict with expiry
      and malformed tokens translated and anything else passed through. */
  function VerifyToken(secret: string, token: string, check: string -> Verdict): (r: Result<TokenPayload>)
    ensures r.Ok? <==> secret != "" && check(token).Verified?
    ensures r.Ok? ==> r.value == check(token).payload
    ensures secret == "" ==> r == Err(JsError(MISSING_SECRET))
    ensures secret != "" && check(token).Expired? ==> r == Err(JsError("Token has expired"))
    ensures secret != "" && check(token).Malformed? ==> r == Err(JsError("Invalid token"))
    ensures secret != "" && check(token).Failed? ==> r == Err(check(token).error)
  {
    if ValidateSecret(secret).Err? then Err(ValidateSecret(secret).error)
    else
      match check(token)
      case Verified(p) => Ok(p)
      case Expired => Err(JsError("Token has expired"))
      case Malformed => Err(JsError("Invalid token"))
      case Failed(e) => Err(e)
  }

  /** extractTokenFromHeader: a missing or empty header, then anything other
      than exactly two space-separated parts starting with `Bearer`, is refused. */
  function ExtractTokenFromHeader(header: Option<string>): (r: Result<string>)
    ensures header.None? || header == Some("") ==> r == Err(JsError("No authorization header provided"))
    ensures r.Err? ==> r.error == JsError("No authorization header provided") ||
                       r.error == JsError("Invalid authorization header format")
  {
    if header.None? || header.value == "" then Err(JsError("No authorization header provided"))
    else
      var parts := Split(header.value, ' ');
      if |parts| != 2 || parts[0] != "Bearer" then Err(JsError("Invalid authorization header format"))
      else Ok(parts[1])
  }

  /** The headers the split test lets through: `Bearer`, one space, then a
      token without spaces (possibly empty). */
  predicate BearerHeader(h: string) {
    |h| >= 7 && h[..7] == "Bearer " && ' ' !in h[7..]
  }

  /** A non-empty header yields a token exactly when it is a bearer header,
      and the token is what follows `Bearer `. */
  lemma ExtractAcceptsExactlyBearer(h: string)
    requires h != ""
    ensures ExtractTokenFromHeader(Some(h)).Ok? <==> BearerHeader(h)
    ensures BearerHeader(h) ==> ExtractTokenFromHeader(Some(h)).value == h[7..]
  {
    var parts := Split(h, ' ');
    if BearerHeader(h) {
      assert h == "Bearer" + [' '] + h[7..];
      SplitAtFirst("Bearer", h[7..], ' ');
      SplitWithoutSeparator(h[7..], ' ');
      assert parts == ["Bearer", h[7..]];
    }
    if ExtractTokenFromHeader(Some(h)).Ok? {
      SplitJoin(h, ' ');
      assert Join(parts, " ") == parts[0] + " " + Join(parts[1..], " ");
      assert Join(parts[1..], " ") == parts[1];
      assert h == "Bearer " + parts[1];
      assert h[7..] == parts[1];
    }
  }

  /** Whatever token is sent as `Bearer <token>` comes back out, provided it has no space. */
  lemma ExtractRoundTrip(token: string)
    requires ' ' !in token
    ensures ExtractTokenFromHeader(Some("Bearer " + token)) == Ok(token)
  {
    var h := "Bearer " + token;
    assert h[..7] == "Bearer " && h[7..] == token;
    ExtractAcceptsExactlyBearer(h);
  }

  /** A non-empty header that is not a bearer header is refused as malformed. */
  lemma ExtractRejectsNonBearer(h: string)
    requires h != "" && !BearerHeader(h)
    ensures ExtractTokenFromHeader(Some(h)) == Err(JsError("Invalid authorization header format"))
  {
    ExtractAcceptsExactlyBearer(h);
  }

  /** The scheme is case-sensitive, and extra or missing spaces are refused,
      whatever the token. */
  lemma ExtractRejectsMalformedHeaders(token: string, a: string, b: string)
    ensures ExtractTokenFromHeader(Some("bearer " + token)).Err?
    ensures ExtractTokenFromHeader(Some("Bearer " + a + " " + b)).Err?
    ensures ExtractTokenFromHeader(Some("Bearer  " + token)).Err?
    ensures ExtractTokenFromHeader(Some("Bearer")).Err?
  {
    var h1 := "bearer " + token;
    assert h1[0] == 'b';
    ExtractRejectsNonBearer(h1);
    var h2 := "Bearer " + a + " " + b;
    assert h2[7..][|a|] == ' ';
    ExtractRejectsNonBearer(h2);
    var h3 := "Bearer  " + token;
    assert h3[7..][0] == ' ';
    ExtractRejectsNonBearer(h3);
    ExtractRejectsNonBearer("Bearer");
  }

  /** What the middleware does with a request: passes it on with `req.user`
      set, or answers it with a status and message. */
  datatype Gate = Admit(user: TokenPayload) | Deny(status: int, message: string)

  /** `error.message || 'Authentication failed'`. */
  function MessageOr(e: AppError): string {
    if e.message == "" then "Authentication failed" else e.message
  }

  /** middleware(allowedRoles): 401 for every failure to obtain a verified
      payload, 403 when the role is not among the allowed ones. */
  function Middleware(header: Option<string>, allowedRoles: Option<seq<string>>, secret: string,
                      check: string -> Verdict): (r: Gate)
    ensures r.Admit? <==>
      ExtractTokenFromHeader(header).Ok? &&
      VerifyToken(secret, ExtractTokenFromHeader(header).value, check).Ok? &&
      (allowedRoles.None? ||
       VerifyToken(secret, ExtractTokenFromHeader(header).value, check).value.role in allowedRoles.value)
    ensures r.Admit? ==> r.user == VerifyToken(secret, ExtractTokenFromHeader(header).value, check).value
    ensures r.Deny? ==> r.status == 401 || r.status == 403
    ensures r.Deny? && r.status == 403 <==>
      ExtractTokenFromHeader(header).Ok? &&
      VerifyToken(secret, ExtractTokenFromHeader(header).value, check).Ok? &&
      allowedRoles.Some? &&
      VerifyToken(secret, ExtractTokenFromHeader(header).value, check).value.role !in allowedRoles.value
    ensures r.Deny? && r.status == 403 ==> r.message == "Insufficient permissions"
    ensures r.Deny? ==> r.message != ""
  {
    var token := ExtractTokenFromHeader(header);
    if token.Err? then Deny(401, MessageOr(token.error))
    else
      var decoded := VerifyToken(secret, token.value, check);
      if decoded.Err? then Deny(401, MessageOr(decoded.error))
      else if allowedRoles.Some? && decoded.value.role !in allowedRoles.value then
        Deny(403, "Insufficient permissions")
      else Admit(decoded.value)
  }
}

=== FILE: ledger.dfy ===
/**
 * The in-memory ledger store the repositories act on: the admin wallets
 * (admin id to balance), and the qr, customer_transaction,
 * admin_transaction, admin and superadmin tables.
 *
 * `State` is the store as a value, used by the specification functions of
 * each operation; class `Store` holds the same tables in mutable fields and
 * offers the single statements the repositories issue (one INSERT, one
 * UPDATE, one wallet adjustment), each specified against `State`.
 *
 * The wallet accessors `getAdminWalletBalance` and `updateWalletBalance`
 * that the repositories call are not defined in the admin repository; they
 * are modelled as: reading a missing wallet fails with a DatabaseError, and
 * `updateWalletBalance(id, d)` adds d to the balance (an UPDATE that finds
 * no wallet row changes nothing).
 */
module Ledger {
  import opened Types
  import opened Seqs

  datatype State = State(
    wallets: map<int, int>,
    qrs: seq<QR>,
    customerTxns: seq<CustomerTransaction>,
    payments: seq<AdminTransaction>,
    admins: seq<Admin>,
    superAdmins: seq<SuperAdmin>,
    nextQrId: int,
    nextCustomerTxnId: int,
    nextPaymentId: int,
    nextAdminId: int)

  /** Serial ids: positive, below the next id to hand out, and distinct. */
  ghost predicate SerialIds(ids: seq<int>, next: int) {
    next >= 1 &&
    (forall i :: 0 <= i < |ids| ==> 1 <= ids[i] < next) &&
    (forall i, j :: 0 <= i < j < |ids| ==> ids[i] != ids[j])
  }

  function QrIds(qrs: seq<QR>): seq<int> {
    seq(|qrs|, i requires 0 <= i < |qrs| => qrs[i].id)
  }

  function CustomerTxnIds(ts: seq<CustomerTransaction>): seq<int> {
    seq(|ts|, i requires 0 <= i < |ts| => ts[i].id)
  }

  function PaymentIds(ps: seq<AdminTransaction>): seq<int> {
    seq(|ps|, i requires 0 <= i < |ps| => ps[i].id)
  }

  function AdminIds(admins: seq<Admin>): seq<int> {
    seq(|admins|, i requires 0 <= i < |admins| => admins[i].id)
  }

  ghost predicate WellFormed(st: State) {
    SerialIds(QrIds(st.qrs), st.nextQrId) &&
    SerialIds(CustomerTxnIds(st.customerTxns), st.nextCustomerTxnId) &&
    SerialIds(PaymentIds(st.payments), st.nextPaymentId) &&
    SerialIds(AdminIds(st.admins), st.nextAdminId)
  }

  /** Appending a row with the next id keeps the ids serial. */
  lemma SerialAppend(ids: seq<int>, next: int)
    requires SerialIds(ids, next)
    ensures SerialIds(ids + [next], next + 1)
  {
  }

  /** What an operation leaves behind: the new store and the operation's result. */
  datatype Step<+T> = Step(state: State, result: Result<T>)

  /** A row appended with the next id is new, and the store stays well formed. */
  lemma AppendQr(st: State, q: QR)
    requires WellFormed(st) && q.id == st.nextQrId
    ensures FindQr(st.qrs, q.id).None?
    ensures WellFormed(st.(qrs := st.qrs + [q], nextQrId := st.nextQrId + 1))
  {
    assert forall i :: 0 <= i < |st.qrs| ==> QrIds(st.qrs)[i] == st.qrs[i].id;
    SerialAppend(QrIds(st.qrs), st.nextQrId);
    assert QrIds(st.qrs + [q]) == QrIds(st.qrs) + [q.id];
  }

  lemma AppendCustomerTxn(st: State, t: CustomerTransaction)
    requires WellFormed(st) && t.id == st.nextCustomerTxnId
    ensures forall i :: 0 <= i < |st.customerTxns| ==> st.customerTxns[i].id != t.id
    ensures WellFormed(st.(customerTxns := st.customerTxns + [t], nextCustomerTxnId := st.nextCustomerTxnId + 1))
  {
    assert forall i :: 0 <= i < |st.customerTxns| ==> CustomerTxnIds(st.customerTxns)[i] == st.customerTxns[i].id;
    SerialAppend(CustomerTxnIds(st.customerTxns), st.nextCustomerTxnId);
    assert CustomerTxnIds(st.customerTxns + [t]) == CustomerTxnIds(st.customerTxns) + [t.id];
  }

  lemma AppendPayment(st: State, p: AdminTransaction)
    requires WellFormed(st) && p.id == st.nextPaymentId
    ensures forall i :: 0 <= i < |st.payments| ==> st.payments[i].id != p.id
    ensures WellFormed(st.(payments := st.payments + [p], nextPaymentId := st.nextPaymentId + 1))
  {
    assert forall i :: 0 <= i < |st.payments| ==> PaymentIds(st.payments)[i] == st.payments[i].id;
    SerialAppend(PaymentIds(st.payments), st.nextPaymentId);
    assert PaymentIds(st.payments + [p]) == PaymentIds(st.payments) + [p.id];
  }

  lemma AppendAdmin(st: State, a: Admin)
    requires WellFormed(st) && a.id == st.nextAdminId
    ensures forall i :: 0 <= i < |st.admins| ==> st.admins[i].id != a.id
    ensures WellFormed(st.(admins := st.admins + [a], nextAdminId := st.nextAdminId + 1))
  {
    assert forall i :: 0 <= i < |st.admins| ==> AdminIds(st.admins)[i] == st.admins[i].id;
    SerialAppend(AdminIds(st.admins), st.nextAdminId);
    assert AdminIds(st.admins + [a]) == AdminIds(st.admins) + [a.id];
  }

  /** An empty store with the given super admins. */
  function Empty(superAdmins: seq<SuperAdmin>): State {
    State(map[], [], [], [], [], superAdmins, 1, 1, 1, 1)
  }

  /** getAdminWalletBalance. */
  function WalletBalance(wallets: map<int, int>, adminId: int): (r: Result<int>)
    ensures r.Ok? <==> adminId in wallets
    ensures r.Ok? ==> r.value == wallets[adminId]
  {
    if adminId in wallets then Ok(wallets[adminId]) else Err(DatabaseError("Admin wallet not found"))
  }

  /** updateWalletBalance(adminId, delta): balance += delta. */
  function Credit(wallets: map<int, int>, adminId: int, delta: int): (w: map<int, int>)
    ensures w.Keys == wallets.Keys
    ensures adminId in wallets ==> w[adminId] == wallets[adminId] + delta
    ensures forall a :: a in wallets && a != adminId ==> w[a] == wallets[a]
  {
    if adminId in wallets then wallets[adminId := wallets[adminId] + delta] else wallets
  }

  /** findById on the qr table. */
  function FindQr(qrs: seq<QR>, id: int): (r: Option<QR>)
    ensures r.Some? ==> r.value in qrs && r.value.id == id
    ensures r.None? <==> forall i :: 0 <= i < |qrs| ==> qrs[i].id != id
  {
    if qrs == [] then None
    else if qrs[0].id == id then Some(qrs[0])
    else FindQr(qrs[1..], id)
  }

  function DeactivateIfId(id: int): QR -> QR {
    (q: QR) => if q.id == id then q.(isActive := false) else q
  }

  /** `update(id, { is_active: false })` on the qr table. */
  function SetInactive(qrs: seq<QR>, id: int): seq<QR> {
    Map(qrs, DeactivateIfId(id))
  }

  /** After the update, every QR is found as before, the one with that id now inactive. */
  lemma {:induction false} FindAfterSetInactive(qrs: seq<QR>, id: int, k: int)
    ensures FindQr(SetInactive(qrs, id), k) ==
      (if FindQr(qrs, k).Some? then Some(DeactivateIfId(id)(FindQr(qrs, k).value)) else None)
  {
    if qrs != [] {
      assert SetInactive(qrs, id)[1..] == SetInactive(qrs[1..], id);
      FindAfterSetInactive(qrs[1..], id, k);
    }
  }

  /** A QR appended at the end is found only when no earlier QR has its id. */
  lemma {:induction false} FindQrAppend(qrs: seq<QR>, q: QR, k: int)
    ensures FindQr(qrs + [q], k) ==
      (if FindQr(qrs, k).Some? then FindQr(qrs, k) else if q.id == k then Some(q) else None)
  {
    if qrs != [] {
      assert (qrs + [q])[1..] == qrs[1..] + [q];
      FindQrAppend(qrs[1..], q, k);
    }
  }

  /** Deactivating twice is deactivating once. */
  lemma SetInactiveIdempotent(qrs: seq<QR>, id: int)
    ensures SetInactive(SetInactive(qrs, id), id) == SetInactive(qrs, id)
  {
  }

  /** The payment rows a conditional `UPDATE ... WHERE transaction_id = $2
      AND transaction_status = 'PENDING'` selects. */
  function IsPendingOrder(orderId: string): AdminTransaction -> bool {
    (p: AdminTransaction) => p.transactionId == orderId && p.status == PENDING
  }

  function SettleIfPending(orderId: string, to: TransactionStatus): AdminTransaction -> AdminTransaction {
    (p: AdminTransaction) => if IsPendingOrder(orderId)(p) then p.(status := to) else p
  }

  /** The table after the conditional status update. */
  function SettleRows(ps: seq<AdminTransaction>, orderId: string, to: TransactionStatus): seq<AdminTransaction> {
    Map(ps, SettleIfPending(orderId, to))
  }

  /** The conditional update, row by row: a PENDING row of the order takes the new status, any other row stays. */
  lemma SettleRowsAt(ps: seq<AdminTransaction>, orderId: string, to: TransactionStatus, i: int)
    requires 0 <= i < |ps|
    ensures SettleRows(ps, orderId, to)[i] ==
      (if ps[i].transactionId == orderId && ps[i].status == PENDING then ps[i].(status := to) else ps[i])
  {
    assert SettleRows(ps, orderId, to)[i] == SettleIfPending(orderId, to)(ps[i]);
    assert IsPendingOrder(orderId)(ps[i]) == (ps[i].transactionId == orderId && ps[i].status == PENDING);
  }

  lemma SettleRowsCons(ps: seq<AdminTransaction>, orderId: string, to: TransactionStatus)
    requires ps != []
    ensures SettleRows(ps, orderId, to)[0] ==
      (if ps[0].transactionId == orderId && ps[0].status == PENDING then ps[0].(status := to) else ps[0])
    ensures SettleRows(ps, orderId, to)[1..] == SettleRows(ps[1..], orderId, to)
  {
    SettleRowsAt(ps, orderId, to, 0);
  }

  /** With no other row of that order, the update leaves the rest of the table alone. */
  lemma SettleRestUnchanged(ps: seq<AdminTransaction>, orderId: string, to: TransactionStatus)
    requires ps != []
    requires forall i :: 1 <= i < |ps| ==> ps[i].transactionId != orderId
    ensures SettleRows(ps[1..], orderId, to) == ps[1..]
  {
    forall i | 0 <= i < |ps| - 1
      ensures SettleRows(ps[1..], orderId, to)[i] == ps[1..][i]
    {
      assert ps[1..][i] == ps[i + 1];
      SettleRowsAt(ps[1..], orderId, to, i);
    }
  }

  function WithStatus(to: TransactionStatus): AdminTransaction -> AdminTransaction {
    (p: AdminTransaction) => p.(status := to)
  }

  /** What `RETURNING *` yields: the selected rows as updated, in table order. */
  function Settled(ps: seq<AdminTransaction>, orderId: string, to: TransactionStatus): seq<AdminTransaction> {
    Map(Filter(ps, IsPendingOrder(orderId)), WithStatus(to))
  }

  /** The first row of the table still PENDING under that order id. */
  function FirstPending(ps: seq<AdminTransaction>, orderId: string): (r: Option<AdminTransaction>)
    ensures r.Some? ==> r.value in ps && r.value.transactionId == orderId && r.value.status == PENDING
    ensures r.None? <==> forall i :: 0 <= i < |ps| ==> !(ps[i].transactionId == orderId && ps[i].status == PENDING)
  {
    if ps == [] then None
    else if ps[0].transactionId == orderId && ps[0].status == PENDING then Some(ps[0])
    else FirstPending(ps[1..], orderId)
  }

  /** The rows the conditional update returns start with the first pending row of the order, updated. */
  lemma {:induction false} SettledStartsWithFirstPending(ps: seq<AdminTransaction>, orderId: string, to: TransactionStatus)
    ensures (Settled(ps, orderId, to) == []) == FirstPending(ps, orderId).None?
    ensures Settled(ps, orderId, to) != [] ==>
      Settled(ps, orderId, to)[0] == FirstPending(ps, orderId).value.(status := to)
  {
    if ps != [] {
      SettledStartsWithFirstPending(ps[1..], orderId, to);
      var kept := if IsPendingOrder(orderId)(ps[0]) then [ps[0]] else [];
      assert Filter(ps, IsPendingOrder(orderId)) == kept + Filter(ps[1..], IsPendingOrder(orderId));
      MapAppend(kept, Filter(ps[1..], IsPendingOrder(orderId)), WithStatus(to));
    }
  }

  lemma SetInactiveKeepsIds(st: State, id: int)
    requires WellFormed(st)
    ensures WellFormed(st.(qrs := SetInactive(st.qrs, id)))
  {
    assert QrIds(SetInactive(st.qrs, id)) == QrIds(st.qrs);
  }

  lemma SettleKeepsIds(st: State, orderId: string, to: TransactionStatus)
    requires WellFormed(st)
    ensures WellFormed(st.(payments := SettleRows(st.payments, orderId, to)))
  {
    assert PaymentIds(SettleRows(st.payments, orderId, to)) == PaymentIds(st.payments);
  }

  /** When the conditional update selects no row, the table is unchanged. */
  lemma SettleWithoutMatch(ps: seq<AdminTransaction>, orderId: string, to: TransactionStatus)
    requires Settled(ps, orderId, to) == []
    ensures SettleRows(ps, orderId, to) == ps
  {
    assert Filter(ps, IsPendingOrder(orderId)) == [];
  }

  /** After the update moves the order out of PENDING, the same update selects nothing. */
  lemma SettledLeavesNoPending(ps: seq<AdminTransaction>, orderId: string, to: TransactionStatus)
    requires to != PENDING
    ensures Settled(SettleRows(ps, orderId, to), orderId, to) == []
  {
    FilterNone(SettleRows(ps, orderId, to), IsPendingOrder(orderId));
  }

  function HasEmail(email: string): Admin -> bool {
    (a: Admin) => a.email == email
  }

  /** `findOne({ email })` on the admin table. */
  function FindAdminByEmail(admins: seq<Admin>, email: string): (r: Option<Admin>)
    ensures r.Some? ==> r.value in admins && r.value.email == email
    ensures r.None? <==> forall i :: 0 <= i < |admins| ==> admins[i].email != email
  {
    var found := Filter(admins, HasEmail(email));
    if found == [] then None else Some(found[0])
  }

  /** The database: tables as fields, updated one statement at a time. */
  class Store {
    var wallets: map<int, int>
    var qrs: seq<QR>
    var customerTxns: seq<CustomerTransaction>
    var payments: seq<AdminTransaction>
    var admins: seq<Admin>
    var superAdmins: seq<SuperAdmin>
    var nextQrId: int
    var nextCustomerTxnId: int
    var nextPaymentId: int
    var nextAdminId: int

    function Snapshot(): State
      reads this
    {
      State(wallets, qrs, customerTxns, payments, admins, superAdmins,
            nextQrId, nextCustomerTxnId, nextPaymentId, nextAdminId)
    }

    ghost predicate Valid()
      reads this
    {
      WellFormed(Snapshot())
    }

    constructor (superAdmins: seq<SuperAdmin>)
      ensures Valid() && Snapshot() == Empty(superAdmins)
    {
      wallets := map[];
      qrs := [];
      customerTxns := [];
      payments := [];
      admins := [];
      this.superAdmins := superAdmins;
      nextQrId := 1;
      nextCustomerTxnId := 1;
      nextPaymentId := 1;
      nextAdminId := 1;
    }

    /** The balance of an existing wallet; a missing wallet is an error. */
    method GetAdminWalletBalance(adminId: int) returns (r: Result<int>)
      ensures r.Ok? <==> adminId in wallets
      ensures r.Ok? ==> r.value == wallets[adminId]
      ensures r.Err? ==> r.error == DatabaseError("Admin wallet not found")
    {
      r := if adminId in wallets then Ok(wallets[adminId]) else Err(DatabaseError("Admin wallet not found"));
    }

    method UpdateWalletBalance(adminId: int, delta: int)
      modifies this`wallets
      ensures wallets == Credit(old(wallets), adminId, delta)
    {
      if adminId in wallets {
        wallets := wallets[adminId := wallets[adminId] + delta];
      }
    }

    /** `INSERT INTO wallet (admin_id, balance) VALUES ($1, 0)`. */
    method InsertWallet(adminId: int)
      modifies this`wallets
      ensures wallets == old(wallets)[adminId := 0]
    {
      wallets := wallets[adminId := 0];
    }

    /** findById on the qr table: the QR with that id, or null when no QR has it. */
    method FindQrById(id: int) returns (r: Option<QR>)
      ensures r.Some? <==> exists i :: 0 <= i < |qrs| && qrs[i].id == id
      ensures r.Some? ==> r.value in qrs && r.value.id == id
      ensures r == FindQr(qrs, id)
    {
      r := FindQr(qrs, id);
    }

    /** `INSERT INTO qr (...) VALUES (...) RETURNING *` with is_active = true. */
    method InsertQr(adminId: int, payload: string, amount: int) returns (q: QR)
      requires Valid()
      modifies this`qrs, this`nextQrId
      ensures Valid()
      ensures q == QR(old(nextQrId), adminId, payload, amount, true)
      ensures qrs == old(qrs) + [q] && nextQrId == old(nextQrId) + 1
    {
      q := QR(nextQrId, adminId, payload, amount, true);
      SerialAppend(QrIds(qrs), nextQrId);
      assert QrIds(qrs + [q]) == QrIds(qrs) + [nextQrId];
      qrs := qrs + [q];
      nextQrId := nextQrId + 1;
    }

    method UpdateQrInactive(id: int)
      requires Valid()
      modifies this`qrs
      ensures Valid()
      ensures qrs == SetInactive(old(qrs), id)
    {
      assert QrIds(SetInactive(qrs, id)) == QrIds(qrs);
      qrs := SetInactive(qrs, id);
    }

    /** `INSERT INTO customer_transaction (customer_id, qr_id, amount) ... RETURNING *`. */
    method InsertCustomerTxn(customerId: int, qrId: int, amount: int) returns (t: CustomerTransaction)
      requires Valid()
      modifies this`customerTxns, this`nextCustomerTxnId
      ensures Valid()
      ensures t == CustomerTransaction(old(nextCustomerTxnId), customerId, qrId, amount)
      ensures customerTxns == old(customerTxns) + [t] && nextCustomerTxnId == old(nextCustomerTxnId) + 1
    {
      t := CustomerTransaction(nextCustomerTxnId, customerId, qrId, amount);
      SerialAppend(CustomerTxnIds(customerTxns), nextCustomerTxnId);
      assert CustomerTxnIds(customerTxns + [t]) == CustomerTxnIds(customerTxns) + [nextCustomerTxnId];
      customerTxns := customerTxns + [t];
      nextCustomerTxnId := nextCustomerTxnId + 1;
    }

    /** `INSERT INTO admin_transaction (...)` of a PENDING order. */
    method InsertPayment(adminId: int, orderId: string, amount: int) returns (p: AdminTransaction)
      requires Valid()
      modifies this`payments, this`nextPaymentId
      ensures Valid()
      ensures p == AdminTransaction(old(nextPaymentId), adminId, orderId, amount, PENDING)
      ensures payments == old(payments) + [p] && nextPaymentId == old(nextPaymentId) + 1
    {
      p := AdminTransaction(nextPaymentId, adminId, orderId, amount, PENDING);
      SerialAppend(PaymentIds(payments), nextPaymentId);
      assert PaymentIds(payments + [p]) == PaymentIds(payments) + [nextPaymentId];
      payments := payments + [p];
      nextPaymentId := nextPaymentId + 1;
    }

    /** The conditional status update with `RETURNING *`. */
    method UpdatePendingStatus(orderId: string, to: TransactionStatus) returns (updated: seq<AdminTransaction>)
      requires Valid()
      modifies this`payments
      ensures Valid()
      ensures payments == SettleRows(old(payments), orderId, to)
      ensures updated == Settled(old(payments), orderId, to)
    {
      updated := Settled(payments, orderId, to);
      assert PaymentIds(SettleRows(payments, orderId, to)) == PaymentIds(payments);
      payments := SettleRows(payments, orderId, to);
    }

    /** findByEmail on the admin table: an admin with that email, or null when none has it. */
    method FindAdminWithEmail(email: string) returns (r: Option<Admin>)
      ensures r.Some? <==> exists i :: 0 <= i < |admins| && admins[i].email == email
      ensures r.Some? ==> r.value in admins && r.value.email == email
      ensures r == FindAdminByEmail(admins, email)
    {
      r := FindAdminByEmail(admins, email);
    }

    /** `create(...)` on the admin table. */
    method InsertAdmin(superadminId: int, name: string, email: string, phone: string,
                       password: string, companyName: string) returns (a: Admin)
      requires Valid()
      modifies this`admins, this`nextAdminId
      ensures Valid()
      ensures a == Admin(old(nextAdminId), superadminId, name, email, phone, password, companyName)
      ensures admins == old(admins) + [a] && nextAdminId == old(nextAdminId) + 1
    {
      a := Admin(nextAdminId, superadminId, name, email, phone, password, companyName);
      SerialAppend(AdminIds(admins), nextAdminId);
      assert AdminIds(admins + [a]) == AdminIds(admins) + [nextAdminId];
      admins := admins + [a];
      nextAdminId := nextAdminId + 1;
    }
  }
}

=== FILE: ledger_invariants.dfy ===
/**
 * What the ledger operations keep true together, across
 * src/repositories/qr-transaction.repository.ts,
 * src/repositories/payment.repository.ts,
 * src/repositories/admin.repository.ts and src/controllers/qr.controller.ts.
 *
 * `Invariant` gathers:
 *  - serial, distinct row ids (`WellFormed`);
 *  - conservation of value: every wallet holds what the admin's successful
 *    top-ups added minus what the admin's QRs generated (`Balanced`), which
 *    relies on gateway order ids being distinct (`DistinctOrderIds`);
 *  - every customer transaction is the redemption of its own QR, now
 *    inactive, for that QR's amount (`Redeemed`).
 *  - every wallet, QR and order belongs to an admin id already handed out
 *    (`OwnersIssued`), so a new admin's zero wallet is balanced.
 * `Evolves` relates a store to a later one: rows are never lost, a QR only
 * goes from active to inactive, and only PENDING orders change status.
 */
module LedgerInvariants {
  import opened Types
  import opened Seqs
  import opened Ledger
  import opened QrRepository
  import opened PaymentRepository
  import opened AdminRepository
  import opened QrController
  import opened PaymentController

  ghost predicate DistinctOrderIds(ps: seq<AdminTransaction>) {
    forall i, j :: 0 <= i < j < |ps| ==> ps[i].transactionId != ps[j].transactionId
  }

  ghost predicate Balanced(st: State) {
    forall a :: a in st.wallets ==>
      st.wallets[a] == AmountAdded(st.payments, a) - TotalAmountGenerated(st.qrs, a)
  }

  /** The customer transaction redeemed its QR: the QR exists, is spent, and had that amount. */
  ghost predicate RedeemedBy(qrs: seq<QR>, t: CustomerTransaction) {
    FindQr(qrs, t.qrId).Some? && !FindQr(qrs, t.qrId).value.isActive && FindQr(qrs, t.qrId).value.amount == t.amount
  }

  ghost predicate Redeemed(st: State) {
    (forall i :: 0 <= i < |st.customerTxns| ==> RedeemedBy(st.qrs, st.customerTxns[i])) &&
    (forall i, j :: 0 <= i < j < |st.customerTxns| ==> st.customerTxns[i].qrId != st.customerTxns[j].qrId)
  }

  /** Every wallet, QR and order belongs to an admin id already handed out,
      so a newly created admin starts with no QR and no order. */
  ghost predicate OwnersIssued(st: State) {
    (forall a :: a in st.wallets ==> a < st.nextAdminId) &&
    (forall i :: 0 <= i < |st.qrs| ==> st.qrs[i].adminId < st.nextAdminId) &&
    (forall i :: 0 <= i < |st.payments| ==> st.payments[i].adminId < st.nextAdminId)
  }

  ghost predicate Invariant(st: State) {
    WellFormed(st) && Balanced(st) && DistinctOrderIds(st.payments) && Redeemed(st) && OwnersIssued(st)
  }

  /** An existing QR keeps id, owner, payload and amount, and can only be
      deactivated; QRs are never removed. */
  ghost predicate QrsEvolve(before: seq<QR>, after: seq<QR>) {
    |before| <= |after| &&
    forall i :: 0 <= i < |before| ==>
      after[i] == before[i] || (before[i].isActive && after[i] == before[i].(isActive := false))
  }

  /** An existing order keeps everything but its status, which only leaves
      PENDING; orders are never removed. */
  ghost predicate PaymentsEvolve(before: seq<AdminTransaction>, after: seq<AdminTransaction>) {
    |before| <= |after| &&
    forall i :: 0 <= i < |before| ==>
      after[i] == before[i] || (before[i].status == PENDING && after[i] == before[i].(status := after[i].status))
  }

  ghost predicate Evolves(before: State, after: State) {
    QrsEvolve(before.qrs, after.qrs) && PaymentsEvolve(before.payments, after.payments) &&
    |before.customerTxns| <= |after.customerTxns| && after.customerTxns[..|before.customerTxns|] == before.customerTxns &&
    |before.admins| <= |after.admins| && after.admins[..|before.admins|] == before.admins
  }

  /** Any run of operations evolves the store: the relation composes. */
  lemma EvolvesTransitive(a: State, b: State, c: State)
    requires Evolves(a, b) && Evolves(b, c)
    ensures Evolves(a, c)
  {
    assert c.customerTxns[..|a.customerTxns|] == c.customerTxns[..|b.customerTxns|][..|a.customerTxns|];
    assert c.admins[..|a.admins|] == c.admins[..|b.admins|][..|a.admins|];
  }

  /** A spent QR stays spent, and a settled order keeps its status, in every later store. */
  lemma SpentAndSettledAreFinal(before: State, after: State)
    requires Evolves(before, after)
    ensures forall i :: 0 <= i < |before.qrs| && !before.qrs[i].isActive ==> after.qrs[i] == before.qrs[i]
    ensures forall i :: 0 <= i < |before.payments| && before.payments[i].status != PENDING ==>
      after.payments[i] == before.payments[i]
  {
  }

  lemma EmptyStoreIsValid(superAdmins: seq<SuperAdmin>)
    ensures Invariant(Empty(superAdmins))
  {
  }

  lemma SetInactiveEvolves(qrs: seq<QR>, id: int)
    ensures QrsEvolve(qrs, SetInactive(qrs, id))
  {
  }

  lemma SettleEvolves(ps: seq<AdminTransaction>, orderId: string, to: TransactionStatus)
    ensures PaymentsEvolve(ps, SettleRows(ps, orderId, to))
  {
    forall i | 0 <= i < |ps|
      ensures SettleRows(ps, orderId, to)[i] == ps[i] ||
        (ps[i].status == PENDING && SettleRows(ps, orderId, to)[i] == ps[i].(status := to))
    {
      SettleRowsAt(ps, orderId, to, i);
    }
  }

  /** After deactivating `id`, every redemption still holds. */
  lemma RedemptionsSurviveSetInactive(st: State, id: int)
    requires Redeemed(st)
    ensures Redeemed(st.(qrs := SetInactive(st.qrs, id)))
  {
    forall i | 0 <= i < |st.customerTxns|
      ensures RedeemedBy(SetInactive(st.qrs, id), st.customerTxns[i])
    {
      FindAfterSetInactive(st.qrs, id, st.customerTxns[i].qrId);
    }
  }

  lemma TotalsSurviveSetInactive(st: State, id: int)
    requires Balanced(st)
    ensures Balanced(st.(qrs := SetInactive(st.qrs, id)))
  {
    forall a | a in st.wallets
      ensures TotalAmountGenerated(SetInactive(st.qrs, id), a) == TotalAmountGenerated(st.qrs, a)
    {
      TotalAfterSetInactive(st.qrs, id, a);
    }
  }

  /** Deactivation keeps every QR's owner. */
  lemma OwnersAfterSetInactive(st: State, id: int)
    requires OwnersIssued(st)
    ensures OwnersIssued(st.(qrs := SetInactive(st.qrs, id)))
  {
    forall i | 0 <= i < |st.qrs|
      ensures SetInactive(st.qrs, id)[i].adminId == st.qrs[i].adminId
    {
      assert SetInactive(st.qrs, id)[i] == DeactivateIfId(id)(st.qrs[i]);
    }
  }

  /** Settling keeps every order's owner. */
  lemma OwnersAfterSettle(st: State, orderId: string, to: TransactionStatus)
    requires OwnersIssued(st)
    ensures OwnersIssued(st.(payments := SettleRows(st.payments, orderId, to)))
  {
    forall i | 0 <= i < |st.payments|
      ensures SettleRows(st.payments, orderId, to)[i].adminId == st.payments[i].adminId
    {
      SettleRowsAt(st.payments, orderId, to, i);
    }
  }

  /** A new QR is issued only against an existing wallet, hence to an issued admin id. */
  lemma OwnersAfterIssue(st: State, adminId: int, amount: int, payload: string)
    requires OwnersIssued(st)
    ensures OwnersIssued(Issue(st, adminId, amount, payload).state)
  {
    var r := Issue(st, adminId, amount, payload);
    if r.result.Ok? {
      assert r.state.nextAdminId == st.nextAdminId;
      forall i | 0 <= i < |r.state.qrs|
        ensures r.state.qrs[i].adminId < r.state.nextAdminId
      {
        if i < |st.qrs| {
          assert r.state.qrs[i] == st.qrs[i];
        } else {
          assert r.state.qrs[i] == r.result.value;
        }
      }
    }
  }

  lemma OwnersAfterCreateOrder(st: State, adminId: int, amount: int, gateway: OrderRequest -> GatewayReply)
    requires OwnersIssued(st) && adminId < st.nextAdminId
    ensures OwnersIssued(CreateOrder(st, adminId, amount, gateway).state)
  {
    var r := CreateOrder(st, adminId, amount, gateway);
    if r.result.Ok? {
      assert r.state.nextAdminId == st.nextAdminId;
      forall i | 0 <= i < |r.state.payments|
        ensures r.state.payments[i].adminId < r.state.nextAdminId
      {
        if i < |st.payments| {
          assert r.state.payments[i] == st.payments[i];
        }
      }
    }
  }

  /** The new admin's wallet carries the id just handed out. */
  lemma OwnersAfterCreateAdmin(st: State, req: CreateAdminRequest, superadminId: int,
                               hash: string -> string, walletFailure: Option<string>)
    requires OwnersIssued(st)
    ensures OwnersIssued(CreateAdmin(st, req, superadminId, hash, walletFailure).state)
  {
    var r := CreateAdmin(st, req, superadminId, hash, walletFailure);
    assert r.state.nextAdminId >= st.nextAdminId;
    assert r.state.wallets.Keys <= st.wallets.Keys + {st.nextAdminId};
  }

  lemma IssueKeepsInvariant(st: State, adminId: int, amount: int, payload: string)
    requires Invariant(st)
    ensures var after := Issue(st, adminId, amount, payload).state;
      Invariant(after) && Evolves(st, after)
  {
    var r := Issue(st, adminId, amount, payload);
    OwnersAfterIssue(st, adminId, amount, payload);
    if r.result.Ok? {
      var q := r.result.value;
      AppendQr(st, q);
      forall a | a in r.state.wallets
        ensures r.state.wallets[a] == AmountAdded(r.state.payments, a) - TotalAmountGenerated(r.state.qrs, a)
      {
        TotalAfterAppend(st.qrs, q, a);
      }
      forall i | 0 <= i < |st.customerTxns|
        ensures RedeemedBy(r.state.qrs, st.customerTxns[i])
      {
        FindQrAppend(st.qrs, q, st.customerTxns[i].qrId);
      }
    }
  }

  lemma ScanKeepsInvariant(st: State, qrId: int, customerId: int)
    requires Invariant(st)
    ensures var after := Scan(st, qrId, customerId).state;
      Invariant(after) && Evolves(st, after)
  {
    var r := Scan(st, qrId, customerId);
    if r.result.Ok? {
      var t := r.result.value;
      var inserted := st.(customerTxns := st.customerTxns + [t], nextCustomerTxnId := st.nextCustomerTxnId + 1);
      AppendCustomerTxn(st, t);
      SetInactiveKeepsIds(inserted, qrId);
      TotalsSurviveSetInactive(inserted, qrId);
      OwnersAfterSetInactive(inserted, qrId);
      SetInactiveEvolves(st.qrs, qrId);
      RedeemedAfterScan(st, qrId, customerId);
      assert r.state == inserted.(qrs := SetInactive(st.qrs, qrId));
      assert r.state.customerTxns[..|st.customerTxns|] == st.customerTxns;
    }
  }

  /** The new customer transaction redeems the QR just spent, which no earlier one had redeemed. */
  lemma RedeemedAfterScan(st: State, qrId: int, customerId: int)
    requires Redeemed(st) && Scan(st, qrId, customerId).result.Ok?
    ensures Redeemed(Scan(st, qrId, customerId).state)
  {
    var r := Scan(st, qrId, customerId);
    var t := r.result.value;
    forall i | 0 <= i < |st.customerTxns|
      ensures st.customerTxns[i].qrId != qrId
    {
      assert RedeemedBy(st.qrs, st.customerTxns[i]);
    }
    RedemptionsSurviveSetInactive(st, qrId);
    FindAfterSetInactive(st.qrs, qrId, qrId);
    assert RedeemedBy(r.state.qrs, t);
    assert r.state.customerTxns == st.customerTxns + [t];
  }

  lemma DeactivateKeepsInvariant(st: State, adminId: int, qrId: int)
    requires Invariant(st)
    ensures var after := Deactivate(st, adminId, qrId).state;
      Invariant(after) && Evolves(st, after)
  {
    if Deactivate(st, adminId, qrId).result.Ok? {
      SetInactiveKeepsIds(st, qrId);
      TotalsSurviveSetInactive(st, qrId);
      RedemptionsSurviveSetInactive(st, qrId);
      OwnersAfterSetInactive(st, qrId);
    }
  }

  /** The successful-top-up sum, one row at a time. */
  lemma AmountAddedCons(ps: seq<AdminTransaction>, adminId: int)
    requires ps != []
    ensures AmountAdded(ps, adminId) ==
      (if ps[0].adminId == adminId && ps[0].status == SUCCESS then ps[0].amount else 0) + AmountAdded(ps[1..], adminId)
  {
    var kept := if PaidByInStatus(adminId, SUCCESS)(ps[0]) then [ps[0]] else [];
    assert Filter(ps, PaidByInStatus(adminId, SUCCESS)) == kept + Filter(ps[1..], PaidByInStatus(adminId, SUCCESS));
    SumOfAppend(kept, Filter(ps[1..], PaidByInStatus(adminId, SUCCESS)), PaymentAmount());
  }

  /** A new PENDING order adds nothing to any top-up sum. */
  lemma AmountAddedAfterPending(ps: seq<AdminTransaction>, p: AdminTransaction, adminId: int)
    requires p.status == PENDING
    ensures AmountAdded(ps + [p], adminId) == AmountAdded(ps, adminId)
  {
    FilterAppend(ps, [p], PaidByInStatus(adminId, SUCCESS));
    assert Filter([p], PaidByInStatus(adminId, SUCCESS)) == [];
    assert Filter(ps + [p], PaidByInStatus(adminId, SUCCESS)) == Filter(ps, PaidByInStatus(adminId, SUCCESS));
  }

  /** With distinct order ids, verifying adds exactly the settled order's amount to its owner's sum. */
  lemma {:induction false} AmountAddedAfterSuccess(ps: seq<AdminTransaction>, orderId: string, adminId: int)
    requires DistinctOrderIds(ps) && FirstPending(ps, orderId).Some?
    ensures var p := FirstPending(ps, orderId).value;
      AmountAdded(SettleRows(ps, orderId, SUCCESS), adminId) ==
      AmountAdded(ps, adminId) + (if p.adminId == adminId then p.amount else 0)
  {
    var settled := SettleRows(ps, orderId, SUCCESS);
    SettleRowsCons(ps, orderId, SUCCESS);
    AmountAddedCons(ps, adminId);
    AmountAddedCons(settled, adminId);
    if ps[0].transactionId == orderId && ps[0].status == PENDING {
      assert forall i :: 1 <= i < |ps| ==> ps[i].transactionId != orderId by {
        forall i | 1 <= i < |ps| ensures ps[i].transactionId != orderId {
          assert ps[0].transactionId != ps[i].transactionId;
        }
      }
      SettleRestUnchanged(ps, orderId, SUCCESS);
      assert settled[1..] == ps[1..];
    } else {
      DistinctOrderIdsTail(ps);
      assert settled[0] == ps[0];
      AmountAddedAfterSuccess(ps[1..], orderId, adminId);
    }
  }

  lemma DistinctOrderIdsTail(ps: seq<AdminTransaction>)
    requires ps != [] && DistinctOrderIds(ps)
    ensures DistinctOrderIds(ps[1..])
  {
    forall i, j | 0 <= i < j < |ps| - 1
      ensures ps[1..][i].transactionId != ps[1..][j].transactionId
    {
      assert ps[1..][i] == ps[i + 1] && ps[1..][j] == ps[j + 1];
    }
  }

  /** Marking an order failed changes no top-up sum. */
  lemma {:induction false} AmountAddedAfterFailure(ps: seq<AdminTransaction>, orderId: string, adminId: int)
    ensures AmountAdded(SettleRows(ps, orderId, FAILED), adminId) == AmountAdded(ps, adminId)
  {
    if ps != [] {
      var settled := SettleRows(ps, orderId, FAILED);
      SettleRowsCons(ps, orderId, FAILED);
      AmountAddedCons(ps, adminId);
      AmountAddedCons(settled, adminId);
      AmountAddedAfterFailure(ps[1..], orderId, adminId);
    }
  }

  /** The gateway's order id must be new for the ledger to stay balanced; the
      caller is an existing admin, as authenticate and requireAdmin ensure. */
  lemma CreateOrderKeepsInvariant(st: State, adminId: int, amount: int, gateway: OrderRequest -> GatewayReply)
    requires Invariant(st) && adminId in AdminIds(st.admins)
    requires var reply := gateway(OrderRequest(amount * 100, "INR"));
      reply.OrderCreated? ==> forall i :: 0 <= i < |st.payments| ==> st.payments[i].transactionId != reply.orderId
    ensures var after := CreateOrder(st, adminId, amount, gateway).state;
      Invariant(after) && Evolves(st, after)
  {
    var r := CreateOrder(st, adminId, amount, gateway);
    assert adminId < st.nextAdminId by {
      var i :| 0 <= i < |AdminIds(st.admins)| && AdminIds(st.admins)[i] == adminId;
    }
    OwnersAfterCreateOrder(st, adminId, amount, gateway);
    if r.result.Ok? {
      var p := r.state.payments[|st.payments|];
      AppendPayment(st, p);
      forall a | a in st.wallets
        ensures AmountAdded(r.state.payments, a) == AmountAdded(st.payments, a)
      {
        AmountAddedAfterPending(st.payments, p, a);
      }
      assert r.state.payments[..|st.payments|] == st.payments;
    }
  }

  lemma VerifyKeepsInvariant(st: State, orderId: string)
    requires Invariant(st)
    ensures var after := Verify(st, orderId).state;
      Invariant(after) && Evolves(st, after)
  {
    var r := Verify(st, orderId);
    if r.result.Ok? {
      var p := FirstPending(st.payments, orderId).value;
      SettleKeepsIds(st, orderId, SUCCESS);
      SettleEvolves(st.payments, orderId, SUCCESS);
      OwnersAfterSettle(st, orderId, SUCCESS);
      forall a | a in r.state.wallets
        ensures r.state.wallets[a] == AmountAdded(r.state.payments, a) - TotalAmountGenerated(r.state.qrs, a)
      {
        AmountAddedAfterSuccess(st.payments, orderId, a);
      }
    }
  }

  lemma MarkFailedKeepsInvariant(st: State, orderId: string)
    requires Invariant(st)
    ensures var after := MarkFailed(st, orderId).state;
      Invariant(after) && Evolves(st, after)
  {
    if MarkFailed(st, orderId).result.Ok? {
      SettleKeepsIds(st, orderId, FAILED);
      SettleEvolves(st.payments, orderId, FAILED);
      OwnersAfterSettle(st, orderId, FAILED);
      forall a | a in st.wallets
        ensures AmountAdded(SettleRows(st.payments, orderId, FAILED), a) == AmountAdded(st.payments, a)
      {
        AmountAddedAfterFailure(st.payments, orderId, a);
      }
    }
  }

  /** The new admin's zero wallet is balanced: no earlier QR or order carries the new id. */
  lemma CreateAdminKeepsInvariant(st: State, req: CreateAdminRequest, superadminId: int,
                                  hash: string -> string, walletFailure: Option<string>)
    requires Invariant(st)
    ensures var after := CreateAdmin(st, req, superadminId, hash, walletFailure).state;
      Invariant(after) && Evolves(st, after)
  {
    var r := CreateAdmin(st, req, superadminId, hash, walletFailure);
    OwnersAfterCreateAdmin(st, req, superadminId, hash, walletFailure);
    if FindAdminByEmail(st.admins, req.email).None? {
      var a := NewAdmin(st, req, superadminId, hash);
      AppendAdmin(st, a);
      BalancedAfterCreateAdmin(st, req, superadminId, hash, walletFailure);
      assert r.state.admins[..|st.admins|] == st.admins;
    }
  }

  /** A zero wallet for an id no QR or order carries is balanced; the others are untouched. */
  lemma BalancedAfterCreateAdmin(st: State, req: CreateAdminRequest, superadminId: int,
                                 hash: string -> string, walletFailure: Option<string>)
    requires Balanced(st) && OwnersIssued(st)
    ensures Balanced(CreateAdmin(st, req, superadminId, hash, walletFailure).state)
  {
    var r := CreateAdmin(st, req, superadminId, hash, walletFailure);
    if FindAdminByEmail(st.admins, req.email).None? && walletFailure.None? {
      var id := st.nextAdminId;
      assert r.state.wallets == st.wallets[id := 0];
      FilterNone(st.payments, PaidByInStatus(id, SUCCESS));
      assert AmountAdded(st.payments, id) == 0;
      TotalWithoutQrs(st.qrs, id);
    }
  }

  /** One state-changing request the routes serve, with the oracles it consults. */
  datatype Operation =
    | GenerateOp(adminId: int, amount: int, payload: string)
    | ScanOp(qrId: int, customerId: int)
    | DeactivateOp(adminId: int, qrId: int)
    | CreateOrderOp(adminId: int, amount: int, gateway: OrderRequest -> GatewayReply)
    | VerifyOp(orderId: string)
    | MarkFailedOp(orderId: string)
    | CreateAdminOp(req: CreateAdminRequest, superadminId: int, hash: string -> string, walletFailure: Option<string>)

  /** The store after one request, whether it succeeded or failed. */
  function Apply(st: State, op: Operation): State {
    match op
    case GenerateOp(adminId, amount, payload) => Issue(st, adminId, amount, payload).state
    case ScanOp(qrId, customerId) => Scan(st, qrId, customerId).state
    case DeactivateOp(adminId, qrId) => Deactivate(st, adminId, qrId).state
    case CreateOrderOp(adminId, amount, gateway) => CreateOrder(st, adminId, amount, gateway).state
    case VerifyOp(orderId) => Verify(st, orderId).state
    case MarkFailedOp(orderId) => MarkFailed(st, orderId).state
    case CreateAdminOp(req, superadminId, hash, walletFailure) => CreateAdmin(st, req, superadminId, hash, walletFailure).state
  }

  /** What the deployment guarantees about a request: a payment order is
      placed by an existing admin (authenticate and requireAdmin pass only
      issued tokens) and the gateway hands out a new order id. */
  ghost predicate Admitted(st: State, op: Operation) {
    op.CreateOrderOp? ==>
      op.adminId in AdminIds(st.admins) &&
      var reply := op.gateway(OrderRequest(op.amount * 100, "INR"));
      reply.OrderCreated? ==> forall i :: 0 <= i < |st.payments| ==> st.payments[i].transactionId != reply.orderId
  }

  /** The store after a sequence of requests, in order. */
  function Run(st: State, ops: seq<Operation>): State
    decreases |ops|
  {
    if ops == [] then st else Run(Apply(st, ops[0]), ops[1..])
  }

  ghost predicate AdmittedRun(st: State, ops: seq<Operation>)
    decreases |ops|
  {
    ops == [] || (Admitted(st, ops[0]) && AdmittedRun(Apply(st, ops[0]), ops[1..]))
  }

  /** Every admitted request keeps the invariant. */
  lemma ApplyKeepsInvariant(st: State, op: Operation)
    requires Invariant(st) && Admitted(st, op)
    ensures Invariant(Apply(st, op)) && Evolves(st, Apply(st, op))
  {
    match op
    case GenerateOp(adminId, amount, payload) => IssueKeepsInvariant(st, adminId, amount, payload);
    case ScanOp(qrId, customerId) => ScanKeepsInvariant(st, qrId, customerId);
    case DeactivateOp(adminId, qrId) => DeactivateKeepsInvariant(st, adminId, qrId);
    case CreateOrderOp(adminId, amount, gateway) => CreateOrderKeepsInvariant(st, adminId, amount, gateway);
    case VerifyOp(orderId) => VerifyKeepsInvariant(st, orderId);
    case MarkFailedOp(orderId) => MarkFailedKeepsInvariant(st, orderId);
    case CreateAdminOp(req, superadminId, hash, walletFailure) =>
      CreateAdminKeepsInvariant(st, req, superadminId, hash, walletFailure);
  }

  /** Conservation of value holds after any run of admitted requests from a
      valid store, and the run only adds rows, spends QRs and settles orders. */
  lemma {:induction false} RunKeepsInvariant(st: State, ops: seq<Operation>)
    requires Invariant(st) && AdmittedRun(st, ops)
    ensures Invariant(Run(st, ops)) && Evolves(st, Run(st, ops))
    decreases |ops|
  {
    if ops != [] {
      var next := Apply(st, ops[0]);
      ApplyKeepsInvariant(st, ops[0]);
      RunKeepsInvariant(next, ops[1..]);
      EvolvesTransitive(st, next, Run(next, ops[1..]));
    }
  }

  /** The reported wallet balance is the reported amount added minus the QR total generated. */
  lemma StatsAgreeWithLedger(st: State, adminId: int)
    requires Balanced(st) && PaymentStats(st, adminId).Ok?
    ensures var report := PaymentStats(st, adminId).value;
      report.walletBalance == report.totalAmountAdded - TransactionStats(st.qrs, adminId).totalAmountGenerated
  {
  }
}

=== FILE: operations_validation.dfy ===
/**
 * The request schemas of src/validations/operations.validation.ts, as data
 * for the Joi interpreter, with what each accepts stated directly and the
 * first message it reports for the common mistakes.
 */
module OperationsValidation {
  import opened Types
  import opened Js
  import opened Joi
  import opened ErrorMiddleware

  /** `Joi.number().positive().required()` with its three messages. */
  function PositiveField(required: string, notNumber: string, notPositive: string): Field {
    NumberField(true, required, notNumber, [(Positive, notPositive)])
  }

  /** `Joi.string().required()` whose empty and missing messages are the same. */
  function RequiredText(required: string): Field {
    TextField(true, required, required, [])
  }

  const AMOUNT: Field := PositiveField("Amount is required", "Amount must be a number", "Amount must be a positive number")
  const QR_ID: Field := PositiveField("QR ID is required", "QR ID must be a number", "QR ID must be a positive number")
  const CUSTOMER_ID: Field :=
    PositiveField("Customer ID is required", "Customer ID must be a number", "Customer ID must be a positive number")
  const ID: Field := PositiveField("ID is required", "ID must be a number", "ID must be a positive number")

  const PAGE: Field := NumberField(false, "", "Page must be a number",
    [(Integer, "Page must be an integer"), (AtLeast(1), "Page must be greater than 0")])
  const LIMIT: Field := NumberField(false, "", "Limit must be a number",
    [(Integer, "Limit must be an integer"), (AtLeast(1), "Limit must be greater than 0"),
     (AtMost(100), "Limit cannot exceed 100")])
  const START_DATE: Field := DateField("Start date must be a valid date", "Start date must be in ISO format", None)
  const END_DATE: Field := DateField("End date must be a valid date", "End date must be in ISO format",
    Some(("startDate", "End date must be after start date")))

  const AMOUNT_BODY: Schema := Schema([("amount", AMOUNT)], [])

  const GenerateQRSchema: RequestSchema := RequestSchema(Some(AMOUNT_BODY), None, None)

  const ProcessQRSchema: RequestSchema := RequestSchema(Some(Schema(
    [("qrId", QR_ID), ("customerId", CUSTOMER_ID),
     ("encryptedData", RequiredText("Encrypted QR data is required"))], [])), None, None)

  const CreatePaymentOrderSchema: RequestSchema := RequestSchema(Some(AMOUNT_BODY), None, None)

  const VerifyPaymentSchema: RequestSchema := RequestSchema(Some(Schema(
    [("orderId", RequiredText("Order ID is required")), ("paymentId", RequiredText("Payment ID is required")),
     ("signature", RequiredText("Signature is required"))], [])), None, None)

  const PaginationSchema: RequestSchema := RequestSchema(None, Some(Schema(
    [("page", PAGE), ("limit", LIMIT),
     ("sortBy", ChoiceField(["created_at", "amount", "status"], "Invalid sort field")),
     ("order", ChoiceField(["asc", "desc"], "Order must be either asc or desc"))], [])), None)

  const DateRangeSchema: RequestSchema := RequestSchema(None, Some(Schema(
    [("startDate", START_DATE), ("endDate", END_DATE)], ["startDate", "endDate"])), None)

  const IdParamSchema: RequestSchema := RequestSchema(None, None, Some(Schema([("id", ID)], [])))

  // ---- the field kinds

  /** A positive-number field accepts exactly a safe positive number; a missing
      value, a non-number and a non-positive number get their own messages. */
  lemma PositiveFieldAccepts(key: string, required: string, notNumber: string, notPositive: string,
                             o: JsObject, g: Grammar)
    ensures var f := PositiveField(required, notNumber, notPositive);
      (FieldError(key, f, o, g).None? <==> PositiveNumber(Get(o, key), g)) &&
      (Get(o, key) == Undefined ==> FieldError(key, f, o, g) == Some(required)) &&
      (Get(o, key) != Undefined && AsNumber(Get(o, key), g).None? ==> FieldError(key, f, o, g) == Some(notNumber)) &&
      ((AsNumber(Get(o, key), g).Some? && IsSafe(AsNumber(Get(o, key), g).value) &&
        AsNumber(Get(o, key), g).value <= 0.0) ==> FieldError(key, f, o, g) == Some(notPositive))
  {
  }

  /** A required-text field accepts exactly a non-empty string. */
  lemma RequiredTextAccepts(key: string, required: string, o: JsObject, g: Grammar)
    ensures FieldError(key, RequiredText(required), o, g).None? <==> NonEmptyText(Get(o, key))
    ensures Get(o, key) == Undefined || Get(o, key) == Str("") ==>
      FieldError(key, RequiredText(required), o, g) == Some(required)
    ensures Get(o, key) != Undefined && !Get(o, key).Str? ==>
      FieldError(key, RequiredText(required), o, g) == Some(Label(key) + " must be a string")
  {
  }

  // ---- the schemas

  predicate AmountBody(body: JsObject, g: Grammar) {
    PositiveNumber(Get(body, "amount"), g) && OnlyKeys(body, {"amount"})
  }

  /** generateQRSchema and createPaymentOrderSchema: a positive amount and nothing else. */
  lemma AmountBodyAcceptsExactly(req: Request, g: Grammar)
    ensures ValidateRequest(GenerateQRSchema, req, g).None? <==> AmountBody(req.body, g)
    ensures ValidateRequest(CreatePaymentOrderSchema, req, g) == ValidateRequest(GenerateQRSchema, req, g)
    ensures Get(req.body, "amount") == Undefined ==>
      ValidateRequest(GenerateQRSchema, req, g) == Some(ValidationError("Amount is required"))
  {
    assert Declared(AMOUNT_BODY.keys) == {"amount"};
    ValidateWithoutPeers(AMOUNT_BODY, req.body, g);
    PositiveFieldAccepts("amount", "Amount is required", "Amount must be a number", "Amount must be a positive number", req.body, g);
    if Get(req.body, "amount") == Undefined {
      ValidateReportsFirstField(AMOUNT_BODY, req.body, g, 0);
    }
  }

  predicate ProcessQRBody(body: JsObject, g: Grammar) {
    PositiveNumber(Get(body, "qrId"), g) && PositiveNumber(Get(body, "customerId"), g) &&
    NonEmptyText(Get(body, "encryptedData")) && OnlyKeys(body, {"qrId", "customerId", "encryptedData"})
  }

  /** processQRSchema: positive QR and customer ids, non-empty encrypted data, nothing else. */
  lemma ProcessQRAcceptsExactly(req: Request, g: Grammar)
    ensures ValidateRequest(ProcessQRSchema, req, g).None? <==> ProcessQRBody(req.body, g)
  {
    var schema := ProcessQRSchema.body.value;
    ValidateSmallSchema(schema, req.body, g);
    DeclaredSmall(schema.keys);
    PositiveFieldAccepts("qrId", "QR ID is required", "QR ID must be a number", "QR ID must be a positive number", req.body, g);
    PositiveFieldAccepts("customerId", "Customer ID is required", "Customer ID must be a number", "Customer ID must be a positive number", req.body, g);
    RequiredTextAccepts("encryptedData", "Encrypted QR data is required", req.body, g);
  }

  /** The ids are checked before the encrypted data, the QR id first. */
  lemma ProcessQRMessages(req: Request, g: Grammar)
    ensures Get(req.body, "qrId") == Undefined ==>
      ValidateRequest(ProcessQRSchema, req, g) == Some(ValidationError("QR ID is required"))
    ensures PositiveNumber(Get(req.body, "qrId"), g) && Get(req.body, "customerId") == Undefined ==>
      ValidateRequest(ProcessQRSchema, req, g) == Some(ValidationError("Customer ID is required"))
    ensures PositiveNumber(Get(req.body, "qrId"), g) && PositiveNumber(Get(req.body, "customerId"), g) &&
            Get(req.body, "encryptedData") == Str("") ==>
      ValidateRequest(ProcessQRSchema, req, g) == Some(ValidationError("Encrypted QR data is required"))
  {
    var schema := ProcessQRSchema.body.value;
    var body := req.body;
    PositiveFieldAccepts("qrId", "QR ID is required", "QR ID must be a number", "QR ID must be a positive number", body, g);
    PositiveFieldAccepts("customerId", "Customer ID is required", "Customer ID must be a number", "Customer ID must be a positive number", body, g);
    RequiredTextAccepts("encryptedData", "Encrypted QR data is required", body, g);
    if Get(body, "qrId") == Undefined {
      ValidateReportsFirstField(schema, body, g, 0);
      assert Validate(schema, body, g) == Some("QR ID is required");
    }
    if PositiveNumber(Get(body, "qrId"), g) && Get(body, "customerId") == Undefined {
      ValidateReportsFirstField(schema, body, g, 1);
      assert Validate(schema, body, g) == Some("Customer ID is required");
    }
    if PositiveNumber(Get(body, "qrId"), g) && PositiveNumber(Get(body, "customerId"), g) &&
       Get(body, "encryptedData") == Str("") {
      ValidateReportsFirstField(schema, body, g, 2);
      assert Validate(schema, body, g) == Some("Encrypted QR data is required");
    }
  }

  predicate VerifyBody(body: JsObject) {
    NonEmptyText(Get(body, "orderId")) && NonEmptyText(Get(body, "paymentId")) &&
    NonEmptyText(Get(body, "signature")) && OnlyKeys(body, {"orderId", "paymentId", "signature"})
  }

  /** verifyPaymentSchema of this file: non-empty order id, payment id and signature. */
  lemma VerifyPaymentAcceptsExactly(req: Request, g: Grammar)
    ensures ValidateRequest(VerifyPaymentSchema, req, g).None? <==> VerifyBody(req.body)
  {
    var schema := VerifyPaymentSchema.body.value;
    ValidateSmallSchema(schema, req.body, g);
    DeclaredSmall(schema.keys);
    RequiredTextAccepts("orderId", "Order ID is required", req.body, g);
    RequiredTextAccepts("paymentId", "Payment ID is required", req.body, g);
    RequiredTextAccepts("signature", "Signature is required", req.body, g);
  }

  /** page: absent, or an integer of at least 1. */
  lemma PageAccepts(o: JsObject, g: Grammar)
    ensures FieldError("page", PAGE, o, g).None? <==> OptionalIntegerIn(Get(o, "page"), g, 1, None)
    ensures AsNumber(Get(o, "page"), g).Some? && IsSafe(AsNumber(Get(o, "page"), g).value) &&
            !IsInteger(AsNumber(Get(o, "page"), g).value) ==>
      FieldError("page", PAGE, o, g) == Some("Page must be an integer")
    ensures AsNumber(Get(o, "page"), g) == Some(0.0) ==> FieldError("page", PAGE, o, g) == Some("Page must be greater than 0")
  {
    NumberFieldAccepts("page", PAGE, o, g);
  }

  /** limit: absent, or an integer from 1 to 100. */
  lemma LimitAccepts(o: JsObject, g: Grammar)
    ensures FieldError("limit", LIMIT, o, g).None? <==> OptionalIntegerIn(Get(o, "limit"), g, 1, Some(100))
    ensures AsNumber(Get(o, "limit"), g) == Some(101.0) ==> FieldError("limit", LIMIT, o, g) == Some("Limit cannot exceed 100")
    ensures AsNumber(Get(o, "limit"), g) == Some(0.0) ==> FieldError("limit", LIMIT, o, g) == Some("Limit must be greater than 0")
  {
    NumberFieldAccepts("limit", LIMIT, o, g);
  }

  const SORT_FIELDS: seq<string> := ["created_at", "amount", "status"]
  const SORT_ORDERS: seq<string> := ["asc", "desc"]

  predicate PaginationQuery(query: JsObject, g: Grammar) {
    OptionalIntegerIn(Get(query, "page"), g, 1, None) &&
    OptionalIntegerIn(Get(query, "limit"), g, 1, Some(100)) &&
    OptionalChoice(Get(query, "sortBy"), SORT_FIELDS) &&
    OptionalChoice(Get(query, "order"), SORT_ORDERS) &&
    OnlyKeys(query, {"page", "limit", "sortBy", "order"})
  }

  /** paginationSchema: every key optional; page an integer of at least 1, limit
      an integer from 1 to 100, sortBy and order from their lists. */
  lemma PaginationAcceptsExactly(req: Request, g: Grammar)
    ensures ValidateRequest(PaginationSchema, req, g).None? <==> PaginationQuery(req.query, g)
  {
    var schema := PaginationSchema.query.value;
    ValidateSmallSchema(schema, req.query, g);
    DeclaredSmall(schema.keys);
    PageAccepts(req.query, g);
    LimitAccepts(req.query, g);
    ChoiceFieldAccepts("sortBy", schema.keys[2].1, req.query, g);
    ChoiceFieldAccepts("order", schema.keys[3].1, req.query, g);
  }

  predicate DateRangeQuery(query: JsObject, g: Grammar) {
    var start := Get(query, "startDate");
    var end := Get(query, "endDate");
    OnlyKeys(query, {"startDate", "endDate"}) &&
    ((start == Undefined && end == Undefined) ||
     (Instant(start, g).Some? && Instant(end, g).Some? && Instant(end, g).value >= Instant(start, g).value))
  }

  /** dateRangeSchema is its two date fields, no other key, and the peer rule. */
  lemma DateRangeParts(req: Request, g: Grammar)
    ensures ValidateRequest(DateRangeSchema, req, g).None? <==>
      FieldError("startDate", START_DATE, req.query, g).None? &&
      FieldError("endDate", END_DATE, req.query, g).None? &&
      OnlyKeys(req.query, {"startDate", "endDate"}) &&
      ((Get(req.query, "startDate") == Undefined && Get(req.query, "endDate") == Undefined) ||
       (Get(req.query, "startDate") != Undefined && Get(req.query, "endDate") != Undefined))
  {
    DeclaredSmall(DateRangeSchema.query.value.keys);
  }

  /** dateRangeSchema: both dates or neither; both ISO dates, the end not
      before the start (equal dates pass). */
  lemma DateRangeAcceptsExactly(req: Request, g: Grammar)
    ensures ValidateRequest(DateRangeSchema, req, g).None? <==> DateRangeQuery(req.query, g)
  {
    DateRangeParts(req, g);
    DateFieldAccepts("startDate", START_DATE, req.query, g);
    DateFieldAccepts("endDate", END_DATE, req.query, g);
  }

  /** A range whose end precedes its start gets the range message; an end
      without a start fails on the unresolved reference. */
  lemma DateRangeMessages(req: Request, g: Grammar)
    ensures Instant(Get(req.query, "startDate"), g).Some? && Instant(Get(req.query, "endDate"), g).Some? &&
            Instant(Get(req.query, "endDate"), g).value < Instant(Get(req.query, "startDate"), g).value ==>
      ValidateRequest(DateRangeSchema, req, g) == Some(ValidationError("End date must be after start date"))
    ensures Get(req.query, "startDate") == Undefined && Instant(Get(req.query, "endDate"), g).Some? ==>
      ValidateRequest(DateRangeSchema, req, g) == Some(ValidationError(RefError("endDate", "startDate")))
  {
    var schema := DateRangeSchema.query.value;
    if Instant(Get(req.query, "startDate"), g).Some? && Instant(Get(req.query, "endDate"), g).Some? &&
       Instant(Get(req.query, "endDate"), g).value < Instant(Get(req.query, "startDate"), g).value {
      ValidateReportsFirstField(schema, req.query, g, 1);
    }
    if Get(req.query, "startDate") == Undefined && Instant(Get(req.query, "endDate"), g).Some? {
      ValidateReportsFirstField(schema, req.query, g, 1);
    }
  }

  /** idParamSchema: the route id is a positive number (a numeral, as route
      parameters are strings). */
  lemma IdParamAcceptsExactly(req: Request, g: Grammar)
    ensures ValidateRequest(IdParamSchema, req, g).None? <==>
      PositiveNumber(Get(req.params, "id"), g) && OnlyKeys(req.params, {"id"})
  {
    var schema := IdParamSchema.params.value;
    ValidateSmallSchema(schema, req.params, g);
    DeclaredSmall(schema.keys);
    PositiveFieldAccepts("id", "ID is required", "ID must be a number", "ID must be a positive number", req.params, g);
  }
}

=== FILE: payment_controller.dfy ===
/**
 * The payment endpoints of src/controllers/payment.controller.ts: order
 * creation for the authenticated admin, the verify and failure responses,
 * the payment history and the payment statistics.
 */
module PaymentController {
  import opened Types
  import opened Seqs
  import opened Ledger
  import opened PaymentRepository

  /** createPaymentOrder: the order belongs to `req.user.id`. */
  method CreatePaymentOrderHandler(s: Store, user: TokenPayload, amount: int, gateway: OrderRequest -> GatewayReply)
    returns (r: Result<Order>)
    requires s.Valid()
    modifies s
    ensures s.Valid()
    ensures var created := CreateOrder(old(s.Snapshot()), user.id, amount, gateway);
      s.Snapshot() == created.state && r == created.result &&
      (r.Ok? ==> s.payments[|s.payments| - 1].adminId == user.id)
  {
    r := CreatePaymentOrder(s, user.id, amount, gateway);
  }

  /** The `data` of a successful verifyPayment response. */
  datatype VerifiedPayment = VerifiedPayment(transactionId: string, amount: int, status: TransactionStatus, walletBalance: int)

  /** verifyPayment: settle the order, then read the balance of the order's
      owner. The requester is not consulted. A missing wallet fails the
      request after the order was settled. */
  function VerifyResponse(st: State, orderId: string): (r: Step<VerifiedPayment>)
    ensures r.state == Verify(st, orderId).state
    ensures r.result.Ok? <==>
      FirstPending(st.payments, orderId).Some? && FirstPending(st.payments, orderId).value.adminId in st.wallets
    ensures r.result.Ok? ==>
      var p := FirstPending(st.payments, orderId).value;
      r.result.value == VerifiedPayment(orderId, p.amount, SUCCESS, st.wallets[p.adminId] + p.amount)
    ensures FirstPending(st.payments, orderId).None? ==> r.result == Err(NotFoundOrProcessed())
  {
    var verified := Verify(st, orderId);
    match verified.result
    case Err(e) => Step(verified.state, Err(e))
    case Ok(p) =>
      match WalletBalance(verified.state.wallets, p.adminId)
      case Err(e) => Step(verified.state, Err(e))
      case Ok(balance) =>
        Step(verified.state, Ok(VerifiedPayment(p.transactionId, p.amount, p.status, balance)))
  }

  method VerifyPaymentHandler(s: Store, user: TokenPayload, orderId: string) returns (r: Result<VerifiedPayment>)
    requires s.Valid()
    modifies s
    ensures s.Valid()
    ensures Step(s.Snapshot(), r) == VerifyResponse(old(s.Snapshot()), orderId)
  {
    var verified := VerifyPayment(s, orderId);
    if verified.Err? {
      return Err(verified.error);
    }
    var p := verified.value;
    var balance := s.GetAdminWalletBalance(p.adminId);
    if balance.Err? {
      return Err(balance.error);
    }
    r := Ok(VerifiedPayment(p.transactionId, p.amount, p.status, balance.value));
  }

  /** The `data` of a handlePaymentFailure response. */
  datatype FailureReport = FailureReport(transactionId: string, status: TransactionStatus)

  /** handlePaymentFailure: reports the updated record's order id and status. */
  function FailureResponse(st: State, orderId: string): (r: Step<FailureReport>)
    ensures r.state == MarkFailed(st, orderId).state
    ensures r.result.Ok? <==> FirstPending(st.payments, orderId).Some?
    ensures r.result.Ok? ==> r.result.value == FailureReport(orderId, FAILED)
    ensures r.result.Err? ==> r.result.error == NotFoundOrProcessed()
  {
    var failed := MarkFailed(st, orderId);
    match failed.result
    case Err(e) => Step(failed.state, Err(e))
    case Ok(p) => Step(failed.state, Ok(FailureReport(p.transactionId, p.status)))
  }

  method HandlePaymentFailure(s: Store, orderId: string) returns (r: Result<FailureReport>)
    requires s.Valid()
    modifies s
    ensures s.Valid()
    ensures Step(s.Snapshot(), r) == FailureResponse(old(s.Snapshot()), orderId)
  {
    var failed := MarkPaymentFailed(s, orderId);
    if failed.Err? {
      return Err(failed.error);
    }
    r := Ok(FailureReport(failed.value.transactionId, failed.value.status));
  }

  /** One entry of the getPaymentHistory response. */
  datatype PaymentEntry = PaymentEntry(id: int, transactionId: string, amount: int, status: TransactionStatus)

  function Entry(): AdminTransaction -> PaymentEntry {
    (p: AdminTransaction) => PaymentEntry(p.id, p.transactionId, p.amount, p.status)
  }

  /** getPaymentHistory: one entry per order of the caller, in repository order. */
  function PaymentHistory(ps: seq<AdminTransaction>, adminId: int): (r: seq<PaymentEntry>)
    ensures |r| == |AdminPayments(ps, adminId)|
    ensures forall i :: 0 <= i < |r| ==>
      var p := AdminPayments(ps, adminId)[i];
      r[i] == PaymentEntry(p.id, p.transactionId, p.amount, p.status) && p.adminId == adminId
  {
    Map(AdminPayments(ps, adminId), Entry())
  }

  datatype PaymentStatsReport = PaymentStatsReport(
    walletBalance: int, total: nat, successful: nat, failed: nat, pending: nat, totalAmountAdded: int)

  /** getPaymentStats: the balance is read first, so a missing wallet fails
      the request; the counts are getTotalPayments; the amount added filters
      every SUCCESS payment by the caller and sums it. */
  function PaymentStats(st: State, adminId: int): (r: Result<PaymentStatsReport>)
    ensures r.Ok? <==> adminId in st.wallets
    ensures r.Err? ==> r.error == DatabaseError("Admin wallet not found")
    ensures r.Ok? ==>
      var t := TotalPayments(st.payments, adminId);
      r.value.walletBalance == st.wallets[adminId] &&
      r.value.total == t.total && r.value.successful == t.successful &&
      r.value.failed == t.failed && r.value.pending == t.pending &&
      r.value.total == r.value.successful + r.value.failed + r.value.pending &&
      r.value.totalAmountAdded == AmountAdded(st.payments, adminId)
  {
    match WalletBalance(st.wallets, adminId)
    case Err(e) => Err(e)
    case Ok(balance) =>
      var t := TotalPayments(st.payments, adminId);
      var added := SumOf(Filter(PaymentsByStatus(st.payments, SUCCESS), PaidBy(adminId)), PaymentAmount());
      FilterFilter(st.payments, InStatus(SUCCESS), PaidBy(adminId), PaidByInStatus(adminId, SUCCESS));
      Ok(PaymentStatsReport(balance, t.total, t.successful, t.failed, t.pending, added))
  }
}

=== FILE: payment_repository.dfy ===
/**
 * The payment order state machine of src/repositories/payment.repository.ts.
 *
 * An order is created PENDING under the id the payment gateway hands out;
 * verifying moves it to SUCCESS and credits the owner's wallet, marking it
 * failed moves it to FAILED. Both are one conditional UPDATE that only
 * selects PENDING rows, so SUCCESS and FAILED are terminal.
 *
 * The gateway is a parameter: a function from the order request to its
 * reply (a new order id, or the rendering of the error it rejected with).
 */
module PaymentRepository {
  import opened Types
  import opened Seqs
  import opened Sql
  import opened BaseRepository
  import opened Ledger

  /** What is sent to the gateway (the receipt, a clock value, is left out). */
  datatype OrderRequest = OrderRequest(amountInPaise: int, currency: string)

  datatype GatewayReply = OrderCreated(orderId: string) | GatewayRejected(rendered: string)

  /** What createPaymentOrder returns. */
  datatype Order = Order(orderId: string, amount: int, currency: string)

  function NotFoundOrProcessed(): AppError {
    DatabaseError("Transaction record not found or already processed")
  }

  /** createPaymentOrder: ask the gateway for amount*100 paise in INR, then
      record a PENDING row under the gateway's order id. */
  function CreateOrder(st: State, adminId: int, amount: int, gateway: OrderRequest -> GatewayReply): (r: Step<Order>)
    ensures var reply := gateway(OrderRequest(amount * 100, "INR"));
      (r.result.Ok? <==> reply.OrderCreated?) &&
      (reply.GatewayRejected? ==>
        r.state == st && r.result == Err(DatabaseError("Error creating payment order: " + reply.rendered))) &&
      (reply.OrderCreated? ==>
        r.result.value == Order(reply.orderId, amount, "INR") &&
        r.state.payments == st.payments + [AdminTransaction(st.nextPaymentId, adminId, reply.orderId, amount, PENDING)] &&
        r.state.nextPaymentId == st.nextPaymentId + 1)
    ensures r.state.wallets == st.wallets && r.state.qrs == st.qrs && r.state.customerTxns == st.customerTxns &&
      r.state.admins == st.admins && r.state.superAdmins == st.superAdmins &&
      r.state.nextQrId == st.nextQrId && r.state.nextCustomerTxnId == st.nextCustomerTxnId &&
      r.state.nextAdminId == st.nextAdminId
  {
    match gateway(OrderRequest(amount * 100, "INR"))
    case GatewayRejected(rendered) => Step(st, Err(DatabaseError("Error creating payment order: " + rendered)))
    case OrderCreated(orderId) =>
      var p := AdminTransaction(st.nextPaymentId, adminId, orderId, amount, PENDING);
      Step(st.(payments := st.payments + [p], nextPaymentId := st.nextPaymentId + 1), Ok(Order(orderId, amount, "INR")))
  }

  /** The conditional update shared by verifyPayment and markPaymentFailed. */
  function SettleOrder(st: State, orderId: string, to: TransactionStatus): (r: Step<AdminTransaction>)
    ensures r.result.Ok? <==> FirstPending(st.payments, orderId).Some?
    ensures r.result.Err? ==> r.state == st && r.result.error == NotFoundOrProcessed()
    ensures r.result.Ok? ==>
      r.result.value == FirstPending(st.payments, orderId).value.(status := to) &&
      r.state == st.(payments := SettleRows(st.payments, orderId, to))
  {
    var updated := Settled(st.payments, orderId, to);
    SettledStartsWithFirstPending(st.payments, orderId, to);
    if |updated| == 0 then
      SettleWithoutMatch(st.payments, orderId, to);
      Step(st, Err(NotFoundOrProcessed()))
    else Step(st.(payments := SettleRows(st.payments, orderId, to)), Ok(updated[0]))
  }

  /** verifyPayment: PENDING to SUCCESS, then credit the first updated row's
      owner by its amount. */
  function Verify(st: State, orderId: string): (r: Step<AdminTransaction>)
    ensures r.result.Ok? <==> FirstPending(st.payments, orderId).Some?
    ensures r.result.Err? ==> r.state == st && r.result.error == NotFoundOrProcessed()
    ensures r.result.Ok? ==>
      var p := FirstPending(st.payments, orderId).value;
      r.result.value == p.(status := SUCCESS) &&
      r.state == st.(payments := SettleRows(st.payments, orderId, SUCCESS),
                     wallets := Credit(st.wallets, p.adminId, p.amount))
  {
    var settled := SettleOrder(st, orderId, SUCCESS);
    if settled.result.Err? then settled
    else
      var t := settled.result.value;
      Step(settled.state.(wallets := Credit(settled.state.wallets, t.adminId, t.amount)), Ok(t))
  }

  /** markPaymentFailed: PENDING to FAILED; no wallet is touched. */
  function MarkFailed(st: State, orderId: string): (r: Step<AdminTransaction>)
    ensures r.result.Ok? <==> FirstPending(st.payments, orderId).Some?
    ensures r.result.Err? ==> r.state == st && r.result.error == NotFoundOrProcessed()
    ensures r.result.Ok? ==>
      r.result.value == FirstPending(st.payments, orderId).value.(status := FAILED) &&
      r.state == st.(payments := SettleRows(st.payments, orderId, FAILED))
    ensures r.state.wallets == st.wallets
  {
    SettleOrder(st, orderId, FAILED)
  }

  /** Verifying an order a second time fails and changes nothing: the wallet is credited once. */
  lemma VerifyTwiceCreditsOnce(st: State, orderId: string)
    requires Verify(st, orderId).result.Ok?
    ensures var after := Verify(st, orderId).state;
      Verify(after, orderId) == Step(after, Err(NotFoundOrProcessed()))
  {
    var after := Verify(st, orderId).state;
    SettledLeavesNoPending(st.payments, orderId, SUCCESS);
    SettledStartsWithFirstPending(after.payments, orderId, SUCCESS);
  }

  /** Once an order is verified or failed, neither operation accepts it again
      and neither changes the store, wallets included. */
  lemma SettledOrdersAreFinal(st: State, orderId: string)
    ensures Verify(st, orderId).result.Ok? ==>
      var after := Verify(st, orderId).state;
      Verify(after, orderId) == Step(after, Err(NotFoundOrProcessed())) &&
      MarkFailed(after, orderId) == Step(after, Err(NotFoundOrProcessed()))
    ensures MarkFailed(st, orderId).result.Ok? ==>
      var after := MarkFailed(st, orderId).state;
      Verify(after, orderId) == Step(after, Err(NotFoundOrProcessed())) &&
      MarkFailed(after, orderId) == Step(after, Err(NotFoundOrProcessed()))
  {
    if FirstPending(st.payments, orderId).Some? {
      SettledLeavesNoPending(st.payments, orderId, SUCCESS);
      SettledLeavesNoPending(st.payments, orderId, FAILED);
    }
  }

  method CreatePaymentOrder(s: Store, adminId: int, amount: int, gateway: OrderRequest -> GatewayReply)
    returns (r: Result<Order>)
    requires s.Valid()
    modifies s
    ensures s.Valid()
    ensures Step(s.Snapshot(), r) == CreateOrder(old(s.Snapshot()), adminId, amount, gateway)
  {
    var reply := gateway(OrderRequest(amount * 100, "INR"));
    if reply.GatewayRejected? {
      return Err(DatabaseError("Error creating payment order: " + reply.rendered));
    }
    var _ := s.InsertPayment(adminId, reply.orderId, amount);
    r := Ok(Order(reply.orderId, amount, "INR"));
  }

  method VerifyPayment(s: Store, orderId: string) returns (r: Result<AdminTransaction>)
    requires s.Valid()
    modifies s
    ensures s.Valid()
    ensures Step(s.Snapshot(), r) == Verify(old(s.Snapshot()), orderId)
  {
    ghost var before := s.payments;
    var updated := s.UpdatePendingStatus(orderId, SUCCESS);
    if |updated| == 0 {
      SettleWithoutMatch(before, orderId, SUCCESS);
      return Err(NotFoundOrProcessed());
    }
    var t := updated[0];
    s.UpdateWalletBalance(t.adminId, t.amount);
    r := Ok(t);
  }

  method MarkPaymentFailed(s: Store, orderId: string) returns (r: Result<AdminTransaction>)
    requires s.Valid()
    modifies s
    ensures s.Valid()
    ensures Step(s.Snapshot(), r) == MarkFailed(old(s.Snapshot()), orderId)
  {
    ghost var before := s.payments;
    var updated := s.UpdatePendingStatus(orderId, FAILED);
    if |updated| == 0 {
      SettleWithoutMatch(before, orderId, FAILED);
      return Err(NotFoundOrProcessed());
    }
    r := Ok(updated[0]);
  }

  function PaidBy(adminId: int): AdminTransaction -> bool {
    (p: AdminTransaction) => p.adminId == adminId
  }

  function InStatus(status: TransactionStatus): AdminTransaction -> bool {
    (p: AdminTransaction) => p.status == status
  }

  function PaidByInStatus(adminId: int, status: TransactionStatus): AdminTransaction -> bool {
    (p: AdminTransaction) => p.adminId == adminId && p.status == status
  }

  function PaymentAmount(): AdminTransaction -> int {
    (p: AdminTransaction) => p.amount
  }

  /** getAdminPayments: the admin's orders in table order. */
  function AdminPayments(ps: seq<AdminTransaction>, adminId: int): (r: seq<AdminTransaction>)
    ensures forall i :: 0 <= i < |r| ==> r[i] in ps && r[i].adminId == adminId
    ensures forall i :: 0 <= i < |ps| && ps[i].adminId == adminId ==> ps[i] in r
  {
    Filter(ps, PaidBy(adminId))
  }

  /** getPaymentsByStatus: every admin's orders in that status. */
  function PaymentsByStatus(ps: seq<AdminTransaction>, status: TransactionStatus): (r: seq<AdminTransaction>)
    ensures forall i :: 0 <= i < |r| ==> r[i] in ps && r[i].status == status
    ensures forall i :: 0 <= i < |ps| && ps[i].status == status ==> ps[i] in r
  {
    Filter(ps, InStatus(status))
  }

  datatype PaymentTotals = PaymentTotals(total: nat, successful: nat, failed: nat, pending: nat)

  /** getTotalPayments: `COUNT(*)` and one `COUNT(CASE WHEN ...)` per status, over the admin's rows. */
  function TotalPayments(ps: seq<AdminTransaction>, adminId: int): (t: PaymentTotals)
    ensures t.total == |AdminPayments(ps, adminId)|
    ensures t.total == t.successful + t.failed + t.pending
  {
    CountIsFilterLength(ps, PaidBy(adminId));
    CountByStatus(ps, adminId);
    PaymentTotals(CountOf(ps, PaidBy(adminId)),
                  CountOf(ps, PaidByInStatus(adminId, SUCCESS)),
                  CountOf(ps, PaidByInStatus(adminId, FAILED)),
                  CountOf(ps, PaidByInStatus(adminId, PENDING)))
  }

  /** Every row is in exactly one of the three statuses. */
  lemma {:induction false} CountByStatus(ps: seq<AdminTransaction>, adminId: int)
    ensures CountOf(ps, PaidBy(adminId)) ==
      CountOf(ps, PaidByInStatus(adminId, SUCCESS)) + CountOf(ps, PaidByInStatus(adminId, FAILED)) +
      CountOf(ps, PaidByInStatus(adminId, PENDING))
  {
    if ps != [] {
      CountByStatus(ps[1..], adminId);
    }
  }

  /** The admin_transaction table's columns. */
  const PaymentColumns: set<string> :=
    {"id", "admin_id", "transaction_id", "transaction_amount", "transaction_status", "created_at"}

  function PaymentRow(p: AdminTransaction): Row {
    Row(p.id, map["admin_id" := IntV(p.adminId), "transaction_id" := StrV(p.transactionId),
                  "transaction_amount" := IntV(p.amount), "transaction_status" := StrV(p.status.Text())])
  }

  function PaymentRowOf(): AdminTransaction -> Row {
    (p: AdminTransaction) => PaymentRow(p)
  }

  /** getAdminPayments is findAll({ admin_id }) on admin_transaction. */
  lemma AdminPaymentsIsFindAll(ps: seq<AdminTransaction>, adminId: int)
    ensures FindAll("admin_transaction", PaymentColumns, Map(ps, PaymentRowOf()), [("admin_id", IntV(adminId))]) ==
      Ok(Map(AdminPayments(ps, adminId), PaymentRowOf()))
  {
    var conds: Pairs := [("admin_id", IntV(adminId))];
    assert KnownColumns(PaymentColumns, conds);
    forall p: AdminTransaction ensures MatchesAll(conds)(PaymentRowOf()(p)) == PaidBy(adminId)(p) {
      assert Field(PaymentRow(p), conds[0].0) == Some(IntV(p.adminId));
      assert Matches(PaymentRow(p), conds) <==> Field(PaymentRow(p), conds[0].0) == Some(conds[0].1);
    }
    FilterMap(ps, PaymentRowOf(), PaidBy(adminId), MatchesAll(conds));
  }

  /** getPaymentsByStatus is findAll({ transaction_status }) on admin_transaction. */
  lemma PaymentsByStatusIsFindAll(ps: seq<AdminTransaction>, status: TransactionStatus)
    ensures FindAll("admin_transaction", PaymentColumns, Map(ps, PaymentRowOf()),
                    [("transaction_status", StrV(status.Text()))]) ==
      Ok(Map(PaymentsByStatus(ps, status), PaymentRowOf()))
  {
    var conds: Pairs := [("transaction_status", StrV(status.Text()))];
    assert KnownColumns(PaymentColumns, conds);
    forall p: AdminTransaction ensures MatchesAll(conds)(PaymentRowOf()(p)) == InStatus(status)(p) {
      assert Field(PaymentRow(p), conds[0].0) == Some(StrV(p.status.Text()));
      assert Matches(PaymentRow(p), conds) <==> Field(PaymentRow(p), conds[0].0) == Some(conds[0].1);
    }
    FilterMap(ps, PaymentRowOf(), InStatus(status), MatchesAll(conds));
  }

  /** What an admin's successful top-ups add up to. */
  function AmountAdded(ps: seq<AdminTransaction>, adminId: int): int {
    SumOf(Filter(ps, PaidByInStatus(adminId, SUCCESS)), PaymentAmount())
  }
}

=== FILE: payment_validation.dfy ===
/**
 * The request schemas of src/validations/payment.validation.ts, the ones
 * the payment routes use. The amount, page, limit and date fields are
 * declared exactly as in src/validations/operations.validation.ts and are
 * shared with module OperationsValidation.
 */
module PaymentValidation {
  import opened Types
  import opened Js
  import opened Joi
  import opened ErrorMiddleware
  import opened OperationsValidation

  const PaymentOrderSchema: RequestSchema := RequestSchema(Some(AMOUNT_BODY), None, None)

  const ORDER_ID_BODY: Schema := Schema([("orderId", RequiredText("Order ID is required"))], [])

  const PaymentVerifySchema: RequestSchema := RequestSchema(Some(ORDER_ID_BODY), None, None)

  const FailureSchema: RequestSchema := RequestSchema(Some(ORDER_ID_BODY), None, None)

  /** `Object.values(TransactionStatus)`. */
  const STATUSES: seq<string> := [PENDING.Text(), SUCCESS.Text(), FAILED.Text()]

  const PaymentHistorySchema: RequestSchema := RequestSchema(None, Some(Schema(
    [("page", PAGE), ("limit", LIMIT), ("status", ChoiceField(STATUSES, "Invalid transaction status")),
     ("startDate", START_DATE), ("endDate", END_DATE)], [])), None)

  /** createPaymentOrderSchema: a positive amount and nothing else, as for QR generation. */
  lemma PaymentOrderAcceptsExactly(req: Request, g: Grammar)
    ensures ValidateRequest(PaymentOrderSchema, req, g).None? <==> AmountBody(req.body, g)
  {
    AmountBodyAcceptsExactly(req, g);
  }

  predicate OrderIdBody(body: JsObject) {
    NonEmptyText(Get(body, "orderId")) && OnlyKeys(body, {"orderId"})
  }

  /** verifyPaymentSchema and failureSchema: only a non-empty order id; the
      payment id and signature of the gateway are not accepted. */
  lemma OrderIdSchemasAcceptExactly(req: Request, g: Grammar)
    ensures ValidateRequest(PaymentVerifySchema, req, g).None? <==> OrderIdBody(req.body)
    ensures ValidateRequest(FailureSchema, req, g) == ValidateRequest(PaymentVerifySchema, req, g)
    ensures Get(req.body, "orderId") == Undefined || Get(req.body, "orderId") == Str("") ==>
      ValidateRequest(PaymentVerifySchema, req, g) == Some(ValidationError("Order ID is required"))
  {
    ValidateSmallSchema(ORDER_ID_BODY, req.body, g);
    DeclaredSmall(ORDER_ID_BODY.keys);
    RequiredTextAccepts("orderId", "Order ID is required", req.body, g);
    if Get(req.body, "orderId") == Undefined || Get(req.body, "orderId") == Str("") {
      ValidateReportsFirstField(ORDER_ID_BODY, req.body, g, 0);
    }
  }

  /** The status filter accepts exactly the names of the transaction statuses. */
  lemma StatusChoicesAreTransactionStatuses(v: JsValue)
    ensures OptionalChoice(v, STATUSES) <==> v == Undefined || exists st: TransactionStatus :: v == Str(st.Text())
  {
    if v.Str? && v.s in STATUSES {
      var st := if v.s == PENDING.Text() then PENDING else if v.s == SUCCESS.Text() then SUCCESS else FAILED;
      assert v == Str(st.Text());
    }
  }

  predicate HistoryQuery(query: JsObject, g: Grammar) {
    var start := Get(query, "startDate");
    var end := Get(query, "endDate");
    OptionalIntegerIn(Get(query, "page"), g, 1, None) &&
    OptionalIntegerIn(Get(query, "limit"), g, 1, Some(100)) &&
    OptionalChoice(Get(query, "status"), STATUSES) &&
    (start == Undefined || Instant(start, g).Some?) &&
    (end == Undefined ||
     (Instant(end, g).Some? && Instant(start, g).Some? && Instant(end, g).value >= Instant(start, g).value)) &&
    OnlyKeys(query, {"page", "limit", "status", "startDate", "endDate"})
  }

  /** paymentHistorySchema is its five fields and no other key. */
  lemma HistoryParts(req: Request, g: Grammar)
    ensures var q := req.query;
      ValidateRequest(PaymentHistorySchema, req, g).None? <==>
      FieldError("page", PAGE, q, g).None? && FieldError("limit", LIMIT, q, g).None? &&
      FieldError("status", ChoiceField(STATUSES, "Invalid transaction status"), q, g).None? &&
      FieldError("startDate", START_DATE, q, g).None? && FieldError("endDate", END_DATE, q, g).None? &&
      OnlyKeys(q, {"page", "limit", "status", "startDate", "endDate"})
  {
    var schema := PaymentHistorySchema.query.value;
    ValidateSmallSchema(schema, req.query, g);
    DeclaredSmall(schema.keys);
  }

  /** paymentHistorySchema: every key optional; page and limit as for
      pagination, a transaction status, ISO dates, and an end date only
      together with a start date it does not precede. */
  lemma HistoryAcceptsExactly(req: Request, g: Grammar)
    ensures ValidateRequest(PaymentHistorySchema, req, g).None? <==> HistoryQuery(req.query, g)
  {
    HistoryParts(req, g);
    PageAccepts(req.query, g);
    LimitAccepts(req.query, g);
    ChoiceFieldAccepts("status", ChoiceField(STATUSES, "Invalid transaction status"), req.query, g);
    DateFieldAccepts("startDate", START_DATE, req.query, g);
    DateFieldAccepts("endDate", END_DATE, req.query, g);
  }
}

=== FILE: qr_controller.dfy ===
/**
 * The QR endpoints of src/controllers/qr.controller.ts: the owner of a new
 * QR is the authenticated user, deactivation is reserved to the QR's owner,
 * listings project the repository rows, and the statistics split the
 * admin's QRs into active and inactive.
 */
module QrController {
  import opened Types
  import opened Seqs
  import opened Ledger
  import opened QrRepository

  /** The `data` of a successful generateQR response (the image is left out). */
  datatype QrGenerated = QrGenerated(qrId: int, amount: int)

  /** generateQR: the owner is `req.user.id`; the body only supplies the amount. */
  method GenerateQRHandler(s: Store, user: TokenPayload, amount: int, payload: string) returns (r: Result<QrGenerated>)
    requires s.Valid()
    modifies s
    ensures s.Valid()
    ensures var issued := Issue(old(s.Snapshot()), user.id, amount, payload);
      s.Snapshot() == issued.state &&
      (r.Ok? <==> issued.result.Ok?) &&
      (r.Ok? ==> r.value == QrGenerated(issued.result.value.id, issued.result.value.amount) &&
                 issued.result.value.adminId == user.id) &&
      (r.Err? ==> r.error == issued.result.error)
  {
    var issued := GenerateQR(s, user.id, amount, payload);
    if issued.Err? {
      return Err(issued.error);
    }
    r := Ok(QrGenerated(issued.value.id, issued.value.amount));
  }

  /** deactivateQR: the QR must exist and belong to the caller; then is_active
      is set to false. Nothing else changes, whatever the outcome. */
  function Deactivate(st: State, adminId: int, qrId: int): (r: Step<()>)
    ensures r.result.Ok? <==> FindQr(st.qrs, qrId).Some? && FindQr(st.qrs, qrId).value.adminId == adminId
    ensures FindQr(st.qrs, qrId).None? ==> r == Step(st, Err(ValidationError("QR code not found")))
    ensures FindQr(st.qrs, qrId).Some? && FindQr(st.qrs, qrId).value.adminId != adminId ==>
      r == Step(st, Err(ValidationError("Unauthorized access to QR code")))
    ensures r.result.Ok? ==> r.state == st.(qrs := SetInactive(st.qrs, qrId))
  {
    match FindQr(st.qrs, qrId)
    case None => Step(st, Err(ValidationError("QR code not found")))
    case Some(q) =>
      if q.adminId != adminId then Step(st, Err(ValidationError("Unauthorized access to QR code")))
      else Step(st.(qrs := SetInactive(st.qrs, qrId)), Ok(()))
  }

  /** After deactivation the QR is found inactive, with owner and amount unchanged. */
  lemma DeactivateLeavesInactive(st: State, adminId: int, qrId: int)
    requires Deactivate(st, adminId, qrId).result.Ok?
    ensures var q := FindQr(st.qrs, qrId).value;
      FindQr(Deactivate(st, adminId, qrId).state.qrs, qrId) == Some(q.(isActive := false))
  {
    FindAfterSetInactive(st.qrs, qrId, qrId);
  }

  /** Deactivating again succeeds and changes nothing. */
  lemma DeactivateIdempotent(st: State, adminId: int, qrId: int)
    requires Deactivate(st, adminId, qrId).result.Ok?
    ensures var after := Deactivate(st, adminId, qrId).state;
      Deactivate(after, adminId, qrId) == Step(after, Ok(()))
  {
    FindAfterSetInactive(st.qrs, qrId, qrId);
    SetInactiveIdempotent(st.qrs, qrId);
  }

  method DeactivateQR(s: Store, user: TokenPayload, qrId: int) returns (r: Result<()>)
    requires s.Valid()
    modifies s
    ensures s.Valid()
    ensures Step(s.Snapshot(), r) == Deactivate(old(s.Snapshot()), user.id, qrId)
  {
    var q := s.FindQrById(qrId);
    if q.None? {
      return Err(ValidationError("QR code not found"));
    }
    if q.value.adminId != user.id {
      return Err(ValidationError("Unauthorized access to QR code"));
    }
    s.UpdateQrInactive(qrId);
    r := Ok(());
  }

  /** One entry of the getAdminTransactions response. */
  datatype QrSummary = QrSummary(id: int, amount: int, isActive: bool)

  /** One entry of the getActiveTransactions response. */
  datatype ActiveQrSummary = ActiveQrSummary(id: int, amount: int)

  function Summary(): QR -> QrSummary {
    (q: QR) => QrSummary(q.id, q.amount, q.isActive)
  }

  function ActiveSummary(): QR -> ActiveQrSummary {
    (q: QR) => ActiveQrSummary(q.id, q.amount)
  }

  /** getAdminTransactions: one entry per QR of the caller, in repository order. */
  function AdminListing(qrs: seq<QR>, adminId: int): (r: seq<QrSummary>)
    ensures |r| == |AdminTransactions(qrs, adminId)|
    ensures forall i :: 0 <= i < |r| ==>
      var q := AdminTransactions(qrs, adminId)[i];
      r[i] == QrSummary(q.id, q.amount, q.isActive)
  {
    Map(AdminTransactions(qrs, adminId), Summary())
  }

  /** getActiveTransactions: one entry per active QR of the caller, in repository order. */
  function ActiveListing(qrs: seq<QR>, adminId: int): (r: seq<ActiveQrSummary>)
    ensures |r| == |ActiveTransactions(qrs, adminId)|
    ensures forall i :: 0 <= i < |r| ==>
      var q := ActiveTransactions(qrs, adminId)[i];
      r[i] == ActiveQrSummary(q.id, q.amount) && q.isActive && q.adminId == adminId
  {
    Map(ActiveTransactions(qrs, adminId), ActiveSummary())
  }

  datatype QrStats = QrStats(totalAmountGenerated: int, total: int, active: int, inactive: int)

  function IsInactive(): QR -> bool {
    (q: QR) => !q.isActive
  }

  /** getTransactionStats: active counts the caller's active QRs, inactive is
      the difference, and that difference is exactly the inactive ones. */
  function TransactionStats(qrs: seq<QR>, adminId: int): (s: QrStats)
    ensures s.totalAmountGenerated == TotalAmountGenerated(qrs, adminId)
    ensures s.total == |AdminTransactions(qrs, adminId)|
    ensures s.active == |ActiveTransactions(qrs, adminId)|
    ensures s.inactive == |Filter(AdminTransactions(qrs, adminId), IsInactive())| >= 0
    ensures s.active + s.inactive == s.total
  {
    var mine := AdminTransactions(qrs, adminId);
    var active := |Filter(mine, IsActive())|;
    ActiveIsAdminAndActive(qrs, adminId);
    CountSplits(mine, IsActive(), IsInactive());
    CountIsFilterLength(mine, IsActive());
    CountIsFilterLength(mine, IsInactive());
    QrStats(TotalAmountGenerated(qrs, adminId), |mine|, active, |mine| - active)
  }
}

=== FILE: qr_repository.dfy ===
/**
 * The QR voucher lifecycle of src/repositories/qr-transaction.repository.ts.
 *
 * `Issue` and `Scan` specify generateQR and processQRScan on the store as a
 * value; the methods `GenerateQR` and `ProcessQRScan` perform the same
 * statements, in the source's order, on a `Store`. The per-admin listings
 * and the generated total are filters and sums over the qr table, tied to
 * the generic findAll by `AdminListingIsFindAll` and `ActiveListingIsFindAll`.
 *
 * The QR payload (the JSON of admin, amount and a timestamp, and its
 * encryption) is an opaque string given by the caller.
 */
module QrRepository {
  import opened Types
  import opened Seqs
  import opened Sql
  import opened BaseRepository
  import opened Ledger

  /** The error processQRScan reports for an unknown or spent QR: its own
      DatabaseError, printed by the template literal of the catch block. */
  function ScanRejected(): AppError {
    DatabaseError("Error processing QR scan: " + DatabaseError("Invalid or inactive QR code").Describe())
  }

  /** generateQR: read the balance, refuse if it is below the amount, insert
      an active QR, then debit the wallet. */
  function Issue(st: State, adminId: int, amount: int, payload: string): (r: Step<QR>)
    ensures r.result.Ok? <==> adminId in st.wallets && st.wallets[adminId] >= amount
    ensures adminId !in st.wallets ==> r.result == Err(DatabaseError("Admin wallet not found"))
    ensures adminId in st.wallets && st.wallets[adminId] < amount ==>
      r.result == Err(DatabaseError("Insufficient wallet balance"))
    ensures r.result.Err? ==> r.state == st
    ensures r.result.Ok? ==>
      r.result.value == QR(st.nextQrId, adminId, payload, amount, true) &&
      r.state.qrs == st.qrs + [r.result.value] &&
      r.state.wallets == st.wallets[adminId := st.wallets[adminId] - amount] &&
      r.state.customerTxns == st.customerTxns && r.state.payments == st.payments &&
      r.state.admins == st.admins && r.state.superAdmins == st.superAdmins &&
      r.state.nextQrId == st.nextQrId + 1 && r.state.nextCustomerTxnId == st.nextCustomerTxnId &&
      r.state.nextPaymentId == st.nextPaymentId && r.state.nextAdminId == st.nextAdminId
    ensures adminId in st.wallets && st.wallets[adminId] == amount ==>
      r.result.Ok? && r.state.wallets[adminId] == 0
  {
    match WalletBalance(st.wallets, adminId)
    case Err(e) => Step(st, Err(e))
    case Ok(balance) =>
      if balance < amount then Step(st, Err(DatabaseError("Insufficient wallet balance")))
      else
        var q := QR(st.nextQrId, adminId, payload, amount, true);
        var inserted := st.(qrs := st.qrs + [q], nextQrId := st.nextQrId + 1);
        Step(inserted.(wallets := Credit(inserted.wallets, adminId, -amount)), Ok(q))
  }

  /** processQRScan: the QR must exist and be active; one customer
      transaction carrying the stored amount is inserted, then the QR is
      deactivated. No wallet is touched. */
  function Scan(st: State, qrId: int, customerId: int): (r: Step<CustomerTransaction>)
    ensures r.result.Ok? <==> FindQr(st.qrs, qrId).Some? && FindQr(st.qrs, qrId).value.isActive
    ensures r.result.Err? ==> r.result.error == ScanRejected() && r.state == st
    ensures r.result.Ok? ==>
      r.result.value == CustomerTransaction(st.nextCustomerTxnId, customerId, qrId, FindQr(st.qrs, qrId).value.amount) &&
      r.state.customerTxns == st.customerTxns + [r.result.value] &&
      r.state.qrs == SetInactive(st.qrs, qrId) &&
      r.state.nextCustomerTxnId == st.nextCustomerTxnId + 1
    ensures r.state.wallets == st.wallets && r.state.payments == st.payments &&
      r.state.admins == st.admins && r.state.superAdmins == st.superAdmins &&
      r.state.nextQrId == st.nextQrId && r.state.nextPaymentId == st.nextPaymentId &&
      r.state.nextAdminId == st.nextAdminId
  {
    match FindQr(st.qrs, qrId)
    case None => Step(st, Err(ScanRejected()))
    case Some(q) =>
      if !q.isActive then Step(st, Err(ScanRejected()))
      else
        var t := CustomerTransaction(st.nextCustomerTxnId, customerId, qrId, q.amount);
        var inserted := st.(customerTxns := st.customerTxns + [t], nextCustomerTxnId := st.nextCustomerTxnId + 1);
        Step(inserted.(qrs := SetInactive(inserted.qrs, qrId)), Ok(t))
  }

  /** A redeemed QR cannot be redeemed again: the second scan fails and changes nothing. */
  lemma ScanTwiceRedeemsOnce(st: State, qrId: int, first: int, second: int)
    requires Scan(st, qrId, first).result.Ok?
    ensures var after := Scan(st, qrId, first).state;
      Scan(after, qrId, second) == Step(after, Err(ScanRejected())) &&
      |after.customerTxns| == |st.customerTxns| + 1
  {
    FindAfterSetInactive(st.qrs, qrId, qrId);
  }

  method GenerateQR(s: Store, adminId: int, amount: int, payload: string) returns (r: Result<QR>)
    requires s.Valid()
    modifies s
    ensures s.Valid()
    ensures Step(s.Snapshot(), r) == Issue(old(s.Snapshot()), adminId, amount, payload)
  {
    var balance := s.GetAdminWalletBalance(adminId);
    if balance.Err? {
      return Err(balance.error);
    }
    if balance.value < amount {
      return Err(DatabaseError("Insufficient wallet balance"));
    }
    var q := s.InsertQr(adminId, payload, amount);
    s.UpdateWalletBalance(adminId, -amount);
    r := Ok(q);
  }

  /** The scanned payload is accepted and ignored: only the id and the customer matter. */
  method ProcessQRScan(s: Store, qrId: int, customerId: int, encryptedData: string)
    returns (r: Result<CustomerTransaction>)
    requires s.Valid()
    modifies s
    ensures s.Valid()
    ensures Step(s.Snapshot(), r) == Scan(old(s.Snapshot()), qrId, customerId)
  {
    var q := s.FindQrById(qrId);
    if q.None? || !q.value.isActive {
      return Err(ScanRejected());
    }
    var t := s.InsertCustomerTxn(customerId, qrId, q.value.amount);
    s.UpdateQrInactive(qrId);
    r := Ok(t);
  }

  function OwnedBy(adminId: int): QR -> bool {
    (q: QR) => q.adminId == adminId
  }

  function ActiveOwnedBy(adminId: int): QR -> bool {
    (q: QR) => q.adminId == adminId && q.isActive
  }

  function IsActive(): QR -> bool {
    (q: QR) => q.isActive
  }

  function QrAmount(): QR -> int {
    (q: QR) => q.amount
  }

  /** getAdminTransactions: the admin's QRs, active or not, in table order. */
  function AdminTransactions(qrs: seq<QR>, adminId: int): (r: seq<QR>)
    ensures forall i :: 0 <= i < |r| ==> r[i] in qrs && r[i].adminId == adminId
    ensures forall i :: 0 <= i < |qrs| && qrs[i].adminId == adminId ==> qrs[i] in r
  {
    Filter(qrs, OwnedBy(adminId))
  }

  /** getActiveTransactions: the admin's QRs that are still active. */
  function ActiveTransactions(qrs: seq<QR>, adminId: int): (r: seq<QR>)
    ensures forall i :: 0 <= i < |r| ==> r[i] in qrs && r[i].adminId == adminId && r[i].isActive
    ensures forall i :: 0 <= i < |qrs| && qrs[i].adminId == adminId && qrs[i].isActive ==> qrs[i] in r
  {
    Filter(qrs, ActiveOwnedBy(adminId))
  }

  /** The active listing is the admin listing narrowed to active QRs. */
  lemma ActiveIsAdminAndActive(qrs: seq<QR>, adminId: int)
    ensures ActiveTransactions(qrs, adminId) == Filter(AdminTransactions(qrs, adminId), IsActive())
  {
    FilterFilter(qrs, OwnedBy(adminId), IsActive(), ActiveOwnedBy(adminId));
  }

  /** getTotalAmountGenerated: `COALESCE(SUM(amount), 0)` over the admin's QRs. */
  function TotalAmountGenerated(qrs: seq<QR>, adminId: int): int {
    SumOf(Filter(qrs, OwnedBy(adminId)), QrAmount())
  }

  /** The COALESCE case: an admin without QRs has generated 0. */
  lemma TotalWithoutQrs(qrs: seq<QR>, adminId: int)
    requires forall i :: 0 <= i < |qrs| ==> qrs[i].adminId != adminId
    ensures TotalAmountGenerated(qrs, adminId) == 0
  {
    FilterNone(qrs, OwnedBy(adminId));
  }

  /** Issuing a QR adds its amount to its owner's total and to no one else's. */
  lemma TotalAfterAppend(qrs: seq<QR>, q: QR, adminId: int)
    ensures TotalAmountGenerated(qrs + [q], adminId) ==
      TotalAmountGenerated(qrs, adminId) + (if q.adminId == adminId then q.amount else 0)
  {
    FilterAppend(qrs, [q], OwnedBy(adminId));
    SumOfAppend(Filter(qrs, OwnedBy(adminId)), Filter([q], OwnedBy(adminId)), QrAmount());
  }

  /** Deactivation keeps every total: spent QRs still count as generated. */
  lemma {:induction false} TotalAfterSetInactive(qrs: seq<QR>, id: int, adminId: int)
    ensures TotalAmountGenerated(SetInactive(qrs, id), adminId) == TotalAmountGenerated(qrs, adminId)
  {
    if qrs != [] {
      assert SetInactive(qrs, id)[1..] == SetInactive(qrs[1..], id);
      TotalAfterSetInactive(qrs[1..], id, adminId);
      var head := SetInactive(qrs, id)[0];
      FilterAppend([head], SetInactive(qrs[1..], id), OwnedBy(adminId));
      FilterAppend([qrs[0]], qrs[1..], OwnedBy(adminId));
      assert [head] + SetInactive(qrs[1..], id) == SetInactive(qrs, id);
      assert [qrs[0]] + qrs[1..] == qrs;
      SumOfAppend(Filter([head], OwnedBy(adminId)), Filter(SetInactive(qrs[1..], id), OwnedBy(adminId)), QrAmount());
      SumOfAppend(Filter([qrs[0]], OwnedBy(adminId)), Filter(qrs[1..], OwnedBy(adminId)), QrAmount());
    }
  }

  /** The qr table's columns. */
  const QrColumns: set<string> := {"id", "admin_id", "qr_data", "encrypted_data", "amount", "is_active", "created_at"}

  /** A QR as a generic row. */
  function QrRow(q: QR): Row {
    Row(q.id, map["admin_id" := IntV(q.adminId), "qr_data" := StrV(q.payload),
                  "amount" := IntV(q.amount), "is_active" := BoolV(q.isActive)])
  }

  function QrRowOf(): QR -> Row {
    (q: QR) => QrRow(q)
  }

  /** getAdminTransactions is findAll({ admin_id }) on the qr table. */
  lemma AdminListingIsFindAll(qrs: seq<QR>, adminId: int)
    ensures FindAll("qr", QrColumns, Map(qrs, QrRowOf()), [("admin_id", IntV(adminId))]) ==
      Ok(Map(AdminTransactions(qrs, adminId), QrRowOf()))
  {
    var conds: Pairs := [("admin_id", IntV(adminId))];
    assert KnownColumns(QrColumns, conds);
    forall q: QR ensures MatchesAll(conds)(QrRowOf()(q)) == OwnedBy(adminId)(q) {
      assert Field(QrRow(q), conds[0].0) == Some(IntV(q.adminId));
      assert Matches(QrRow(q), conds) <==> Field(QrRow(q), conds[0].0) == Some(conds[0].1);
    }
    FilterMap(qrs, QrRowOf(), OwnedBy(adminId), MatchesAll(conds));
  }

  /** getActiveTransactions is findAll({ admin_id, is_active: true }) on the qr table. */
  lemma ActiveListingIsFindAll(qrs: seq<QR>, adminId: int)
    ensures FindAll("qr", QrColumns, Map(qrs, QrRowOf()), [("admin_id", IntV(adminId)), ("is_active", BoolV(true))]) ==
      Ok(Map(ActiveTransactions(qrs, adminId), QrRowOf()))
  {
    var conds: Pairs := [("admin_id", IntV(adminId)), ("is_active", BoolV(true))];
    assert KnownColumns(QrColumns, conds);
    forall q: QR ensures MatchesAll(conds)(QrRowOf()(q)) == ActiveOwnedBy(adminId)(q) {
      assert Field(QrRow(q), conds[0].0) == Some(IntV(q.adminId));
      assert Field(QrRow(q), conds[1].0) == Some(BoolV(q.isActive));
      assert Matches(QrRow(q), conds) <==>
        Field(QrRow(q), conds[0].0) == Some(conds[0].1) && Field(QrRow(q), conds[1].0) == Some(conds[1].1);
    }
    FilterMap(qrs, QrRowOf(), ActiveOwnedBy(adminId), MatchesAll(conds));
  }

  /** The lookup by id on QRs is findById on the qr table. */
  lemma {:induction false} FindQrIsFindById(qrs: seq<QR>, id: int)
    ensures FindById(Map(qrs, QrRowOf()), id) ==
      (if FindQr(qrs, id).Some? then Some(QrRow(FindQr(qrs, id).value)) else None)
  {
    if qrs != [] {
      assert Map(qrs, QrRowOf())[1..] == Map(qrs[1..], QrRowOf());
      FindQrIsFindById(qrs[1..], id);
    }
  }

  /** Deactivation is update(id, { is_active: false }) on the qr table. */
  lemma SetInactiveIsUpdate(qrs: seq<QR>, id: int)
    ensures Map(SetInactive(qrs, id), QrRowOf()) ==
      Map(Map(qrs, QrRowOf()), PatchIfId(id, [("is_active", BoolV(false))]))
  {
    var data: Pairs := [("is_active", BoolV(false))];
    forall i | 0 <= i < |qrs|
      ensures QrRow(SetInactive(qrs, id)[i]) == PatchIfId(id, data)(QrRow(qrs[i]))
    {
      if qrs[i].id == id {
        assert ColumnsOf(data) == map["is_active" := BoolV(false)];
        assert QrRow(qrs[i]).cols + ColumnsOf(data) == QrRow(qrs[i].(isActive := false)).cols;
      }
    }
  }
}

=== FILE: seqs.dfy ===
/**
 * Order-preserving filters and sums over sequences: the `Array.filter`,
 * `Array.map`, `reduce` and SQL `WHERE` / `SUM` / `COUNT` shapes the source
 * uses over its tables.
 */
module Seqs {

  /** Keeps, in order, the elements that satisfy `p`. */
  function Filter<T(==)>(s: seq<T>, p: T -> bool): (r: seq<T>)
    ensures |r| <= |s|
    ensures forall i :: 0 <= i < |r| ==> r[i] in s && p(r[i])
    ensures forall i :: 0 <= i < |s| && p(s[i]) ==> s[i] in r
  {
    if s == [] then [] else (if p(s[0]) then [s[0]] else []) + Filter(s[1..], p)
  }

  lemma {:induction false} FilterAppend<T>(s: seq<T>, t: seq<T>, p: T -> bool)
    ensures Filter(s + t, p) == Filter(s, p) + Filter(t, p)
  {
    if s == [] {
      assert s + t == t;
    } else {
      assert (s + t)[1..] == s[1..] + t;
      FilterAppend(s[1..], t, p);
    }
  }

  /** Filtering by `p` then by `q` is filtering by both, whatever the order. */
  lemma {:induction false} FilterFilter<T>(s: seq<T>, p: T -> bool, q: T -> bool, pq: T -> bool)
    requires forall x :: pq(x) == (p(x) && q(x))
    ensures Filter(Filter(s, p), q) == Filter(s, pq)
    ensures Filter(Filter(s, q), p) == Filter(s, pq)
  {
    if s != [] {
      FilterFilter(s[1..], p, q, pq);
      FilterAppend(if p(s[0]) then [s[0]] else [], Filter(s[1..], p), q);
      FilterAppend(if q(s[0]) then [s[0]] else [], Filter(s[1..], q), p);
      var one := [s[0]];
      assert one[1..] == [];
    }
  }

  /** A filter whose predicate holds of every element keeps them all. */
  lemma {:induction false} FilterAll<T>(s: seq<T>, p: T -> bool)
    requires forall i :: 0 <= i < |s| ==> p(s[i])
    ensures Filter(s, p) == s
  {
    if s != [] {
      FilterAll(s[1..], p);
    }
  }

  /** A filter whose predicate holds of no element keeps nothing. */
  lemma {:induction false} FilterNone<T>(s: seq<T>, p: T -> bool)
    requires forall i :: 0 <= i < |s| ==> !p(s[i])
    ensures Filter(s, p) == []
  {
    if s != [] {
      FilterNone(s[1..], p);
    }
  }

  /** Applies `f` to every element, keeping the order. */
  function Map<T, U>(s: seq<T>, f: T -> U): (r: seq<U>)
    ensures |r| == |s|
    ensures forall i :: 0 <= i < |s| ==> r[i] == f(s[i])
  {
    if s == [] then [] else [f(s[0])] + Map(s[1..], f)
  }

  /** Sum of `f` over the elements (`reduce((sum, x) => sum + f(x), 0)`). */
  function SumOf<T>(s: seq<T>, f: T -> int): int
  {
    if s == [] then 0 else f(s[0]) + SumOf(s[1..], f)
  }

  lemma {:induction false} SumOfAppend<T>(s: seq<T>, t: seq<T>, f: T -> int)
    ensures SumOf(s + t, f) == SumOf(s, f) + SumOf(t, f)
  {
    if s == [] {
      assert s + t == t;
    } else {
      assert (s + t)[1..] == s[1..] + t;
      SumOfAppend(s[1..], t, f);
    }
  }

  /** Number of elements satisfying `p` (SQL `COUNT(CASE WHEN ... THEN 1 END)`). */
  function CountOf<T>(s: seq<T>, p: T -> bool): nat
  {
    if s == [] then 0 else (if p(s[0]) then 1 else 0) + CountOf(s[1..], p)
  }

  /** Counting the elements that satisfy `p` is the length of the filter by `p`. */
  lemma {:induction false} CountIsFilterLength<T>(s: seq<T>, p: T -> bool)
    ensures CountOf(s, p) == |Filter(s, p)|
  {
    if s != [] {
      CountIsFilterLength(s[1..], p);
    }
  }

  /** Elements split into those satisfying `p` and the others. */
  lemma {:induction false} CountSplits<T>(s: seq<T>, p: T -> bool, notP: T -> bool)
    requires forall x :: notP(x) == !p(x)
    ensures CountOf(s, p) + CountOf(s, notP) == |s|
  {
    if s != [] {
      CountSplits(s[1..], p, notP);
    }
  }

  /** Summing over the elements that satisfy `p` and over the others gives the whole sum. */
  lemma {:induction false} SumSplits<T>(s: seq<T>, f: T -> int, p: T -> bool, notP: T -> bool)
    requires forall x :: notP(x) == !p(x)
    ensures SumOf(Filter(s, p), f) + SumOf(Filter(s, notP), f) == SumOf(s, f)
  {
    if s != [] {
      SumSplits(s[1..], f, p, notP);
      SumOfAppend(if p(s[0]) then [s[0]] else [], Filter(s[1..], p), f);
      SumOfAppend(if notP(s[0]) then [s[0]] else [], Filter(s[1..], notP), f);
    }
  }

  /** Filtering the images by `q` is mapping the elements kept by `p`, when `q` on an image is `p` on its source. */
  lemma {:induction false} FilterMap<T, U>(s: seq<T>, f: T -> U, p: T -> bool, q: U -> bool)
    requires forall x :: q(f(x)) == p(x)
    ensures Filter(Map(s, f), q) == Map(Filter(s, p), f)
  {
    if s != [] {
      FilterMap(s[1..], f, p, q);
      assert Map(s, f)[1..] == Map(s[1..], f);
      var kept := if p(s[0]) then [s[0]] else [];
      assert Filter(s, p) == kept + Filter(s[1..], p);
      MapAppend(kept, Filter(s[1..], p), f);
    }
  }

  lemma {:induction false} MapAppend<T, U>(s: seq<T>, t: seq<T>, f: T -> U)
    ensures Map(s + t, f) == Map(s, f) + Map(t, f)
  {
  }
}

=== FILE: sql.dfy ===
/**
 * The parameterised SQL text built by src/repositories/base.repository.ts.
 * Conditions and row data are `Partial<T>` objects: their keys, in
 * `Object.keys` order, become column names, and `Object.values` in the same
 * order become the query parameters bound to `$1`, `$2`, ...
 * The multi-line templates of `create` and `update` are written here with
 * single spaces.
 */
module Sql {
  import opened Types
  import opened Strings

  /** A value bound to a placeholder. */
  datatype Value = IntV(i: int) | StrV(s: string) | BoolV(b: bool)

  /** Query text and the parameter list sent with it. */
  datatype Query = Query(text: string, params: seq<Value>)

  /** The entries of a `Partial<T>` object, in key order. */
  type Pairs = seq<(string, Value)>

  /** `Object.keys(o)`. */
  function Keys(o: Pairs): seq<string> {
    seq(|o|, i requires 0 <= i < |o| => o[i].0)
  }

  /** `Object.values(o)`. */
  function Values(o: Pairs): seq<Value> {
    seq(|o|, i requires 0 <= i < |o| => o[i].1)
  }

  /** `$i`. */
  function Placeholder(i: nat): string {
    "$" + Decimal(i)
  }

  /** `keys.map((key, index) => `${key} = $${index + from}`)`. */
  function Assignments(keys: seq<string>, from: nat): (r: seq<string>)
    ensures |r| == |keys|
    ensures forall i :: 0 <= i < |keys| ==> r[i] == keys[i] + " = " + Placeholder(from + i)
  {
    if keys == [] then [] else [keys[0] + " = " + Placeholder(from)] + Assignments(keys[1..], from + 1)
  }

  /** `values.map((_, index) => `$${index + 1}`)`. */
  function Placeholders(n: nat): seq<string> {
    seq(n, i requires 0 <= i < n => Placeholder(i + 1))
  }

  /** The conjunctive WHERE clause of findOne, findAll and count. */
  function WhereClause(keys: seq<string>): string {
    Join(Assignments(keys, 1), " AND ")
  }

  /** findAll: a WHERE clause only when there are conditions. */
  function FindAllQuery(table: string, conds: Pairs): (q: Query)
    ensures |conds| == 0 ==> q == Query("SELECT * FROM " + table, [])
    ensures |conds| > 0 ==> q.params == Values(conds)
  {
    if |conds| > 0 then Query("SELECT * FROM " + table + " WHERE " + WhereClause(Keys(conds)), Values(conds))
    else Query("SELECT * FROM " + table, [])
  }

  /** findOne: always has a WHERE clause, even an empty one. */
  function FindOneQuery(table: string, conds: Pairs): Query {
    Query("SELECT * FROM " + table + " WHERE " + WhereClause(Keys(conds)) + " LIMIT 1", Values(conds))
  }

  function FindByIdQuery(table: string, id: int): Query {
    Query("SELECT * FROM " + table + " WHERE id = $1", [IntV(id)])
  }

  /** count: the same WHERE rule as findAll. */
  function CountQuery(table: string, conds: Pairs): Query {
    if |conds| > 0 then Query("SELECT COUNT(*) FROM " + table + " WHERE " + WhereClause(Keys(conds)), Values(conds))
    else Query("SELECT COUNT(*) FROM " + table, [])
  }

  function InsertQuery(table: string, data: Pairs): Query {
    Query("INSERT INTO " + table + " (" + Join(Keys(data), ", ") + ") VALUES ("
            + Join(Placeholders(|data|), ", ") + ") RETURNING *",
          Values(data))
  }

  /** update: SET uses $1..$n and the id is bound last, as $(n+1). */
  function UpdateQuery(table: string, id: int, data: Pairs): Query {
    Query("UPDATE " + table + " SET " + Join(Assignments(Keys(data), 1), ", ")
            + " WHERE id = " + Placeholder(|data| + 1) + " RETURNING *",
          Values(data) + [IntV(id)])
  }

  function DeleteQuery(table: string, id: int): Query {
    Query("DELETE FROM " + table + " WHERE id = $1 RETURNING id", [IntV(id)])
  }

  /** The parameter a placeholder with these digits refers to ($k is params[k-1]). */
  function BoundTo(q: Query, digits: string): Option<Value>
    requires AllDigits(digits)
  {
    var k := ParseDecimal(digits);
    if 1 <= k <= |q.params| then Some(q.params[k - 1]) else None
  }

  /** Clause i reads `key_i = $d` and placeholder `$d` is bound to value_i. */
  ghost predicate Aligned(clauses: seq<string>, o: Pairs, q: Query) {
    |clauses| == |o| &&
    forall i :: 0 <= i < |o| ==>
      clauses[i] == o[i].0 + " = $" + Decimal(i + 1) && BoundTo(q, Decimal(i + 1)) == Some(o[i].1)
  }

  lemma AlignedWhenPrefix(o: Pairs, q: Query)
    requires |o| <= |q.params| && q.params[..|o|] == Values(o)
    ensures Aligned(Assignments(Keys(o), 1), o, q)
  {
    var clauses := Assignments(Keys(o), 1);
    forall i | 0 <= i < |o|
      ensures clauses[i] == o[i].0 + " = $" + Decimal(i + 1)
      ensures BoundTo(q, Decimal(i + 1)) == Some(o[i].1)
    {
      AssignmentAt(o, i);
      BoundToPrefix(o, q, i);
    }
  }

  lemma AssignmentAt(o: Pairs, i: int)
    requires 0 <= i < |o|
    ensures Assignments(Keys(o), 1)[i] == o[i].0 + " = $" + Decimal(i + 1)
  {
    var k := Keys(o)[i];
    assert k == o[i].0;
    assert " = " + "$" == " = $";
    calc {
      Assignments(Keys(o), 1)[i];
      k + " = " + Placeholder(1 + i);
      k + " = " + ("$" + Decimal(i + 1));
      (k + (" = " + "$")) + Decimal(i + 1);
    }
  }

  lemma BoundToPrefix(o: Pairs, q: Query, i: int)
    requires |o| <= |q.params| && q.params[..|o|] == Values(o)
    requires 0 <= i < |o|
    ensures BoundTo(q, Decimal(i + 1)) == Some(o[i].1)
  {
    DecimalRoundTrip(i + 1);
    assert q.params[i] == q.params[..|o|][i] == Values(o)[i];
  }

  /** For findAll, findOne and count: condition i becomes `k_i = $(i+1)`, bound to its own value. */
  lemma WhereBindsEachCondition(table: string, conds: Pairs)
    requires |conds| > 0
    ensures Aligned(Assignments(Keys(conds), 1), conds, FindAllQuery(table, conds))
    ensures Aligned(Assignments(Keys(conds), 1), conds, FindOneQuery(table, conds))
    ensures Aligned(Assignments(Keys(conds), 1), conds, CountQuery(table, conds))
  {
    AlignedWhenPrefix(conds, FindAllQuery(table, conds));
    AlignedWhenPrefix(conds, FindOneQuery(table, conds));
    AlignedWhenPrefix(conds, CountQuery(table, conds));
  }

  /** For update: SET entry i is bound to value i, and `WHERE id = $(n+1)` to the id. */
  lemma UpdateBindsValuesThenId(table: string, id: int, data: Pairs)
    ensures Aligned(Assignments(Keys(data), 1), data, UpdateQuery(table, id, data))
    ensures var q := UpdateQuery(table, id, data);
      |q.params| == |data| + 1 && BoundTo(q, Decimal(|data| + 1)) == Some(IntV(id))
  {
    var q := UpdateQuery(table, id, data);
    assert q.params[..|data|] == Values(data);
    AlignedWhenPrefix(data, q);
    DecimalRoundTrip(|data| + 1);
  }

  /** For create: column i and placeholder i follow the same key order, and `$(i+1)` is bound to value i. */
  lemma InsertAlignsColumnsAndValues(table: string, data: Pairs)
    ensures var q := InsertQuery(table, data);
      |Placeholders(|data|)| == |Keys(data)| == |q.params| &&
      forall i :: 0 <= i < |data| ==>
        Keys(data)[i] == data[i].0 && Placeholders(|data|)[i] == "$" + Decimal(i + 1) &&
        BoundTo(q, Decimal(i + 1)) == Some(data[i].1)
  {
    var q := InsertQuery(table, data);
    assert q.params == Values(data);
    forall i | 0 <= i < |data|
      ensures BoundTo(q, Decimal(i + 1)) == Some(data[i].1)
    {
      DecimalRoundTrip(i + 1);
    }
  }
}

=== FILE: strings.dfy ===
/**
 * The string operations the source relies on: rendering a number inside a
 * template literal, `Array.prototype.join` and `String.prototype.split`
 * with a one-character separator.
 */
module Strings {

  predicate IsDigit(c: char) {
    '0' <= c <= '9'
  }

  predicate AllDigits(s: string) {
    forall i :: 0 <= i < |s| ==> IsDigit(s[i])
  }

  function DigitChar(d: nat): (c: char)
    requires d < 10
    ensures IsDigit(c) && c as int - '0' as int == d
  {
    ('0' as int + d) as char
  }

  function DigitValue(c: char): nat
    requires IsDigit(c)
  {
    c as int - '0' as int
  }

  /** How `${n}` prints a natural number: decimal digits, no leading zero. */
  function Decimal(n: nat): (s: string)
    ensures |s| >= 1 && AllDigits(s)
    ensures |s| > 1 ==> s[0] != '0'
  {
    if n < 10 then [DigitChar(n)] else Decimal(n / 10) + [DigitChar(n % 10)]
  }

  /** Reads a string of decimal digits back as a number. */
  function ParseDecimal(s: string): nat
    requires AllDigits(s)
  {
    if s == [] then 0 else 10 * ParseDecimal(s[..|s| - 1]) + DigitValue(s[|s| - 1])
  }

  /** Reading back what `Decimal` printed gives the number again. */
  lemma {:induction false} DecimalRoundTrip(n: nat)
    ensures ParseDecimal(Decimal(n)) == n
  {
    if n >= 10 {
      var s := Decimal(n);
      assert s[..|s| - 1] == Decimal(n / 10);
      DecimalRoundTrip(n / 10);
    }
  }

  /** Distinct numbers print differently, so placeholders `$i` never collide. */
  lemma DecimalInjective(m: nat, n: nat)
    requires Decimal(m) == Decimal(n)
    ensures m == n
  {
    DecimalRoundTrip(m);
    DecimalRoundTrip(n);
  }

  /** How `${i}` prints any integer. */
  function IntToString(i: int): string {
    if i < 0 then "-" + Decimal(-i) else Decimal(i)
  }

  /** Distinct integers print differently. */
  lemma IntToStringInjective(i: int, j: int)
    requires IntToString(i) == IntToString(j)
    ensures i == j
  {
    if i < 0 && j < 0 {
      assert Decimal(-i) == IntToString(i)[1..];
      DecimalInjective(-i, -j);
    } else if i >= 0 && j >= 0 {
      DecimalInjective(i, j);
    }
  }

  /** `parts.join(sep)`. */
  function Join(parts: seq<string>, sep: string): string {
    if |parts| == 0 then ""
    else if |parts| == 1 then parts[0]
    else parts[0] + sep + Join(parts[1..], sep)
  }

  /** Number of occurrences of `c` in `s`. */
  function Occurrences(s: string, c: char): nat {
    if s == [] then 0 else (if s[0] == c then 1 else 0) + Occurrences(s[1..], c)
  }

  /** `s.split(c)` for a one-character separator: every occurrence of `c`
      cuts, so adjacent separators yield empty parts and "" yields [""]. */
  function Split(s: string, c: char): (parts: seq<string>)
    ensures |parts| == Occurrences(s, c) + 1
    ensures forall i :: 0 <= i < |parts| ==> c !in parts[i]
  {
    if |s| == 0 then [""]
    else
      var rest := Split(s[1..], c);
      if s[0] == c then [""] + rest else [[s[0]] + rest[0]] + rest[1..]
  }

  /** Joining the parts of a split with the separator restores the string. */
  lemma {:induction false} SplitJoin(s: string, c: char)
    ensures Join(Split(s, c), [c]) == s
  {
    if |s| > 0 {
      var rest := Split(s[1..], c);
      SplitJoin(s[1..], c);
      if s[0] == c {
        assert Split(s, c) == [""] + rest;
        assert ([""] + rest)[1..] == rest;
      } else if |rest| == 1 {
        assert Split(s, c) == [[s[0]] + rest[0]];
      } else {
        var parts := Split(s, c);
        assert parts == [[s[0]] + rest[0]] + rest[1..];
        assert parts[1..] == rest[1..];
        assert Join(rest, [c]) == rest[0] + [c] + Join(rest[1..], [c]);
        assert s == [s[0]] + s[1..];
      }
    }
  }

  /** A string without the separator splits into itself alone. */
  lemma {:induction false} SplitWithoutSeparator(s: string, c: char)
    requires c !in s
    ensures Split(s, c) == [s]
  {
    if |s| > 0 {
      assert c !in s[1..];
      SplitWithoutSeparator(s[1..], c);
      assert s[0] != c;
      assert Split(s, c) == [[s[0]] + s[1..]];
      assert [s[0]] + s[1..] == s;
    }
  }

  /** Splitting cuts at the first separator. */
  lemma {:induction false} SplitAtFirst(a: string, b: string, c: char)
    requires c !in a
    ensures Split(a + [c] + b, c) == [a] + Split(b, c)
  {
    if a == [] {
      assert (a + [c] + b)[1..] == b;
    } else {
      assert (a + [c] + b)[1..] == a[1..] + [c] + b;
      assert c !in a[1..];
      SplitAtFirst(a[1..], b, c);
      assert [a[0]] + a[1..] == a;
    }
  }
}

=== FILE: types.dfy ===
/**
 * Entities, error kinds and result wrappers shared by the whole model.
 * Mirrors src/types/index.ts; the ledger records (QR, CustomerTransaction,
 * AdminTransaction) and TransactionStatus are imported by the repositories
 * but not declared there, so they are declared here from the columns the
 * repositories read and write.
 */
module Types {

  datatype Option<+T> = None | Some(value: T)

  /** The four error classes of src/types/index.ts, plus any other thrown
      value, which the error handler only knows by its `name`. */
  datatype AppError =
    | ValidationError(message: string)
    | AuthenticationError(message: string)
    | AuthorizationError(message: string)
    | DatabaseError(message: string)
    | PlainError(name: string, message: string)
  {
    /** The `name` property each class sets in its constructor. */
    function Name(): string {
      match this
      case ValidationError(_) => "ValidationError"
      case AuthenticationError(_) => "AuthenticationError"
      case AuthorizationError(_) => "AuthorizationError"
      case DatabaseError(_) => "DatabaseError"
      case PlainError(n, _) => n
    }

    /** What a template literal `${error}` prints: Error.prototype.toString. */
    function Describe(): string {
      Name() + ": " + message
    }
  }

  /** A thrown error is the Err case; a returned value the Ok case. */
  datatype Result<+T> = Ok(value: T) | Err(error: AppError)

  /** Stored in `transaction_status` as its name. */
  datatype TransactionStatus = PENDING | SUCCESS | FAILED
  {
    function Text(): string {
      match this
      case PENDING => "PENDING"
      case SUCCESS => "SUCCESS"
      case FAILED => "FAILED"
    }
  }

  /** A row of the `qr` table. `payload` stands for the encrypted voucher
      data (qr_data / encrypted_data), which the model treats as opaque. */
  datatype QR = QR(id: int, adminId: int, payload: string, amount: int, isActive: bool)

  /** A row of the `customer_transaction` table. */
  datatype CustomerTransaction = CustomerTransaction(id: int, customerId: int, qrId: int, amount: int)

  /** A row of the `admin_transaction` table: one payment (top-up) order. */
  datatype AdminTransaction =
    AdminTransaction(id: int, adminId: int, transactionId: string, amount: int, status: TransactionStatus)

  datatype Admin = Admin(
    id: int,
    superadminId: int,
    name: string,
    email: string,
    phone: string,
    password: string,
    companyName: string)

  datatype SuperAdmin = SuperAdmin(id: int, name: string, email: string, password: string)

  datatype CreateAdminRequest = CreateAdminRequest(
    name: string,
    email: string,
    phone: string,
    password: string,
    companyName: string)

  /** The identity carried in a token and placed on `req.user`. */
  datatype TokenPayload = TokenPayload(id: int, name: string, email: string, role: string)

  const ROLE_ADMIN: string := "admin"
  const ROLE_SUPER_ADMIN: string := "super_admin"
}
